=== FILE: README.md ===
# Tutor backend: a verified model of its deterministic core

This project models the deterministic decision logic of an AI tutoring backend
and proves properties of it with Dafny. The backend has three main parts:

- a live-teaching stream that turns text fragments from a language model into a
  sequence of typed events (`start`, word `text`, `emphasis`, `visual_cue`,
  `pause`, then `complete` or `error`);
- a live-classroom registry of WebSocket sessions, with its connect and
  disconnect discipline, broadcasts and message dispatcher;
- a set of keyword classifiers, state machines and validators: visual-type
  choice, fallback explanations, lip-sync frames, visual generation dispatch,
  question processing and progress, authentication decisions, request schemas
  and the CORS origin list.

Language models, text-to-speech, image providers, the Manim renderer, the
database, password hashing and token signing are not modelled. They appear as
parameters:

- the fragments a stream delivers and whether it fails;
- a `broken` set of sockets whose sends raise;
- `World` records holding the provider keys and what each provider or the
  renderer answers;
- a `Crypto` record of hash, verify and sign functions;
- timestamps passed in as values.

Every operation is a pure function. A registry operation returns the new
registry together with its outbox, the ordered `(socket, message)` deliveries.

The live-teaching stream is defined for any emphasis check, meaning any
function from a word to its importance. `LiveTeaching.Stream` is the instance
that uses `_check_emphasis` (`Emphasis.CheckEmphasis`). The properties in
`LiveTeachingProperties` are proved for every check, so they hold for that one.

Modules, one per file:

| file | module | models |
|---|---|---|
| optional.dfy | Optional | `Option` |
| scan.dfy | Scan | first match in a sequence |
| pystr.dfy | PyStr | the Python `str` operations the core uses: `split()`, `split(c)`, `strip()`, `strip(chars)`, ASCII `lower()`, `in`, `find`, `replace` |
| emphasis.dfy | Emphasis | `_check_emphasis` |
| visual_cues.dfy | VisualCues | `_extract_visual_cue` and its trigger table |
| live_teaching.dfy | LiveTeaching, LiveTeachingProperties | `stream_explanation` as a fold over fragments, and its properties |
| classroom.dfy | Classroom | `LiveClassroomManager` state, `connect`, `disconnect`, `broadcast_to_session` |
| classroom_handlers.dfy | ClassroomHandlers | `handle_message` and the handlers it dispatches to, visual cues and the animation table |
| classroom_routes.dfy | ClassroomRoutes | the classroom socket loop, quick teach, session creation and status |
| teaching_pipeline.dfy | TeachingPipeline | `get_visual_type`, `generate_fallback_response`, lip-sync words and shapes, visual-type validation |
| visual_generation.dfy | VisualGeneration | `VisualGenerationService` dispatch, templates, scene names, placeholders |
| question_processor.dfy | QuestionProcessor | `process_question`, `_update_status`, `get_question_status` |
| auth.dfy | Auth | `register`, `login`, `update_profile`, `change_password` |
| schemas.dfy | Schemas | the question and user request/response schemas |
| config.dfy | Config | `Settings.cors_origins_list` |

## Model

| member | source | states |
|---|---|---|
| PyStr.Split | app/services/live_teaching.py:74 | `str.split()` yields whitespace-free, non-empty tokens |
| PyStr.SplitKeepsText | app/services/live_teaching.py:74 | splitting loses only whitespace: the tokens concatenate to the text with its whitespace removed |
| PyStr.SplitJoinSpace | app/api/routes/teaching_pipeline.py:342 | splitting words joined by single spaces gives the words back |
| PyStr.Lower | app/services/live_teaching.py:185 | lowering keeps the length, so indices found in the lowered sentence are valid in the original |
| PyStr.LowerTwice | app/services/live_teaching.py:173 | lowering twice is lowering once |
| PyStr.LowerAppend | app/services/live_teaching.py:173 | lowering distributes over concatenation |
| PyStr.Find | app/services/live_teaching.py:190 | `find` returns -1 exactly when the substring is absent, and otherwise its first occurrence |
| PyStr.FindFrom | app/services/live_teaching.py:191 | `find(sub, start)` returns the first occurrence at or after `start`, or -1 when there is none |
| PyStr.StripChars | app/services/live_teaching.py:173 | `strip(chars)` returns a slice of the word with none of the characters at either end, and everything it cut off before and after that slice is one of the characters |
| PyStr.StripCharsAround | app/services/live_teaching.py:173 | characters of the strip set stuck to either end of a word make no difference |
| PyStr.Strip | app/services/live_teaching.py:193 | `strip()` returns a slice of the text that starts and ends with a non-space character, and everything it cut off before and after that slice is whitespace |
| PyStr.SplitOn | app/core/config.py:61 | `split(",")` gives one more piece than there are commas, and no piece contains a comma |
| PyStr.ReplaceChar | app/services/visual_generation.py:568 | `replace` changes exactly the occurrences of one character into another and nothing else |
| PyStr.RemoveChars | app/services/visual_generation.py:79 | removing characters leaves none of them and never lengthens the text |
| PyStr.RemoveCharsCounts | app/services/visual_generation.py:79 | every other character is kept exactly as often as it occurs |
| PyStr.RemoveCharsAppend | app/services/visual_generation.py:79 | removal distributes over concatenation, so the remaining characters keep their order |
| PyStr.RemoveCharsOfClean | app/services/visual_generation.py:79 | text containing none of the characters is unchanged |
| PyStr.RemoveCharsEmpty | app/services/visual_generation.py:79 | nothing remains exactly when every character is one that is removed |
| PyStr.Take | app/services/visual_generation.py:79 | `s[:n]` is the prefix of length `min(n, len(s))` |
| Emphasis.CheckEmphasisMeaning | app/services/live_teaching.py:157-180 | the result is high exactly when the lowered, stripped word is in the high list, medium exactly when it is in the medium list, and none otherwise |
| Emphasis.KeywordListsDisjoint | app/services/live_teaching.py:161-171 | no word is in both lists, so the order of the two checks cannot change a result |
| Emphasis.EmphasisIgnoresCase | app/services/live_teaching.py:173 | a word and its lowered form get the same emphasis |
| Emphasis.EmphasisIgnoresEdgePunctuation | app/services/live_teaching.py:173 | `.,!?` before or after a word do not change its emphasis ("Gravity." is as important as "gravity") |
| Emphasis.AmongIsMembership | app/services/live_teaching.py:175-178 | the list scan is Python's `in` on a list |
| VisualCues.MarkerSpan | app/services/live_teaching.py:188-192 | a marker span exists exactly when `[visual:` occurs (any case) and the first `]` after it is not right after it; the span lies between the marker and that `]` |
| VisualCues.CloseBracketSurvivesLower | app/services/live_teaching.py:191 | a `]` found in the lowered sentence is a `]` of the original sentence |
| VisualCues.ExtractVisualCue | app/services/live_teaching.py:182-218 | a marker span yields `show_visual` with the stripped original-case text; otherwise the first trigger in table order contained in the lowered sentence decides; with no trigger the result is none |
| VisualCues.TriggerCue | app/services/live_teaching.py:199-217 | none exactly when no trigger phrase occurs; otherwise the cue of the first trigger that occurs |
| LiveTeaching.Release | app/services/live_teaching.py:73-94 | a buffer with a space or newline emits every token but the last and keeps the last; the emitted tokens plus the kept one are exactly `split()` of the buffer; a buffer without a break is kept whole |
| LiveTeaching.Feed | app/services/live_teaching.py:65-108 | one fragment appends to the full text; an empty fragment changes nothing and emits nothing; afterwards the word buffer has no break and the sentence buffer no `.!?`; the events are well formed for the emphasis check in use |
| LiveTeaching.Run | app/services/live_teaching.py:65-108 | over all fragments the full text is their concatenation, and the buffers stay settled |
| LiveTeaching.StreamWith | app/services/live_teaching.py:46-126 | for any emphasis check, the stream opens with `start`, ends with exactly one terminal event (`complete` with the full text, or `error` with the message), and nothing in between is a start or terminal event |
| LiveTeaching.Stream | app/services/live_teaching.py:46-126 | the service's stream, which emphasises by `_check_emphasis`, has that same frame |
| LiveTeaching.SentenceEndEvents | app/services/live_teaching.py:96-108 | a sentence end is the 300 ms pause, last, preceded by the sentence's visual cue, a known one, exactly when the sentence has one |
| LiveTeaching.SentenceEndValid | app/services/live_teaching.py:96-108 | the events at a sentence boundary are well formed, whatever the emphasis check |
| LiveTeaching.WordEventsValid | app/services/live_teaching.py:75-89 | every word emits a well-formed text event, followed by its emphasis event when it has one |
| LiveTeaching.ValidBodyKinds | app/services/live_teaching.py:76-108 | between start and the end, only text, emphasis, cue and pause events occur |
| LiveTeachingProperties.StreamShape | app/services/live_teaching.py:46-126 | the body of every stream is well formed up to the flushed buffer and the terminal event |
| LiveTeachingProperties.StreamEmphasis | app/services/live_teaching.py:76-89 | in a whole stream an emphasis event comes right after the text of its word and carries the importance the check gives that word; a timed text is a complete word, followed by an emphasis event exactly when the check gives the word an importance |
| LiveTeachingProperties.ValidBodyMeaning | app/services/live_teaching.py:74-108 | in a well-formed body every word text is a non-empty token plus one space; an emphasis follows its word immediately and carries the bare token; a cue is known and immediately precedes a pause |
| LiveTeachingProperties.StreamSpeaks | app/services/live_teaching.py:61-118 | the text events of a completed stream spell out the fragments, up to whitespace |
| LiveTeachingProperties.RunSpeaks | app/services/live_teaching.py:65-94 | what has been spoken plus the word buffer is, up to whitespace, the buffer before plus every fragment |
| LiveTeachingProperties.FeedSpeaks | app/services/live_teaching.py:68-94 | one fragment: what is spoken plus the new buffer is, up to whitespace, the old buffer plus the fragment |
| LiveTeachingProperties.StreamPieces | app/services/live_teaching.py:110-118 | a completed stream is start, the fold's events, the flushed buffer as one text event, then `complete` |
| LiveTeachingProperties.FeedSentenceEnd | app/services/live_teaching.py:96-108 | a fragment that ends a sentence emits exactly one pause, as its last event, preceded by at most one cue, and empties the sentence buffer; otherwise no pause and no cue |
| LiveTeachingProperties.SentenceEndCounts | app/services/live_teaching.py:97-108 | a sentence end is one pause, preceded by its cue when the sentence has one |
| LiveTeachingProperties.ChunksGlueWords | app/services/live_teaching.py:73-112 | "u " then "v " emits no word: the buffer keeps "u", then "uv" (split drops the space), which is flushed as one text event without trailing space |
| LiveTeachingProperties.GlueRun | app/services/live_teaching.py:73-94 | after "u " and "v " the word buffer holds the glued token "uv" and nothing has been emitted |
| LiveTeachingProperties.WordEventsSpeak | app/services/live_teaching.py:75-80 | the word events of a list of tokens spell out the tokens |
| LiveTeachingProperties.ReleaseKeepsText | app/services/live_teaching.py:74-94 | releasing a buffer loses only whitespace |
| LiveTeachingProperties.SentenceEndSilent | app/services/live_teaching.py:97-108 | a sentence end adds no spoken text |
| Classroom.Ascending | app/services/websocket_handler.py:123 | a socket set is visited in increasing order, each member exactly once |
| Classroom.Deliver | app/services/websocket_handler.py:122-129 | a broadcast pass delivers the message to every member that is not excluded and not broken, and to no one else |
| Classroom.Failing | app/services/websocket_handler.py:122-130 | the sockets whose send failed are exactly the broken, non-excluded members |
| Classroom.Join | app/services/websocket_handler.py:43-59 | a new session starts with no question, not teaching, and one participant; the socket joins the session's set, its user entry is recorded, and the count is the size of the set |
| Classroom.Connect | app/services/websocket_handler.py:33-79 | the new socket alone receives `connected` with the post-join count first; every other member receives `user_joined`; the socket is registered; a session created here keeps its fresh state |
| Classroom.Disconnect | app/services/websocket_handler.py:81-109 | an unknown socket changes nothing; otherwise its entry goes; when members remain, each of them that is not broken gets one `user_left` carrying the lowered participant count; when none remain, nothing is sent and the session is removed from both maps; only broken sockets and the socket itself are dropped |
| Classroom.Broadcast | app/services/websocket_handler.py:111-135 | an unknown session changes nothing; the pass delivers to every non-excluded working member; failed sockets are disconnected only after the full pass; the registry stays consistent |
| Classroom.DisconnectAll | app/services/websocket_handler.py:132-135 | disconnecting the failed sockets one after another removes each of them and sends only `user_left` |
| Classroom.MinOf | app/services/websocket_handler.py:123 | a non-empty socket set has a least member |
| Classroom.Seat | app/services/websocket_handler.py:43-59 | joining keeps the registry sound: the participant count equals the size of the session's socket set |
| Classroom.Unseat | app/services/websocket_handler.py:88-99 | removing a socket from a session that keeps other members keeps the count equal to the set size |
| Classroom.UnseatLast | app/services/websocket_handler.py:95-97 | removing the last socket removes the session from both maps |
| Classroom.DeliverAscending | app/services/websocket_handler.py:123-125 | a broadcast pass delivers to each socket at most once, in order |
| Classroom.BroadcastShapeIntro | app/services/websocket_handler.py:119-135 | a pass followed by the disconnects of the failed sockets has the broadcast's shape |
| ClassroomHandlers.AnimationDataFor | app/services/websocket_handler.py:267-313 | a listed animation type gets its table data; any other, or none, gets `Generic` for 2000 ms |
| ClassroomHandlers.ListedAnimationsAreNotGeneric | app/services/websocket_handler.py:270-311 | no listed animation is called `Generic` |
| ClassroomHandlers.ProcessVisualCue | app/services/websocket_handler.py:238-265 | `animate` yields an animation update with the table data for its type; `show_visual` yields an image update with the description; any other action yields none |
| ClassroomHandlers.AnimateTriggersAreListed | app/services/live_teaching.py:200-207 | every `animate` cue of the trigger table names a key of the animation table |
| ClassroomHandlers.StreamCuesNeverGeneric | app/services/live_teaching.py:182-218 | an `animate` cue extracted from a sentence never falls back to `Generic` |
| ClassroomHandlers.KnownAnimateCueNotGeneric | app/services/websocket_handler.py:244-252 | a known `animate` cue never falls back to `Generic` |
| ClassroomHandlers.BroadcastAll | app/services/websocket_handler.py:111-135 | broadcasting messages one after another: every member that stays working hears all of them, in order, once each |
| ClassroomHandlers.HeardOnce | app/services/websocket_handler.py:122-125 | in one pass a member hears the message exactly once |
| ClassroomHandlers.HeardOfShape | app/services/websocket_handler.py:111-135 | a working member of the session hears a broadcast exactly once |
| ClassroomHandlers.ExpandAllRelays | app/services/websocket_handler.py:202-215 | relaying the stream into the session loses and reorders no event; a cue adds its `visual_update` after it |
| ClassroomHandlers.TeachingRun | app/services/websocket_handler.py:188-215 | the session records the question and is marked as teaching for the run; every working member hears `teaching_start` first, then each stream event in order, each cue followed by its `visual_update` |
| ClassroomHandlers.LessonHasNoLeaveNotice | app/services/websocket_handler.py:188-221 | a lesson and its end contain no `user_left` |
| ClassroomHandlers.HandleQuestion | app/services/websocket_handler.py:169-236 | an empty question sends one error to the asker only and changes nothing else; otherwise the session is taught as `Teach` states: the lesson runs and teaching ends; when every member's socket failed and the session is gone, the `except` branch's error broadcast reaches nobody and clearing `is_teaching` raises again, so the call raises |
| ClassroomHandlers.Teach | app/services/websocket_handler.py:188-236 | a run either ends with `teaching_end` and `is_teaching` false, or raises with the session gone (the source's KeyError); every working member hears the lesson in order |
| ClassroomHandlers.EndTeaching | app/services/websocket_handler.py:217-221 | ending the run raises exactly when the session has gone; otherwise it clears `is_teaching` and broadcasts `teaching_end` |
| ClassroomHandlers.TaughtToTheEnd | app/services/websocket_handler.py:188-221 | a working member hears the lesson followed by `teaching_end` |
| ClassroomHandlers.HandlePause | app/services/websocket_handler.py:360-384 | pause and resume set the session's paused flag and broadcast `session_paused` or `session_resumed` |
| ClassroomHandlers.HandleVisualRequest | app/services/websocket_handler.py:315-358 | a loading message is broadcast, then the rendered visual |
| ClassroomHandlers.VisualRequestUsesGenerator | app/services/websocket_handler.py:336-352 | with the visual service as the renderer, listeners hear the loading notice and then the service's type and url for the concept; the type is `animation` only when an animation was requested |
| ClassroomHandlers.HandleChat | app/services/websocket_handler.py:403-422 | the chat text is broadcast with the sender's user id and the time |
| ClassroomHandlers.Get | app/services/websocket_handler.py:149 | `message.get(key)` is present exactly when the key is |
| ClassroomHandlers.HandleMessage | app/services/websocket_handler.py:137-167 | an unknown socket or an unknown message type changes nothing; each known type goes to its handler; only a question or feedback can raise |
| ClassroomHandlers.HandleOther | app/services/websocket_handler.py:154-167 | the non-question types: feedback to a broken socket raises, the others go to their handlers |
| ClassroomRoutes.SessionStatus | app/api/routes/live_classroom.py:115-135 | an unknown session is inactive; a known one is active and copies participants, teaching flag, question and creation time without changing the registry |
| ClassroomRoutes.StatusCountsSockets | app/api/routes/live_classroom.py:131 | a reported session's participant count is the number of its sockets, at least one |
| ClassroomRoutes.Serve | app/api/routes/live_classroom.py:51-55 | the receive loop keeps the registry sound and drops only broken sockets; an unregistered socket's messages change nothing |
| ClassroomRoutes.ClassroomSocket | app/api/routes/live_classroom.py:17-61 | the socket is connected and welcomed before any message is handled; the route raises exactly when the welcome send fails, and then the socket stays registered; otherwise it is disconnected however the loop ends |
| ClassroomRoutes.QuickAnswer | app/api/routes/live_classroom.py:77-94 | a missing or empty question gets one error and no stream; otherwise the stream's events are relayed in order |
| ClassroomRoutes.QuickTeachAnswersEach | app/api/routes/live_classroom.py:76-94 | the loop answers every request: one stream per question and one error per request without one |
| ClassroomRoutes.QuickAnswerCounts | app/api/routes/live_classroom.py:82-94 | one request gives one start or one error, never both |
| ClassroomRoutes.RelayedStreamStartsOnce | app/api/routes/live_classroom.py:90-94 | a relayed stream contains exactly one start |
| ClassroomRoutes.RelaysOf | app/api/routes/live_classroom.py:94 | relaying sends every event, unchanged and in order |
| ClassroomRoutes.CreateSession | app/api/routes/live_classroom.py:102-112 | the session id is the uuid's 8-character prefix and the url is `/ws/classroom/` followed by it |
| ClassroomRoutes.SessionLinkNamesSession | app/api/routes/live_classroom.py:17-110 | the url a new session gets routes back to that session's id |
| TeachingPipeline.FirstRowFrom | app/api/routes/teaching_pipeline.py:73-135 | the scan returns the first row, from the given one on, whose keywords occur, or none when no row matches |
| TeachingPipeline.VisualTypeIn | app/api/routes/teaching_pipeline.py:70-138 | the result is the entry of the first row, in listed order, with a keyword in the lowered question and example; with no such row it is `falling_object` |
| TeachingPipeline.FirstVisualRowUnique | app/api/routes/teaching_pipeline.py:133-135 | at most one row is the first match, so the choice is determined |
| TeachingPipeline.SunMeansOrbit | app/api/routes/teaching_pipeline.py:98-135 | text containing "sun" never yields `photosynthesis` |
| TeachingPipeline.SunMatchesOrbitRow | app/api/routes/teaching_pipeline.py:98 | "sun" is a keyword of the orbital-motion row |
| TeachingPipeline.MatchingRowBounds | app/api/routes/teaching_pipeline.py:133-135 | when a row matches, the chosen entry comes from that row or an earlier one |
| TeachingPipeline.EarlyRowsAreNotPhotosynthesis | app/api/routes/teaching_pipeline.py:73-98 | no row up to orbital motion yields `photosynthesis` |
| TeachingPipeline.ResolveVisualType | app/api/routes/teaching_pipeline.py:401-409 | a proposed type among the 11 valid names is kept; any other is replaced by the keyword choice |
| TeachingPipeline.ResolveIsIdempotent | app/api/routes/teaching_pipeline.py:401-409 | resolving a resolved type changes nothing |
| TeachingPipeline.ResolvedTypeIsKnown | app/api/routes/teaching_pipeline.py:401-409 | the resolved type is a valid name or one of the keyword table's types |
| TeachingPipeline.FirstKeyFrom | app/api/routes/teaching_pipeline.py:249-294 | the scan returns the first fallback key, in insertion order, contained in the lowered question, or none |
| TeachingPipeline.FallbackFrom | app/api/routes/teaching_pipeline.py:245-300 | the answer of the first matching key; with no match, the default answer |
| TeachingPipeline.DefaultEchoesQuestion | app/api/routes/teaching_pipeline.py:296-300 | with no matching key, the spoken text contains the original question |
| TeachingPipeline.FirstKeyWins | app/api/routes/teaching_pipeline.py:249-294 | when the first key matches, its answer is given whatever else matches |
| TeachingPipeline.NewtonComesFirst | app/api/routes/teaching_pipeline.py:249-256 | a question mentioning newton gets the newton answer |
| TeachingPipeline.MouthShapeIgnoresCase | app/api/routes/teaching_pipeline.py:346-362 | both character classes list both cases, so a word and its lowered form get the same shape |
| TeachingPipeline.LipSyncData | app/api/routes/teaching_pipeline.py:340-376 | the word count and the number of frames both equal `len(text.split())`; frame i carries word i and its shape (open with a vowel, else wide with m/b/p, else neutral) |
| TeachingPipeline.BlankTextHasNoFrames | app/api/routes/teaching_pipeline.py:342-374 | blank text has no frames and a word count of zero |
| TeachingPipeline.FramesFollowWords | app/api/routes/teaching_pipeline.py:342-369 | the frames of space-joined words are those words, in order |
| VisualGeneration.PlaceholderUrl | app/services/visual_generation.py:566-573 | the url is the placeholder base followed by the concept with every space replaced by `+` |
| VisualGeneration.PlaceholderTextRoundTrip | app/services/visual_generation.py:568 | for a concept without `+`, turning `+` back into spaces recovers the concept from the url |
| VisualGeneration.PlaceholderVisual | app/services/visual_generation.py:566-573 | the placeholder has type `placeholder`, format `png` and the concept's url |
| VisualGeneration.FallbackVisual | app/services/visual_generation.py:553-564 | the fallback is the placeholder with the "in progress" message |
| VisualGeneration.SceneName | app/services/visual_generation.py:79 | the scene name is 5 to 25 characters, ends in `Scene` and contains no space or `?` |
| VisualGeneration.SceneNameSkips | app/services/visual_generation.py:79 | a space or `?` anywhere in the concept does not change the scene name |
| VisualGeneration.SceneNameOfCleanConcept | app/services/visual_generation.py:79 | a concept without spaces or `?` is cut to its first 20 characters (kept whole when shorter), followed by `Scene` |
| VisualGeneration.SceneNameOfCleaned | app/services/visual_generation.py:79 | the scene name depends only on the concept with spaces and `?` taken out; with the row above it is the first 20 remaining characters followed by `Scene` |
| VisualGeneration.PrepareScript | app/services/visual_generation.py:82-138 | the script always defines a class and contains the code; code that already mentions `class` is used unchanged |
| VisualGeneration.PrepareIsIdempotent | app/services/visual_generation.py:82-83 | preparing a prepared script changes nothing |
| VisualGeneration.SelectTemplate | app/services/visual_generation.py:160-185 | the chosen template's keywords occur in the lowered concept and no earlier template's do; none is chosen only when no template's keywords occur |
| VisualGeneration.TemplateIgnoresDescription | app/services/visual_generation.py:160-185 | the description never affects the choice |
| VisualGeneration.RenderManim | app/services/visual_generation.py:70-128 | the result is the scene's video when rendering succeeds and the fallback visual otherwise |
| VisualGeneration.GenerateImage | app/services/visual_generation.py:432-458 | Stability is used when its key is set, else Replicate when its token is set, else the placeholder; a provider failure gives the placeholder |
| VisualGeneration.StabilityComesFirst | app/services/visual_generation.py:446-451 | with a Stability key set, the Replicate settings make no difference |
| VisualGeneration.TemplateAnimation | app/services/visual_generation.py:140-158 | the chosen template is rendered; with none, image generation is used |
| VisualGeneration.GenerateAnimation | app/services/visual_generation.py:54-68 | non-empty Manim code is rendered; otherwise the template path is taken |
| VisualGeneration.GenerateVisual | app/services/visual_generation.py:27-52 | `animation` goes to animation generation; image, diagram and any other type go to image generation |
| VisualGeneration.VideoOnlyForAnimations | app/services/visual_generation.py:45-128 | only an animation request can produce a video, always of the concept's scene, and only a video is mp4 |
| VisualGeneration.FailuresEndInPlaceholder | app/services/visual_generation.py:553-573 | every result is a video, a provider's image or a placeholder with the concept's url |
| VisualGeneration.NothingConfiguredGivesPlaceholder | app/services/visual_generation.py:446-458 | with no code, no template and no provider, an animation request ends in the plain placeholder |
| QuestionProcessor.PlannedSteps | app/services/question_processor.py:64-104 | analyzing then explanation always; the visual step exactly when it is asked for and suggested; the avatar step exactly when it is asked for; in that order; none is an error step |
| QuestionProcessor.Snapshots | app/services/question_processor.py:163-176 | recording steps one by one saves a processing record after each, holding the steps so far |
| QuestionProcessor.Stored | app/services/question_processor.py:163-176 | the steps whose processing record was stored are those reached, less the last one exactly when the save recording it raised |
| QuestionProcessor.Saves | app/services/question_processor.py:119-159 | after the step records come one final record, or two (completed, then failed) exactly when only the history insert raises |
| QuestionProcessor.SavedRecords | app/services/question_processor.py:52-176 | the fresh record first, then one record per stored step, then the final saves, and nothing more; the last record is completed with every planned step when nothing raises, otherwise failed with the steps reached plus an error step (a step whose status save raised is listed there though its own record was never stored); a completed record is saved exactly when nothing raises or only the history insert does, and then it comes just before the failed one |
| QuestionProcessor.RunOver | app/services/question_processor.py:52-176 | for any non-empty plan: the record count is the fresh record, the stored steps and the final saves; the call raises exactly when it meets its failure; without a raise it ends completed and inserts history exactly when a user id is given; with one it ends failed with the steps reached plus an error step and no history; a completed record is saved exactly when nothing raises or only the history insert does |
| QuestionProcessor.ProcessQuestion | app/services/question_processor.py:26-176 | the call raises exactly when a step's status save, a step, the completed save or (for a logged-in user) the history insert raises; the saved records are the fresh one, one per stored step and the final saves; without a raise it ends completed with every planned step and inserts history exactly when a user id is given; with one it ends failed with the steps reached plus an error step and inserts no history; when only the history insert raises, the completed record was saved just before the failed one |
| QuestionProcessor.IntendedRunOver | app/services/question_processor.py:119-161 | over any plan, the written run except that when only the history insert raises the failed record is not saved, so the question ends completed |
| QuestionProcessor.ProcessQuestionIntended | app/services/question_processor.py:119-161 | the same run, except that when only the history insert raises the question stays completed: the call still raises and inserts no history |
| QuestionProcessor.CountDone | app/services/question_processor.py:249-251 | the non-error steps are at most all steps |
| QuestionProcessor.Progress | app/services/question_processor.py:249-254 | progress is 25 per non-error step, capped at 100, and 100 once completed; always within 0 to 100 |
| QuestionProcessor.Names | app/services/question_processor.py:265 | every step name in order, error steps included |
| QuestionProcessor.QuestionStatus | app/services/question_processor.py:236-266 | a missing question is not found; a stored one reports its status, progress, all step names, and the last step's message as the current step, or none without steps |
| QuestionProcessor.ProgressOfPrefix | app/services/question_processor.py:249-251 | a processing record with k planned steps reports 25 k |
| QuestionProcessor.CountDoneWithError | app/services/question_processor.py:151-251 | the error step a failure appends does not count |
| QuestionProcessor.PlanProgress | app/services/question_processor.py:119-254 | over any plan of one to four non-error steps, each saved record reports 25 per step stored so far; the record after the steps reports 100 when it is the completed one; a failed record reports 25 per step reached |
| QuestionProcessor.SavedProgress | app/services/question_processor.py:119-176 | each saved record reports 25 per step stored so far; the record after the steps reports 100 when it is the completed one; a failed record reports 25 per step reached |
| QuestionProcessor.ProgressGoesBackOnlyOnHistoryFailure | app/services/question_processor.py:119-159 | as written, progress read back during a run never decreases exactly unless the history insert raises after fewer than four steps |
| QuestionProcessor.HistoryFailureDropsProgress | app/services/question_processor.py:119-159 | a logged-in run without visual or avatar whose history insert raises saves progress 100 and then 50 |
| QuestionProcessor.StatusSaveFailureSkipsSnapshot | app/services/question_processor.py:151-176 | a plain run whose explanation status save raises saves the fresh record, the analysis record, then the failed record listing analysis, explanation and the error |
| QuestionProcessor.ProgressNeverGoesBack | app/services/question_processor.py:119-254 | in the intended run over any plan of one to four non-error steps, read back at any point, progress never decreases |
| QuestionProcessor.IntendedQuestionNeverGoesBack | app/services/question_processor.py:119-254 | the same for the plans `process_question` makes |
| QuestionProcessor.FinishedRunReportsComplete | app/services/question_processor.py:236-266 | a run that does not raise reads back as completed, progress 100, every planned step listed, and the last step's message current |
| QuestionProcessor.FailedRunReportsError | app/services/question_processor.py:151-266 | a run that raises reads back as failed, with the exception's message current, error listed last, and 25 per step begun |
| Auth.ToResponse | app/schemas/user.py:21-31 | the public view copies every public field |
| Auth.ResponseHidesPassword | app/schemas/user.py:21-31 | the public view does not depend on the password hash |
| Auth.Issue | app/api/routes/auth.py:60-68 | a bearer token signed for the user's id, carrying exactly the user's public profile |
| Auth.FindByEmail | app/api/routes/auth.py:33-76 | the first stored user with the email, or none exactly when no user has it |
| Auth.NewUser | app/api/routes/auth.py:42-51 | the new user holds the hash of the password, never the password, the request's fields, and is active and unverified |
| Auth.Register | app/api/routes/auth.py:29-68 | a taken email fails with 400 and stores nothing, exactly when the email is taken; a free email always succeeds: the new user is appended and a token issued for it |
| Auth.Login | app/api/routes/auth.py:71-117 | an unknown email and a wrong password both fail with 401 and the same message; an inactive account fails with 400 only after its password verified; a failure changes nothing; a known, active user whose password verifies always logs in, and success stamps the last login on that user alone |
| Auth.LoginRevealsNothing | app/api/routes/auth.py:76-88 | a wrong password fails exactly as an unknown email does |
| Auth.InactiveAfterPassword | app/api/routes/auth.py:90-95 | an inactive account with the right password is reported as inactive |
| Auth.RegisterThenLogin | app/api/routes/auth.py:29-117 | logging in with the password just registered succeeds for the new user |
| Auth.UpdateProfile | app/api/routes/auth.py:137-171 | every field the request gives is overwritten, every other field is kept, and the update time is refreshed |
| Auth.UpdateIsIdempotent | app/api/routes/auth.py:144-159 | applying an update twice is applying it once |
| Auth.ChangePassword | app/api/routes/auth.py:174-193 | a wrong current password fails with 400, exactly then, and changes nothing; a verified current password always succeeds, storing the new password's hash |
| Auth.NewPasswordVerifies | app/api/routes/auth.py:181-191 | after a change, the new password is the one that verifies |
| Schemas.ParseQuestionRequest | app/schemas/question.py:5-11 | accepted exactly when the question has 3 to 2000 characters; absent fields default to no subject, visual and avatar on, English |
| Schemas.QuestionRequestRoundTrip | app/schemas/question.py:5-11 | a valid request sent with all its fields parses back to itself |
| Schemas.QuestionRequestDefaults | app/schemas/question.py:8-11 | a body with only its question gets every default |
| Schemas.NewQuestionResponse | app/schemas/question.py:25-53 | lists default to empty and urls and descriptions to none |
| Schemas.NewStatusResponse | app/schemas/question.py:69-76 | progress defaults to 0, steps to empty, current step and error to none |
| Schemas.StatusReply | app/api/routes/questions.py:140-151 | a question that is not found is a 404; a found one is reported with every field the processor gave |
| Schemas.StatusProgressIsPercentage | app/schemas/question.py:72 | every reported progress is between 0 and 100 |
| Schemas.ParseFeedback | app/schemas/question.py:79-84 | accepted exactly when the rating is absent or from 1 to 5 |
| Schemas.FiveRatings | app/schemas/question.py:83 | exactly the ratings 1 to 5 are accepted |
| Schemas.ParseUserCreate | app/schemas/user.py:5-12 | accepted exactly when the password has at least 8 characters, the name 2 to 100, and the role, when given, is one of the three; role defaults to student, language to English |
| Schemas.RoleIsAnchored | app/schemas/user.py:10 | the role pattern is anchored: a role merely containing a name is refused |
| Schemas.ParsePasswordChange | app/schemas/user.py:51-54 | accepted exactly when the new password has at least 8 characters |
| Schemas.SchemaChangeStoresLongPassword | app/schemas/user.py:51-54 | a change accepted by the schema and asked with the right current password succeeds, and the stored hash verifies a new password of at least 8 characters |
| Schemas.RegisteredUsersHaveARole | app/schemas/user.py:5-12 | an account created through the schema has one of the three roles and the hash of its password |
| Config.CorsOriginsList | app/core/config.py:59-61 | one origin more than there are commas; origin i is piece i stripped; no origin starts or ends with whitespace |
| Config.SplitJoinComma | app/core/config.py:61 | splitting comma-joined comma-free pieces gives the pieces back |
| Config.CorsRoundTrip | app/core/config.py:59-61 | listing clean origins comma-separated gives exactly those origins back, in order |
| Config.DefaultOrigins | app/core/config.py:57-61 | the default setting yields the two local front-end origins |

## Left out

- Floating point: lip-sync start and end times, durations, the words-per-minute estimates and `round` are not modelled. Pause durations are 300 ms.
- Time: every timestamp and creation time is a parameter. The pacing `sleep` calls are absent.
- The language model, text-to-speech, avatar, Stability and Replicate clients are oracles. A stream is the list of fragments it delivers plus an optional failure message. An image provider's answer is a boolean. The Manim renderer is a function from script and scene name to success. `avatar_service.py` is not part of this model.
- The fixed image urls stand for what a provider returns. The image prompt text, the template scripts' Manim source, file paths and the subprocess call are not modelled.
- Concurrency: one sequential interleaving. Two runs racing on one session, and a set mutated during a broadcast, are not modelled.
- Set order: Python visits a socket set in an unspecified order; the model visits it in increasing socket order.
- Lowering is ASCII only and keeps the length. The keyword and cue tables are ASCII or Devanagari, which has no case, but the text being taught is arbitrary, and there the model departs from Python in two ways. Python lowers U+212A KELVIN SIGN to `k`, so `\u212Aey` has high emphasis in the source and none in the model. Python lowers `İ` to two code points, so a sentence holding it before a visual marker has its lowered positions shifted, and the slice of the original text at live_teaching.py:190-193 picks a different cue than the model's.
- JSON values are strings or fixed message constructors. Animation data keeps the name, duration and kind only; its geometric fields are dropped.
- ClassroomHandlers.World: `render` is an oracle for the dispatcher. ClassroomHandlers.VisualRequestUsesGenerator states what the handler broadcasts when the renderer is `VisualGeneration.GenerateVisual`.
- ClassroomHandlers.HandleVisualRequest: the source's `except` branch is unreachable, because `generate_visual` catches every exception itself; the model has no error path there.
- ClassroomRoutes.QuickAnswer: the relay assumes the quick-teach socket itself never fails; a send failure there only ends the loop.
- Database persistence, SSE framing, `json.dumps` and the CRUD routes are not modelled. Pydantic's `EmailStr` syntax check and bcrypt/JWT internals are oracles.
- QuestionProcessor.ProcessQuestion: a raise from the first `question.insert()` (question_processor.py:59) is not modelled. That insert sits outside the `try`, so nothing would be stored and the exception would propagate; every modelled run begins with the stored fresh question. A raise from the `except` branch's own save (line 159) is not modelled either, so a raising run always ends with its failed record. Every other save that raises (a step's status save at line 176, the completed save at line 122) is a failure point, and stores nothing.
- Auth.FindByEmail: duplicate emails cannot arise through `register`; for a store that has them, the first match is used.
- TeachingPipeline.LipSyncData: states the words, count and shapes only; the timing fields are floats and are left out.
- The prompts built for the language model (`_build_live_teaching_prompt`, the LLM JSON extraction, `generate_dynamic_animation`) are vendor plumbing and are not modelled.
- `stream_with_audio` and `_generate_audio_chunk` wrap the stream with audio calls and are not modelled.

## Findings

| source | as written | input that shows it | evidently intended | confidence | as-written member | corrected member |
|---|---|---|---|---|---|---|
| app/services/question_processor.py:119-159 | the question is saved `completed` before the history insert; when that insert raises, the `except` branch saves it again as `failed`, so progress read back falls from 100 to 25 per planned step | a logged-in user, no visual, no avatar, history insert raising: saved progress 0, 25, 50, 100, 50 | a question once saved completed stays completed, so progress never goes back | medium, not executed | QuestionProcessor.HistoryFailureDropsProgress | QuestionProcessor.ProgressNeverGoesBack |

=== FILE: auth.dfy ===
/** The decisions of the authentication routes: who may register, who may
    log in and what a failed login reveals, what a profile update changes,
    and when a password changes. The user collection is a sequence searched
    in order; password hashing, its check and token signing are oracles. */
module Auth {
  import opened Optional
  import Scan

  /** A stored user. Times are abstract instants. */
  datatype User = User(
    id: string,
    email: string,
    hashedPassword: string,
    fullName: string,
    avatarUrl: Option<string>,
    role: string,
    gradeLevel: Option<string>,
    preferredLanguage: string,
    learningStyle: Option<string>,
    avatarPreference: string,
    voicePreference: string,
    isActive: bool,
    isVerified: bool,
    createdAt: nat,
    updatedAt: nat,
    lastLogin: Option<nat>)

  /** The profile sent back to clients: every public field, no password. */
  datatype UserResponse = UserResponse(
    id: string,
    email: string,
    fullName: string,
    role: string,
    gradeLevel: Option<string>,
    preferredLanguage: string,
    avatarUrl: Option<string>,
    isActive: bool,
    isVerified: bool)

  datatype TokenResponse = TokenResponse(accessToken: string, tokenType: string, user: UserResponse)

  /** A reply: the value, or the HTTP status and detail of the exception. */
  datatype Reply<T> = Ok(value: T) | Fail(status: nat, detail: string)

  /** Hashing, checking a password against a hash, and signing a token for
      a user id. */
  datatype Crypto = Crypto(hash: string -> string, verify: (string, string) -> bool, token: string -> string)

  /** The hash and its check agree: a password verifies against its own
      hash. */
  ghost predicate Agrees(c: Crypto) {
    forall p :: c.verify(p, c.hash(p))
  }

  datatype UserCreate = UserCreate(
    email: string, password: string, fullName: string, role: string,
    gradeLevel: Option<string>, preferredLanguage: string)

  datatype UserLogin = UserLogin(email: string, password: string)

  datatype UserUpdate = UserUpdate(
    fullName: Option<string>, gradeLevel: Option<string>, preferredLanguage: Option<string>,
    avatarPreference: Option<string>, voicePreference: Option<string>, learningStyle: Option<string>)

  datatype PasswordChange = PasswordChange(currentPassword: string, newPassword: string)

  const InvalidLogin := "Invalid email or password"

  /** The public view of a user. */
  function ToResponse(u: User): (r: UserResponse)
    ensures r.id == u.id && r.email == u.email && r.fullName == u.fullName && r.role == u.role
    ensures r.gradeLevel == u.gradeLevel && r.preferredLanguage == u.preferredLanguage
    ensures r.avatarUrl == u.avatarUrl && r.isActive == u.isActive && r.isVerified == u.isVerified
  {
    UserResponse(u.id, u.email, u.fullName, u.role, u.gradeLevel, u.preferredLanguage,
                 u.avatarUrl, u.isActive, u.isVerified)
  }

  /** The response never depends on the password hash. */
  lemma ResponseHidesPassword(u: User, h: string)
    ensures ToResponse(u.(hashedPassword := h)) == ToResponse(u)
  {
  }

  /** The token reply for a user: a bearer token signed for its id, and its
      public profile. */
  function Issue(u: User, c: Crypto): (r: TokenResponse)
    ensures r.tokenType == "bearer" && r.accessToken == c.token(u.id) && r.user.id == u.id
    ensures r.user == ToResponse(u)
  {
    TokenResponse(c.token(u.id), "bearer", ToResponse(u))
  }

  /** `User.find_one(User.email == email)`: the first stored user with that
      email. */
  function FindByEmail(users: seq<User>, email: string): (r: Option<nat>)
    ensures r.Some? ==> r.value < |users| && users[r.value].email == email
    ensures r.Some? ==> forall j :: 0 <= j < r.value ==> users[j].email != email
    ensures r.None? <==> forall j :: 0 <= j < |users| ==> users[j].email != email
  {
    Scan.First(users, (u: User) => u.email == email)
  }

  // ------------------------------------------------------- register

  /** The user `register` creates: the request's fields, the hash of the
      password, and the model's defaults for everything else. */
  function NewUser(req: UserCreate, id: string, now: nat, c: Crypto): (u: User)
    ensures u.email == req.email && u.hashedPassword == c.hash(req.password)
    ensures u.fullName == req.fullName && u.role == req.role
    ensures u.gradeLevel == req.gradeLevel && u.preferredLanguage == req.preferredLanguage
    ensures u.isActive && !u.isVerified && u.lastLogin == None
  {
    User(id, req.email, c.hash(req.password), req.fullName, None, req.role, req.gradeLevel,
         req.preferredLanguage, None, "default", "default", true, false, now, now, None)
  }

  /** `register`: a taken email fails with 400 and stores nothing; otherwise
      the new user is appended and a token issued for it. */
  function Register(users: seq<User>, req: UserCreate, id: string, now: nat, c: Crypto):
    (r: (seq<User>, Reply<TokenResponse>))
    ensures (exists j :: 0 <= j < |users| && users[j].email == req.email) <==>
      r == (users, Fail(400, "Email already registered"))
    ensures r.1.Ok? ==>
      (r.0 == users + [NewUser(req, id, now, c)] && r.1.value == Issue(NewUser(req, id, now, c), c))
    ensures (forall j :: 0 <= j < |users| ==> users[j].email != req.email) ==>
      r == (users + [NewUser(req, id, now, c)], Ok(Issue(NewUser(req, id, now, c), c)))
  {
    match FindByEmail(users, req.email)
    case Some(_) => (users, Fail(400, "Email already registered"))
    case None =>
      var u := NewUser(req, id, now, c);
      (users + [u], Ok(Issue(u, c)))
  }

  // ------------------------------------------------------- login

  /** `login`: an unknown email and a wrong password fail alike with 401;
      an inactive account fails with 400, but only once its password has
      verified; a successful login stamps `last_login` on that user alone. */
  function Login(users: seq<User>, req: UserLogin, now: nat, c: Crypto): (r: (seq<User>, Reply<TokenResponse>))
    ensures |r.0| == |users|
    ensures r.1.Fail? ==> r.0 == users
    ensures r.1.Fail? ==> r.1 == Fail(401, InvalidLogin) || r.1 == Fail(400, "User account is inactive")
    ensures FindByEmail(users, req.email).None? ==> r.1 == Fail(401, InvalidLogin)
    ensures r.1.Ok? ==> exists k :: (FindByEmail(users, req.email) == Some(k)
      && c.verify(req.password, users[k].hashedPassword) && users[k].isActive
      && r.0 == users[k := users[k].(lastLogin := Some(now))]
      && r.1.value == Issue(users[k].(lastLogin := Some(now)), c))
    ensures var f := FindByEmail(users, req.email);
      f.Some? && c.verify(req.password, users[f.value].hashedPassword) && users[f.value].isActive ==> r.1.Ok?
  {
    match FindByEmail(users, req.email)
    case None => (users, Fail(401, InvalidLogin))
    case Some(k) =>
      var u := users[k];
      if !c.verify(req.password, u.hashedPassword) then (users, Fail(401, InvalidLogin))
      else if !u.isActive then (users, Fail(400, "User account is inactive"))
      else
        var u' := u.(lastLogin := Some(now));
        (users[k := u'], Ok(Issue(u', c)))
  }

  /** A failed login does not tell an unregistered email from a registered
      one with the wrong password, nor, with the wrong password, an
      inactive account from an active one. */
  lemma LoginRevealsNothing(users: seq<User>, req: UserLogin, now: nat, c: Crypto)
    requires FindByEmail(users, req.email).Some?
    requires !c.verify(req.password, users[FindByEmail(users, req.email).value].hashedPassword)
    ensures Login(users, req, now, c).1 == Login([], req, now, c).1
    ensures Login(users, req, now, c).0 == users
  {
    assert FindByEmail([], req.email).None?;
  }

  /** An inactive account is reported as such only to someone who knows
      its password. */
  lemma InactiveAfterPassword(users: seq<User>, req: UserLogin, now: nat, c: Crypto)
    requires FindByEmail(users, req.email).Some?
    requires var u := users[FindByEmail(users, req.email).value];
      !u.isActive && c.verify(req.password, u.hashedPassword)
    ensures Login(users, req, now, c) == (users, Fail(400, "User account is inactive"))
  {
  }

  /** Registering and then logging in with the same password succeeds, and
      the token is issued for the new user. */
  lemma RegisterThenLogin(users: seq<User>, req: UserCreate, id: string, now: nat, later: nat, c: Crypto)
    requires Agrees(c)
    requires forall j :: 0 <= j < |users| ==> users[j].email != req.email
    ensures var stored := Register(users, req, id, now, c).0;
      var r := Login(stored, UserLogin(req.email, req.password), later, c);
      r.1.Ok? && r.1.value.user.id == id
  {
    var stored := Register(users, req, id, now, c).0;
    assert stored == users + [NewUser(req, id, now, c)];
    var f := FindByEmail(stored, req.email);
    assert stored[|users|].email == req.email;
    assert f.Some? && f.value >= |users|;
  }

  // ------------------------------------------------------- profile

  /** `update_profile`: every field the request gives is overwritten,
      every other field is kept, and `updated_at` is always refreshed. */
  function UpdateProfile(u: User, req: UserUpdate, now: nat): (r: User)
    ensures r.fullName == req.fullName.GetOr(u.fullName)
    ensures r.gradeLevel == (if req.gradeLevel.Some? then req.gradeLevel else u.gradeLevel)
    ensures r.preferredLanguage == req.preferredLanguage.GetOr(u.preferredLanguage)
    ensures r.avatarPreference == req.avatarPreference.GetOr(u.avatarPreference)
    ensures r.voicePreference == req.voicePreference.GetOr(u.voicePreference)
    ensures r.learningStyle == (if req.learningStyle.Some? then req.learningStyle else u.learningStyle)
    ensures r.updatedAt == now
    ensures r.(fullName := u.fullName, gradeLevel := u.gradeLevel, preferredLanguage := u.preferredLanguage,
               avatarPreference := u.avatarPreference, voicePreference := u.voicePreference,
               learningStyle := u.learningStyle, updatedAt := u.updatedAt) == u
  {
    u.(fullName := req.fullName.GetOr(u.fullName),
       gradeLevel := if req.gradeLevel.Some? then req.gradeLevel else u.gradeLevel,
       preferredLanguage := req.preferredLanguage.GetOr(u.preferredLanguage),
       avatarPreference := req.avatarPreference.GetOr(u.avatarPreference),
       voicePreference := req.voicePreference.GetOr(u.voicePreference),
       learningStyle := if req.learningStyle.Some? then req.learningStyle else u.learningStyle,
       updatedAt := now)
  }

  /** Applying the same update twice is applying it once. */
  lemma UpdateIsIdempotent(u: User, req: UserUpdate, now: nat)
    ensures UpdateProfile(UpdateProfile(u, req, now), req, now) == UpdateProfile(u, req, now)
  {
  }

  // ------------------------------------------------------- password

  /** `change_password`: a wrong current password fails with 400 and
      changes nothing; otherwise the hash of the new password is stored. */
  function ChangePassword(u: User, req: PasswordChange, now: nat, c: Crypto): (r: Reply<User>)
    ensures !c.verify(req.currentPassword, u.hashedPassword) <==> r == Fail(400, "Current password is incorrect")
    ensures r.Ok? ==> r.value == u.(hashedPassword := c.hash(req.newPassword), updatedAt := now)
    ensures c.verify(req.currentPassword, u.hashedPassword) ==> r.Ok?
  {
    if !c.verify(req.currentPassword, u.hashedPassword) then Fail(400, "Current password is incorrect")
    else Ok(u.(hashedPassword := c.hash(req.newPassword), updatedAt := now))
  }

  /** After a change, the new password is the one that verifies: it can be
      used as the current password of a further change. */
  lemma NewPasswordVerifies(u: User, req: PasswordChange, next: string, now: nat, later: nat, c: Crypto)
    requires Agrees(c)
    requires ChangePassword(u, req, now, c).Ok?
    ensures ChangePassword(ChangePassword(u, req, now, c).value, PasswordChange(req.newPassword, next), later, c).Ok?
  {
  }
}

=== FILE: classroom.dfy ===
/** The live-classroom registry (`LiveClassroomManager`): which sockets sit in
    which session, each session's shared state, and what each socket
    registered as. Every operation is a state transformer that returns the
    new registry and the messages actually delivered, in order.

    A send to a socket in `broken` raises; everything else is delivered.
    Python's set iteration order is unspecified; sessions are visited in
    ascending socket order. */
module Classroom {
  import opened Optional
  import opened LiveTeaching
  import opened VisualCues

  type Sock = nat
  type SessionId = string

  /** The `session_states` entry. `paused` is `None` until a pause or resume
      message first sets the `is_paused` key. */
  datatype SessionState = SessionState(
    createdAt: string,
    currentQuestion: Option<string>,
    isTeaching: bool,
    participants: int,
    paused: Option<bool>)

  /** The `user_data` entry of a socket. */
  datatype UserInfo = UserInfo(userId: Option<string>, sessionId: SessionId, joinedAt: string)

  datatype Registry = Registry(
    active: map<SessionId, set<Sock>>,
    states: map<SessionId, SessionState>,
    users: map<Sock, UserInfo>)

  const EmptyRegistry: Registry := Registry(map[], map[], map[])

  /** The client-side rendering data of an animation (`_get_animation_data`):
      its display name, its duration in milliseconds and, for the drawn
      kinds, the renderer's `type` field. */
  datatype AnimationData = AnimationData(name: string, durationMs: nat, kind: Option<string>)

  /** The `visual_update` sent after a visual cue. */
  datatype VisualUpdate =
    | AnimationUpdate(animation: Option<string>, data: AnimationData)
    | ImageUpdate(description: Option<string>)

  /** Messages the server sends to a socket. */
  datatype Msg =
    | Connected(sessionId: SessionId, participants: int)
    | UserJoined(participants: int)
    | UserLeft(participants: int)
    | Failure(message: string)
    | TeachingStart(question: string, subject: Option<string>)
    | Relay(event: Event)
    | Visual(update: VisualUpdate)
    | TeachingEnd
    | VisualLoading(message: string)
    | VisualReady(visualType: Option<string>, url: Option<string>, concept: string)
    | SessionPaused
    | SessionResumed
    | FeedbackReceived
    | ChatMessage(userId: Option<string>, message: string, timestamp: string)

  type Delivery = (Sock, Msg)

  /** The result of an operation: the registry afterwards and the
      deliveries in the order they happened. */
  datatype Effect = Effect(reg: Registry, out: seq<Delivery>)

  // ------------------------------------------------------- the invariant

  /** Every socket seated in a session is registered to that session and is
      not one whose disconnection is under way. */
  predicate MembersRegistered(reg: Registry, pending: set<Sock>) {
    forall s, w :: s in reg.active && w in reg.active[s] ==>
      w in reg.users && reg.users[w].sessionId == s && w !in pending
  }

  /** Every registered socket, except those being disconnected, is seated in
      its session, and that session is alive. */
  predicate UsersSeated(reg: Registry, pending: set<Sock>) {
    forall w :: w in reg.users && w !in pending ==>
      reg.users[w].sessionId in reg.active && w in reg.active[reg.users[w].sessionId]
  }

  /** `participants` counts the session's sockets, and no live session is empty. */
  predicate CountsMatch(reg: Registry) {
    forall s :: s in reg.active && s in reg.states ==>
      reg.states[s].participants == |reg.active[s]| && reg.active[s] != {}
  }

  /** The registry's consistency, while the sockets in `pending` are half
      way through `disconnect`: already unseated, still registered. */
  predicate SoundExcept(reg: Registry, pending: set<Sock>) {
    reg.active.Keys == reg.states.Keys
    && pending <= reg.users.Keys
    && MembersRegistered(reg, pending)
    && UsersSeated(reg, pending)
    && CountsMatch(reg)
  }

  /** The registry's consistency between operations. */
  predicate Sound(reg: Registry) {
    SoundExcept(reg, {})
  }

  /** What an operation other than `connect` may do to the registry: drop
      sessions, drop registrations and seats, and change a session's count,
      but never invent or re-register anything. */
  predicate Shrinks(before: Registry, after: Registry) {
    after.users.Keys <= before.users.Keys
    && (forall w :: w in after.users ==> after.users[w] == before.users[w])
    && SameSessionInfo(before, after)
  }

  /** Surviving sessions keep every field except their participant count. */
  predicate SameSessionInfo(before: Registry, after: Registry) {
    forall s :: s in after.states ==>
      s in before.states && after.states[s] == before.states[s].(participants := after.states[s].participants)
  }

  /** Only sockets in `allowed` lose their registration. */
  predicate DropsOnly(before: Registry, after: Registry, allowed: set<Sock>) {
    forall w :: w in before.users && w !in after.users ==> w in allowed
  }

  predicate AllUserLeft(out: seq<Delivery>) {
    forall i :: 0 <= i < |out| ==> out[i].1.UserLeft?
  }

  predicate NoneBroken(out: seq<Delivery>, broken: set<Sock>) {
    forall i :: 0 <= i < |out| ==> out[i].0 !in broken
  }

  // ------------------------------------------------------- visiting order

  predicate IsMin(m: Sock, s: set<Sock>) {
    m in s && forall w :: w in s ==> m <= w
  }

  lemma {:induction false} MinExists(s: set<Sock>)
    requires s != {}
    ensures exists m :: IsMin(m, s)
    decreases |s|
  {
    var x :| x in s;
    if s == {x} {
      assert IsMin(x, s);
    } else {
      var rest := s - {x};
      assert |rest| < |s|;
      MinExists(rest);
      var y :| IsMin(y, rest);
      MinStep(s, x, y);
    }
  }

  lemma MinStep(s: set<Sock>, x: Sock, y: Sock)
    requires x in s && IsMin(y, s - {x})
    ensures IsMin(if x <= y then x else y, s)
  {
    forall w | w in s
      ensures (if x <= y then x else y) <= w
    {
      if w != x {
        assert w in s - {x};
      }
    }
  }

  /** The least socket of a non-empty set. */
  function MinOf(s: set<Sock>): (m: Sock)
    requires s != {}
    ensures m in s && forall w :: w in s ==> m <= w
  {
    MinExists(s);
    var m :| IsMin(m, s);
    m
  }

  /** The members of a set in ascending order: the order a broadcast visits. */
  function Ascending(s: set<Sock>): (r: seq<Sock>)
    ensures forall i :: 0 <= i < |r| ==> r[i] in s
    ensures forall w :: w in s ==> w in r
    ensures Increasing(r)
    decreases |s|
  {
    if s == {} then []
    else
      var m := MinOf(s);
      [m] + Ascending(s - {m})
  }

  /** The first pass of a broadcast: `msg` to every visited socket except
      `exclude`, skipping the sends that raise. */
  function Deliver(order: seq<Sock>, msg: Msg, exclude: Option<Sock>, broken: set<Sock>): (r: seq<Delivery>)
    ensures forall i :: 0 <= i < |r| ==> r[i].1 == msg && r[i].0 in order
    ensures forall i :: 0 <= i < |r| ==> r[i].0 !in broken && exclude != Some(r[i].0)
    ensures forall w :: w in order && w !in broken && exclude != Some(w) ==> (w, msg) in r
    decreases |order|
  {
    if order == [] then []
    else
      var w := order[0];
      var rest := Deliver(order[1..], msg, exclude, broken);
      assert forall v :: v in order[1..] ==> v in order;
      if exclude != Some(w) && w !in broken then [(w, msg)] + rest else rest
  }

  /** The sockets whose send raised during that pass, in visiting order. */
  function Failing(order: seq<Sock>, exclude: Option<Sock>, broken: set<Sock>): (r: seq<Sock>)
    ensures forall i :: 0 <= i < |r| ==> r[i] in order && r[i] in broken && exclude != Some(r[i])
    ensures forall w :: w in order && w in broken && exclude != Some(w) ==> w in r
    decreases |order|
  {
    if order == [] then []
    else
      var w := order[0];
      var rest := Failing(order[1..], exclude, broken);
      assert forall v :: v in order[1..] ==> v in order;
      if exclude != Some(w) && w in broken then [w] + rest else rest
  }

  // ------------------------------------------ disconnect and broadcast

  /** `disconnect`. An unregistered socket is left alone. Otherwise the
      socket is unseated and the session's count drops; an emptied session
      is deleted, a surviving one hears `user_left`; the registration goes
      last. */
  function Disconnect(reg: Registry, ws: Sock, pending: set<Sock>, broken: set<Sock>): (r: Effect)
    requires SoundExcept(reg, pending) && ws !in pending
    ensures SoundExcept(r.reg, pending) && Shrinks(reg, r.reg)
    ensures ws !in r.reg.users
    ensures ws !in reg.users ==> r == Effect(reg, [])
    ensures AllUserLeft(r.out) && NoneBroken(r.out, broken)
    ensures DropsOnly(reg, r.reg, broken + {ws})
    ensures ws in reg.users ==> LeaveNotice(reg, ws, broken, r)
    decreases reg.users.Keys - pending, 0, 0
  {
    if ws !in reg.users then Effect(reg, [])
    else
      var sid := reg.users[ws].sessionId;
      var left := reg.active[sid] - {ws};
      var st := reg.states[sid].(participants := reg.states[sid].participants - 1);
      if left == {} then
        UnseatLast(reg, ws, pending);
        var r := Effect(Registry(reg.active - {sid}, reg.states - {sid}, reg.users - {ws}), []);
        SilentLeave(reg, ws, broken, r);
        r
      else
        var reg1 := Registry(reg.active[sid := left], reg.states[sid := st], reg.users);
        Unseat(reg, ws, pending);
        var b := Broadcast(reg1, sid, UserLeft(st.participants), None, pending + {ws}, broken);
        Forget(reg, reg1, b.reg, ws, pending, broken);
        var r := Effect(b.reg.(users := b.reg.users - {ws}), b.out);
        AnnouncedLeave(reg, ws, broken, left, st.participants, b, r);
        r
  }

  lemma SilentLeave(reg: Registry, ws: Sock, broken: set<Sock>, r: Effect)
    requires ws in reg.users
    requires var sid := reg.users[ws].sessionId;
      sid in reg.active && sid in reg.states && reg.active[sid] - {ws} == {}
      && r == Effect(Registry(reg.active - {sid}, reg.states - {sid}, reg.users - {ws}), [])
    ensures LeaveNotice(reg, ws, broken, r)
  {
  }

  lemma AnnouncedLeave(reg: Registry, ws: Sock, broken: set<Sock>, left: set<Sock>, count: int, b: Effect, r: Effect)
    requires ws in reg.users
    requires var sid := reg.users[ws].sessionId;
      sid in reg.active && sid in reg.states && left == reg.active[sid] - {ws} && left != {}
      && count == reg.states[sid].participants - 1
    requires BroadcastShape(left, UserLeft(count), None, broken, b)
    requires r == Effect(b.reg.(users := b.reg.users - {ws}), b.out)
    ensures LeaveNotice(reg, ws, broken, r)
  {
    var k :| 0 <= k <= |b.out| && DirectPass(left, UserLeft(count), None, broken, b.out[..k])
      && AllUserLeft(b.out[k..]);
    assert 0 <= k <= |r.out| && DirectPass(left, UserLeft(count), None, broken, r.out[..k])
      && AllUserLeft(r.out[k..]);
  }

  /** What `disconnect` tells the others: when members remain, they are
      broadcast `user_left` with the lowered count; when none remain, the
      session is gone and nothing is sent. */
  ghost predicate LeaveNotice(reg: Registry, ws: Sock, broken: set<Sock>, r: Effect)
    requires ws in reg.users
  {
    var sid := reg.users[ws].sessionId;
    sid in reg.active && sid in reg.states
    && (reg.active[sid] - {ws} != {} ==>
          BroadcastShape(reg.active[sid] - {ws}, UserLeft(reg.states[sid].participants - 1), None, broken, r))
    && (reg.active[sid] - {ws} == {} ==> r.out == [] && sid !in r.reg.active && sid !in r.reg.states)
  }

  /** `broadcast_to_session`. An unknown session gets nothing. Otherwise
      every member but `exclude` is sent `msg`, and only after that pass
      are the sockets whose send raised disconnected, one after another. */
  function Broadcast(reg: Registry, sid: SessionId, msg: Msg, exclude: Option<Sock>,
                     pending: set<Sock>, broken: set<Sock>): (r: Effect)
    requires SoundExcept(reg, pending)
    ensures SoundExcept(r.reg, pending) && Shrinks(reg, r.reg)
    ensures sid !in reg.active ==> r == Effect(reg, [])
    ensures NoneBroken(r.out, broken) && DropsOnly(reg, r.reg, broken)
    ensures sid in reg.active ==> BroadcastShape(reg.active[sid], msg, exclude, broken, r)
    decreases reg.users.Keys - pending, 2, 0
  {
    if sid !in reg.active then Effect(reg, [])
    else
      var order := Ascending(reg.active[sid]);
      var sent := Deliver(order, msg, exclude, broken);
      var failing := Failing(order, exclude, broken);
      FailingNotPending(reg, sid, failing, pending);
      var d := DisconnectAll(reg, failing, pending, broken);
      BroadcastEffect(reg, reg.active[sid], order, msg, exclude, broken, failing, d);
      Effect(d.reg, sent + d.out)
  }

  /** A broadcast's deliveries: first `msg`, to exactly the members other
      than `exclude` whose send does not raise, each once; then nothing but
      the `user_left` notices of the cleanup; and afterwards every member
      whose send raised is gone. */
  predicate BroadcastShape(members: set<Sock>, msg: Msg, exclude: Option<Sock>, broken: set<Sock>, r: Effect) {
    exists k :: 0 <= k <= |r.out| && DirectPass(members, msg, exclude, broken, r.out[..k])
      && AllUserLeft(r.out[k..])
      && (forall w :: w in members && w in broken && exclude != Some(w) ==> w !in r.reg.users)
  }

  predicate DirectPass(members: set<Sock>, msg: Msg, exclude: Option<Sock>, broken: set<Sock>, pass: seq<Delivery>) {
    (forall i :: 0 <= i < |pass| ==> pass[i].1 == msg && pass[i].0 in members
                                     && pass[i].0 !in broken && exclude != Some(pass[i].0))
    && (forall w :: w in members && w !in broken && exclude != Some(w) ==> (w, msg) in pass)
    && IncreasingOut(pass)
  }

  /** The cleanup loop after a broadcast: `disconnect` each socket in turn. */
  function DisconnectAll(reg: Registry, socks: seq<Sock>, pending: set<Sock>, broken: set<Sock>): (r: Effect)
    requires SoundExcept(reg, pending)
    requires forall i :: 0 <= i < |socks| ==> socks[i] !in pending
    ensures SoundExcept(r.reg, pending) && Shrinks(reg, r.reg)
    ensures forall i :: 0 <= i < |socks| ==> socks[i] !in r.reg.users
    ensures AllUserLeft(r.out) && NoneBroken(r.out, broken)
    ensures (forall i :: 0 <= i < |socks| ==> socks[i] in broken) ==> DropsOnly(reg, r.reg, broken)
    decreases reg.users.Keys - pending, 1, |socks|
  {
    if socks == [] then Effect(reg, [])
    else
      var d := Disconnect(reg, socks[0], pending, broken);
      var rest := DisconnectAll(d.reg, socks[1..], pending, broken);
      DisconnectAllStep(reg, d, rest, socks, broken);
      DisconnectAllDrops(reg, d.reg, rest.reg, socks, broken);
      Effect(rest.reg, d.out + rest.out)
  }

  // ------------------------------------------------------- connect

  /** The result of a handler that may raise: `raised` when an exception
      escaped it, after the effects that happened before. */
  datatype Outcome = Outcome(reg: Registry, out: seq<Delivery>, raised: bool)

  /** The count a session reaches when `connect` seats a new socket in it. */
  function CountAfterJoin(reg: Registry, sid: SessionId): int {
    1 + if sid in reg.active then |reg.active[sid]| else 0
  }

  /** Open the session if it is new, then seat, register and count the socket. */
  function Join(reg: Registry, ws: Sock, sid: SessionId, userId: Option<string>, now: string): (r: Registry)
    requires Sound(reg) && ws !in reg.users
    ensures Sound(r)
    ensures r.users == reg.users[ws := UserInfo(userId, sid, now)]
    ensures sid in r.active && r.active[sid] == (if sid in reg.active then reg.active[sid] else {}) + {ws}
    ensures sid in r.states && r.states[sid].participants == CountAfterJoin(reg, sid)
    ensures sid in reg.active ==> r.states[sid] == reg.states[sid].(participants := CountAfterJoin(reg, sid))
    ensures sid !in reg.active ==> r.states[sid] == SessionState(now, None, false, 1, None)
    ensures sid !in reg.active ==> OnlyMember(r, sid, ws)
  {
    var st0 := if sid in reg.active then reg.states[sid] else SessionState(now, None, false, 0, None);
    var members := (if sid in reg.active then reg.active[sid] else {}) + {ws};
    var st := st0.(participants := st0.participants + 1);
    Seat(reg, ws, sid, userId, now);
    Registry(reg.active[sid := members], reg.states[sid := st], reg.users[ws := UserInfo(userId, sid, now)])
  }

  /** `ws` is the only socket registered to `sid`. */
  predicate OnlyMember(reg: Registry, sid: SessionId, ws: Sock) {
    forall w :: w in reg.users && reg.users[w].sessionId == sid ==> w == ws
  }

  /** `connect`: join, welcome the socket, then tell the others. The welcome
      is a direct send: when it raises, the exception escapes with the
      socket already seated and registered. `now` stands for both
      timestamps. */
  function Connect(reg: Registry, ws: Sock, sid: SessionId, userId: Option<string>, now: string,
                   broken: set<Sock>): (r: Outcome)
    requires Sound(reg) && ws !in reg.users
    ensures Sound(r.reg)
    ensures r.raised <==> ws in broken
    ensures r.raised ==> r.out == [] && r.reg == Join(reg, ws, sid, userId, now)
    ensures !r.raised ==> |r.out| >= 1 && r.out[0] == (ws, Connected(sid, CountAfterJoin(reg, sid)))
    ensures !r.raised ==> sid in reg.active ==>
      BroadcastShape(reg.active[sid], UserJoined(CountAfterJoin(reg, sid)), Some(ws), broken, Effect(r.reg, r.out[1..]))
    ensures ws in r.reg.users && r.reg.users[ws] == UserInfo(userId, sid, now)
    ensures sid in r.reg.states && ws in r.reg.active[sid]
    ensures sid !in reg.active ==> r.reg.states[sid] == SessionState(now, None, false, 1, None)
    ensures sid in reg.active ==> r.reg.states[sid].(participants := 0) == reg.states[sid].(participants := 0)
  {
    var reg1 := Join(reg, ws, sid, userId, now);
    var n := CountAfterJoin(reg, sid);
    if ws in broken then Outcome(reg1, [], true)
    else
      var b := Broadcast(reg1, sid, UserJoined(n), Some(ws), {}, broken);
      ConnectBroadcast(reg, reg1, b, ws, sid, broken);
      var out := [(ws, Connected(sid, n))] + b.out;
      assert out[1..] == b.out;
      if sid in reg.active then
        WelcomeShape(reg.active[sid], ws, UserJoined(n), broken, b);
        Outcome(b.reg, out, false)
      else
        NewSessionUntouched(reg1, b.reg, ws, sid);
        Outcome(b.reg, out, false)
  }

  /** A brand-new session keeps its single socket through the welcome
      broadcast, which has no one to reach. */
  lemma NewSessionUntouched(reg1: Registry, after: Registry, ws: Sock, sid: SessionId)
    requires OnlyMember(reg1, sid, ws) && Shrinks(reg1, after) && Sound(after)
    requires ws in after.users && after.users[ws].sessionId == sid && sid in after.states
    requires after.states[sid] == reg1.states[sid].(participants := after.states[sid].participants)
    requires reg1.states[sid].participants == 1
    ensures after.states[sid] == reg1.states[sid]
  {
    assert after.active[sid] == {ws};
  }

  /** The broadcast after the welcome reaches the members that were there
      before: the new socket is the one excluded. */
  lemma WelcomeShape(others: set<Sock>, ws: Sock, msg: Msg, broken: set<Sock>, b: Effect)
    requires BroadcastShape(others + {ws}, msg, Some(ws), broken, b)
    ensures BroadcastShape(others, msg, Some(ws), broken, b)
  {
    var k :| 0 <= k <= |b.out| && DirectPass(others + {ws}, msg, Some(ws), broken, b.out[..k])
      && AllUserLeft(b.out[k..]);
    assert DirectPass(others, msg, Some(ws), broken, b.out[..k]);
  }

  lemma Seat(reg: Registry, ws: Sock, sid: SessionId, userId: Option<string>, now: string)
    requires Sound(reg) && ws !in reg.users
    ensures var st0 := if sid in reg.active then reg.states[sid] else SessionState(now, None, false, 0, None);
      var members := (if sid in reg.active then reg.active[sid] else {}) + {ws};
      var st := st0.(participants := st0.participants + 1);
      var reg1 := Registry(reg.active[sid := members], reg.states[sid := st], reg.users[ws := UserInfo(userId, sid, now)]);
      Sound(reg1) && st.participants == CountAfterJoin(reg, sid)
      && (sid in reg.active ==> members - {ws} == reg.active[sid])
  {
    var st0 := if sid in reg.active then reg.states[sid] else SessionState(now, None, false, 0, None);
    var members := (if sid in reg.active then reg.active[sid] else {}) + {ws};
    var st := st0.(participants := st0.participants + 1);
    var reg1 := Registry(reg.active[sid := members], reg.states[sid := st], reg.users[ws := UserInfo(userId, sid, now)]);
    SeatMembers(reg, ws, sid, members, reg1);
    SeatUsers(reg, ws, sid, members, reg1);
    SeatCounts(reg, ws, sid, members, st, reg1);
    if sid in reg.active {
      assert ws !in reg.active[sid];
    }
  }

  lemma SeatMembers(reg: Registry, ws: Sock, sid: SessionId, members: set<Sock>, reg1: Registry)
    requires Sound(reg) && ws !in reg.users
    requires members == (if sid in reg.active then reg.active[sid] else {}) + {ws}
    requires reg1.active == reg.active[sid := members] && ws in reg1.users && reg1.users[ws].sessionId == sid
    requires reg1.users - {ws} == reg.users
    ensures MembersRegistered(reg1, {})
  {
    forall s, w | s in reg1.active && w in reg1.active[s]
      ensures w in reg1.users && reg1.users[w].sessionId == s
    {
      if w != ws {
        assert w in reg.active[s];
        assert reg1.users[w] == (reg1.users - {ws})[w];
      }
    }
  }

  lemma SeatUsers(reg: Registry, ws: Sock, sid: SessionId, members: set<Sock>, reg1: Registry)
    requires Sound(reg) && ws !in reg.users
    requires members == (if sid in reg.active then reg.active[sid] else {}) + {ws}
    requires reg1.active == reg.active[sid := members] && ws in reg1.users && reg1.users[ws].sessionId == sid
    requires reg1.users - {ws} == reg.users
    ensures UsersSeated(reg1, {})
  {
    forall w | w in reg1.users
      ensures reg1.users[w].sessionId in reg1.active && w in reg1.active[reg1.users[w].sessionId]
    {
      if w != ws {
        assert reg1.users[w] == (reg1.users - {ws})[w];
      }
    }
  }

  lemma SeatCounts(reg: Registry, ws: Sock, sid: SessionId, members: set<Sock>, st: SessionState, reg1: Registry)
    requires Sound(reg) && ws !in reg.users
    requires members == (if sid in reg.active then reg.active[sid] else {}) + {ws}
    requires st.participants == (if sid in reg.active then reg.states[sid].participants else 0) + 1
    requires reg1.active == reg.active[sid := members] && reg1.states == reg.states[sid := st]
    ensures CountsMatch(reg1) && reg1.active.Keys == reg1.states.Keys
  {
    if sid in reg.active {
      assert ws !in reg.active[sid];
      assert |members| == |reg.active[sid]| + 1;
    } else {
      assert members == {ws};
    }
  }

  /** The broadcast that follows a welcome leaves the new socket in place:
      it is excluded, so its send cannot fail there. */
  lemma ConnectBroadcast(reg: Registry, reg1: Registry, b: Effect, ws: Sock, sid: SessionId, broken: set<Sock>)
    requires ws in reg1.users && reg1.users[ws].sessionId == sid && sid in reg1.states
    requires Shrinks(reg1, b.reg) && DropsOnly(reg1, b.reg, broken) && ws !in broken
    requires Sound(b.reg)
    ensures ws in b.reg.users && b.reg.users[ws] == reg1.users[ws]
    ensures sid in b.reg.states && ws in b.reg.active[sid]
    ensures b.reg.states[sid] == reg1.states[sid].(participants := b.reg.states[sid].participants)
  {
  }

  // ------------------------------------------------------- invariant steps

  lemma ShrinksTrans(a: Registry, b: Registry, c: Registry)
    requires Shrinks(a, b) && Shrinks(b, c)
    ensures Shrinks(a, c)
  {
  }

  /** Unseating the last member and deleting its session keeps the registry
      sound and shrinks it. */
  lemma UnseatLast(reg: Registry, ws: Sock, pending: set<Sock>)
    requires SoundExcept(reg, pending) && ws !in pending && ws in reg.users
    requires reg.active[reg.users[ws].sessionId] - {ws} == {}
    ensures var sid := reg.users[ws].sessionId;
      var r := Registry(reg.active - {sid}, reg.states - {sid}, reg.users - {ws});
      SoundExcept(r, pending) && Shrinks(reg, r) && ws !in r.users
  {
    var sid := reg.users[ws].sessionId;
    assert reg.active[sid] == {ws};
  }

  /** Unseating a member of a session that survives: the socket joins the
      pending ones and the count follows. */
  lemma Unseat(reg: Registry, ws: Sock, pending: set<Sock>)
    requires SoundExcept(reg, pending) && ws !in pending && ws in reg.users
    requires reg.active[reg.users[ws].sessionId] - {ws} != {}
    ensures var sid := reg.users[ws].sessionId;
      var st := reg.states[sid].(participants := reg.states[sid].participants - 1);
      var r := Registry(reg.active[sid := reg.active[sid] - {ws}], reg.states[sid := st], reg.users);
      SoundExcept(r, pending + {ws}) && Shrinks(reg, r)
  {
    var sid := reg.users[ws].sessionId;
    assert |reg.active[sid] - {ws}| == |reg.active[sid]| - 1;
  }

  /** Dropping the registration of an unseated pending socket at the end of
      its `disconnect`. */
  lemma Forget(reg: Registry, mid: Registry, after: Registry, ws: Sock, pending: set<Sock>, broken: set<Sock>)
    requires Shrinks(reg, mid) && Shrinks(mid, after) && mid.users == reg.users
    requires SoundExcept(after, pending + {ws}) && ws !in pending
    requires DropsOnly(mid, after, broken)
    ensures ws in after.users
    ensures var r := after.(users := after.users - {ws});
      SoundExcept(r, pending) && Shrinks(reg, r) && DropsOnly(reg, r, broken + {ws})
  {
  }

  lemma FailingNotPending(reg: Registry, sid: SessionId, failing: seq<Sock>, pending: set<Sock>)
    requires SoundExcept(reg, pending) && sid in reg.active
    requires forall i :: 0 <= i < |failing| ==> failing[i] in reg.active[sid]
    ensures forall i :: 0 <= i < |failing| ==> failing[i] !in pending
  {
  }

  lemma DisconnectAllStep(reg: Registry, d: Effect, rest: Effect, socks: seq<Sock>, broken: set<Sock>)
    requires socks != []
    requires Shrinks(reg, d.reg) && Shrinks(d.reg, rest.reg)
    requires socks[0] !in d.reg.users
    requires forall i :: 0 <= i < |socks| - 1 ==> socks[1..][i] !in rest.reg.users
    requires AllUserLeft(d.out) && AllUserLeft(rest.out)
    requires NoneBroken(d.out, broken) && NoneBroken(rest.out, broken)
    ensures Shrinks(reg, rest.reg)
    ensures forall i :: 0 <= i < |socks| ==> socks[i] !in rest.reg.users
    ensures AllUserLeft(d.out + rest.out) && NoneBroken(d.out + rest.out, broken)
  {
    assert forall i :: 1 <= i < |socks| ==> socks[i] == socks[1..][i - 1];
  }

  lemma DisconnectAllDrops(reg: Registry, mid: Registry, after: Registry, socks: seq<Sock>, broken: set<Sock>)
    requires socks != []
    requires DropsOnly(reg, mid, broken + {socks[0]})
    requires (forall i :: 0 <= i < |socks| - 1 ==> socks[1..][i] in broken) ==> DropsOnly(mid, after, broken)
    ensures (forall i :: 0 <= i < |socks| ==> socks[i] in broken) ==> DropsOnly(reg, after, broken)
  {
    if forall i :: 0 <= i < |socks| ==> socks[i] in broken {
      assert socks[0] in broken;
      assert forall i :: 0 <= i < |socks| - 1 ==> socks[1..][i] == socks[i + 1];
    }
  }

  lemma BroadcastShapeIntro(members: set<Sock>, order: seq<Sock>, msg: Msg, exclude: Option<Sock>,
                            broken: set<Sock>, failing: seq<Sock>, d: Effect)
    requires order == Ascending(members) && failing == Failing(order, exclude, broken)
    requires forall i :: 0 <= i < |failing| ==> failing[i] !in d.reg.users
    requires AllUserLeft(d.out)
    ensures BroadcastShape(members, msg, exclude, broken, Effect(d.reg, Deliver(order, msg, exclude, broken) + d.out))
  {
    var sent := Deliver(order, msg, exclude, broken);
    var out := sent + d.out;
    assert out[..|sent|] == sent;
    assert out[|sent|..] == d.out;
    DirectPassOfDeliver(members, order, msg, exclude, broken);
    BrokenMembersGone(members, order, exclude, broken, failing, d.reg);
  }

  /** Everything `broadcast_to_session` promises, from the two passes. */
  lemma BroadcastEffect(reg: Registry, members: set<Sock>, order: seq<Sock>, msg: Msg, exclude: Option<Sock>,
                        broken: set<Sock>, failing: seq<Sock>, d: Effect)
    requires order == Ascending(members) && failing == Failing(order, exclude, broken)
    requires forall i :: 0 <= i < |failing| ==> failing[i] !in d.reg.users
    requires AllUserLeft(d.out) && NoneBroken(d.out, broken)
    requires (forall i :: 0 <= i < |failing| ==> failing[i] in broken) ==> DropsOnly(reg, d.reg, broken)
    ensures NoneBroken(Deliver(order, msg, exclude, broken) + d.out, broken)
    ensures DropsOnly(reg, d.reg, broken)
    ensures BroadcastShape(members, msg, exclude, broken, Effect(d.reg, Deliver(order, msg, exclude, broken) + d.out))
  {
    var sent := Deliver(order, msg, exclude, broken);
    assert NoneBroken(sent, broken);
    NoneBrokenAppend(sent, d.out, broken);
    assert forall i :: 0 <= i < |failing| ==> failing[i] in broken;
    BroadcastShapeIntro(members, order, msg, exclude, broken, failing, d);
  }

  lemma NoneBrokenAppend(a: seq<Delivery>, b: seq<Delivery>, broken: set<Sock>)
    requires NoneBroken(a, broken) && NoneBroken(b, broken)
    ensures NoneBroken(a + b, broken)
  {
    assert forall i :: |a| <= i < |a + b| ==> (a + b)[i] == b[i - |a|];
  }

  lemma DirectPassOfDeliver(members: set<Sock>, order: seq<Sock>, msg: Msg, exclude: Option<Sock>, broken: set<Sock>)
    requires order == Ascending(members)
    ensures DirectPass(members, msg, exclude, broken, Deliver(order, msg, exclude, broken))
  {
    DeliverAscending(order, msg, exclude, broken);
  }

  lemma BrokenMembersGone(members: set<Sock>, order: seq<Sock>, exclude: Option<Sock>, broken: set<Sock>,
                          failing: seq<Sock>, reg: Registry)
    requires order == Ascending(members) && failing == Failing(order, exclude, broken)
    requires forall i :: 0 <= i < |failing| ==> failing[i] !in reg.users
    ensures forall w :: w in members && w in broken && exclude != Some(w) ==> w !in reg.users
  {
    forall w | w in members && w in broken && exclude != Some(w)
      ensures w !in reg.users
    {
      assert w in order;
      assert w in failing;
    }
  }

  predicate Increasing(order: seq<Sock>) {
    forall i, j :: 0 <= i < j < |order| ==> order[i] < order[j]
  }

  predicate IncreasingOut(out: seq<Delivery>) {
    forall i, j :: 0 <= i < j < |out| ==> out[i].0 < out[j].0
  }

  lemma {:induction false} DeliverAscending(order: seq<Sock>, msg: Msg, exclude: Option<Sock>, broken: set<Sock>)
    requires Increasing(order)
    ensures IncreasingOut(Deliver(order, msg, exclude, broken))
    decreases |order|
  {
    if order != [] {
      var tail := order[1..];
      TailIncreasing(order);
      DeliverAscending(tail, msg, exclude, broken);
      var rest := Deliver(tail, msg, exclude, broken);
      HeadBelowRest(order, rest);
      if exclude != Some(order[0]) && order[0] !in broken {
        ConsIncreasing((order[0], msg), rest);
      }
    }
  }

  lemma TailIncreasing(order: seq<Sock>)
    requires order != [] && Increasing(order)
    ensures Increasing(order[1..])
  {
    var tail := order[1..];
    forall i, j | 0 <= i < j < |tail| ensures tail[i] < tail[j] {
      assert tail[i] == order[i + 1] && tail[j] == order[j + 1];
    }
  }

  lemma HeadBelowRest(order: seq<Sock>, rest: seq<Delivery>)
    requires order != [] && Increasing(order)
    requires forall k :: 0 <= k < |rest| ==> rest[k].0 in order[1..]
    ensures forall k :: 0 <= k < |rest| ==> order[0] < rest[k].0
  {
    forall k | 0 <= k < |rest|
      ensures order[0] < rest[k].0
    {
      var j :| 0 <= j < |order[1..]| && order[1..][j] == rest[k].0;
      assert rest[k].0 == order[j + 1];
    }
  }

  lemma ConsIncreasing(d: Delivery, rest: seq<Delivery>)
    requires IncreasingOut(rest) && forall k :: 0 <= k < |rest| ==> d.0 < rest[k].0
    ensures IncreasingOut([d] + rest)
  {
    var r := [d] + rest;
    forall i, j | 0 <= i < j < |r| ensures r[i].0 < r[j].0 {
      assert r[j] == rest[j - 1];
      if i > 0 {
        assert r[i] == rest[i - 1];
      }
    }
  }
}

=== FILE: classroom_handlers.dfy ===
/** What the classroom does with the messages its sockets send
    (`handle_message` and the handlers it dispatches to), and how a visual
    cue from the stream becomes a `visual_update`. */
module ClassroomHandlers {
  import opened Optional
  import Scan
  import opened VisualCues
  import opened LiveTeaching
  import opened Classroom
  import VisualGeneration

  // ------------------------------------------------------- animations

  datatype AnimationRow = AnimationRow(key: string, data: AnimationData)

  /** `_get_animation_data`'s table, in its order. */
  const Animations: seq<AnimationRow> := [
    AnimationRow("falling_object", AnimationData("Falling Object", 2000, None)),
    AnimationRow("apple_falling", AnimationData("Apple Falling", 2000, None)),
    AnimationRow("pendulum_swing", AnimationData("Pendulum", 3000, Some("pendulum"))),
    AnimationRow("wave_motion", AnimationData("Wave", 4000, Some("sine_wave"))),
    AnimationRow("oscillation", AnimationData("Oscillation", 3000, Some("spring")))]

  /** What the client draws for an animation nobody listed. */
  const GenericAnimation: AnimationData := AnimationData("Generic", 2000, None)

  /** `_get_animation_data`: the table's entry for the type, else the generic one. */
  function AnimationDataFor(anim: Option<string>): (r: AnimationData)
    ensures anim.Some? && (exists i :: 0 <= i < |Animations| && Animations[i].key == anim.value) ==>
      exists i :: 0 <= i < |Animations| && Animations[i].key == anim.value && r == Animations[i].data
    ensures (anim.None? || forall i :: 0 <= i < |Animations| ==> Animations[i].key != anim.value) ==>
      r == GenericAnimation
  {
    match anim
    case None => GenericAnimation
    case Some(k) =>
      match Scan.First(Animations, (row: AnimationRow) => row.key == k)
      case Some(i) => Animations[i].data
      case None => GenericAnimation
  }

  /** No listed animation is the generic one. */
  lemma ListedAnimationsAreNotGeneric()
    ensures forall i :: 0 <= i < |Animations| ==> Animations[i].data.name != "Generic"
  {
  }

  /** `_process_visual_cue`: `animate` becomes an animation update carrying
      the cue's `type` and the table's data for it; `show_visual` becomes an
      image update carrying the description; any other action, nothing. */
  function ProcessVisualCue(cue: Cue): (r: Option<VisualUpdate>)
    ensures r.None? <==> cue.action != "animate" && cue.action != "show_visual"
    ensures cue.action == "animate" ==> (r.value.AnimationUpdate?
      && r.value.animation == (if cue.data.Kind? then Some(cue.data.kind) else None)
      && r.value.data == AnimationDataFor(r.value.animation))
    ensures cue.action == "show_visual" ==>
      r == Some(ImageUpdate(if cue.data.Description? then Some(cue.data.text) else None))
  {
    if cue.action == "animate" then
      var anim := if cue.data.Kind? then Some(cue.data.kind) else None;
      Some(AnimationUpdate(anim, AnimationDataFor(anim)))
    else if cue.action == "show_visual" then
      Some(ImageUpdate(if cue.data.Description? then Some(cue.data.text) else None))
    else None
  }

  /** Every `animate` cue the trigger table can produce names an animation
      the table lists. */
  lemma AnimateTriggersAreListed()
    ensures forall i :: 0 <= i < |VisualTriggers| && VisualTriggers[i].cue.action == "animate" ==>
      VisualTriggers[i].cue.data.Kind?
      && exists j :: 0 <= j < |Animations| && Animations[j].key == VisualTriggers[i].cue.data.kind
  {
    assert Animations[0].key == "falling_object";
    assert Animations[1].key == "apple_falling";
    assert Animations[2].key == "pendulum_swing";
    assert Animations[3].key == "wave_motion";
    assert Animations[4].key == "oscillation";
  }

  /** So a cue extracted from any sentence never makes the client fall back
      to the generic animation. */
  lemma StreamCuesNeverGeneric(sentence: string)
    requires ExtractVisualCue(sentence).Some?
    requires ExtractVisualCue(sentence).value.action == "animate"
    ensures ProcessVisualCue(ExtractVisualCue(sentence).value).value.data != GenericAnimation
  {
    KnownAnimateCueNotGeneric(ExtractVisualCue(sentence).value);
  }

  lemma KnownAnimateCueNotGeneric(c: Cue)
    requires IsKnownCue(c) && c.action == "animate"
    ensures ProcessVisualCue(c).value.data != GenericAnimation
  {
    var i :| 0 <= i < |VisualTriggers| && VisualTriggers[i].cue == c;
    AnimateTriggersAreListed();
    ListedAnimationsAreNotGeneric();
  }

  // ------------------------------------------------------- what a listener hears

  /** The messages delivered to `w`, in order, leaving out the `user_left`
      notices that cleanups interleave. */
  function Heard(out: seq<Delivery>, w: Sock): seq<Msg>
    decreases |out|
  {
    if out == [] then []
    else (if out[0].0 == w && !out[0].1.UserLeft? then [out[0].1] else []) + Heard(out[1..], w)
  }

  lemma {:induction false} HeardAppend(a: seq<Delivery>, b: seq<Delivery>, w: Sock)
    ensures Heard(a + b, w) == Heard(a, w) + Heard(b, w)
    decreases |a|
  {
    if a == [] {
      assert a + b == b;
    } else {
      var ab := a + b;
      assert ab[0] == a[0] && ab[1..] == a[1..] + b;
      HeardAppend(a[1..], b, w);
      var head := if a[0].0 == w && !a[0].1.UserLeft? then [a[0].1] else [];
      assert Heard(ab, w) == head + (Heard(a[1..], w) + Heard(b, w));
    }
  }

  lemma {:induction false} HeardNothing(out: seq<Delivery>, w: Sock)
    requires forall i :: 0 <= i < |out| ==> out[i].0 != w || out[i].1.UserLeft?
    ensures Heard(out, w) == []
    decreases |out|
  {
    if out != [] {
      assert out[0].0 != w || out[0].1.UserLeft?;
      assert forall i :: 0 <= i < |out[1..]| ==> out[1..][i] == out[i + 1];
      HeardNothing(out[1..], w);
    }
  }

  lemma TailIncreasingOut(out: seq<Delivery>)
    requires out != [] && IncreasingOut(out)
    ensures IncreasingOut(out[1..])
  {
    var tail := out[1..];
    forall i, j | 0 <= i < j < |tail| ensures tail[i].0 < tail[j].0 {
      assert tail[i] == out[i + 1] && tail[j] == out[j + 1];
    }
  }

  /** In one pass of a broadcast, a socket appears at most once. */
  lemma {:induction false} HeardOnce(pass: seq<Delivery>, w: Sock, msg: Msg)
    requires IncreasingOut(pass) && (w, msg) in pass && !msg.UserLeft?
    requires forall i :: 0 <= i < |pass| ==> pass[i].1 == msg
    ensures Heard(pass, w) == [msg]
    decreases |pass|
  {
    TailIncreasingOut(pass);
    if pass[0].0 == w {
      assert forall i :: 0 <= i < |pass[1..]| ==> pass[1..][i] == pass[i + 1];
      HeardNothing(pass[1..], w);
    } else {
      HeardOnce(pass[1..], w, msg);
    }
  }

  /** `w` is registered to `sid` and seated in it. */
  predicate Seated(reg: Registry, w: Sock, sid: SessionId) {
    w in reg.users && reg.users[w].sessionId == sid && sid in reg.active && w in reg.active[sid]
  }

  lemma KeepsListeners(reg: Registry, after: Registry, sid: SessionId, broken: set<Sock>)
    requires Sound(after) && Shrinks(reg, after) && DropsOnly(reg, after, broken)
    ensures forall w :: Seated(reg, w, sid) && w !in broken ==> Seated(after, w, sid)
  {
  }

  lemma HeardOfShape(members: set<Sock>, msg: Msg, broken: set<Sock>, b: Effect, w: Sock)
    requires BroadcastShape(members, msg, None, broken, b)
    requires w in members && w !in broken && !msg.UserLeft?
    ensures Heard(b.out, w) == [msg]
  {
    var k :| 0 <= k <= |b.out| && DirectPass(members, msg, None, broken, b.out[..k])
      && AllUserLeft(b.out[k..]);
    assert b.out == b.out[..k] + b.out[k..];
    HeardAppend(b.out[..k], b.out[k..], w);
    HeardNothing(b.out[k..], w);
    HeardOnce(b.out[..k], w, msg);
  }

  /** Broadcast several messages in turn. A member whose sends succeed
      hears every one of them, in order, with nothing else but presence
      notices in between, and stays in the session. */
  function BroadcastAll(reg: Registry, sid: SessionId, msgs: seq<Msg>, broken: set<Sock>): (r: Effect)
    requires Sound(reg)
    ensures Sound(r.reg) && Shrinks(reg, r.reg)
    ensures NoneBroken(r.out, broken) && DropsOnly(reg, r.reg, broken)
    ensures sid !in reg.active ==> r == Effect(reg, [])
    ensures Listeners(reg, r, sid, msgs, broken)
    decreases |msgs|
  {
    if msgs == [] then Effect(reg, [])
    else
      var b := Broadcast(reg, sid, msgs[0], None, {}, broken);
      var rest := BroadcastAll(b.reg, sid, msgs[1..], broken);
      ShrinksTrans(reg, b.reg, rest.reg);
      KeepsListeners(reg, b.reg, sid, broken);
      ListenersStep(reg, b, rest, sid, msgs, broken);
      Effect(rest.reg, b.out + rest.out)
  }

  /** Every member of `sid` in `reg` whose sends succeed hears `msgs` from
      `r.out` (when none of them is a `user_left` notice) and is still seated
      in `r.reg`. */
  ghost predicate Listeners(reg: Registry, r: Effect, sid: SessionId, msgs: seq<Msg>, broken: set<Sock>) {
    forall w :: Seated(reg, w, sid) && w !in broken ==>
      Seated(r.reg, w, sid) && (NoLeaveNotice(msgs) ==> Heard(r.out, w) == msgs)
  }

  predicate NoLeaveNotice(msgs: seq<Msg>) {
    forall i :: 0 <= i < |msgs| ==> !msgs[i].UserLeft?
  }

  lemma ListenersStep(reg: Registry, b: Effect, rest: Effect, sid: SessionId, msgs: seq<Msg>, broken: set<Sock>)
    requires msgs != []
    requires forall w :: Seated(reg, w, sid) && w !in broken ==> Seated(b.reg, w, sid)
    requires sid in reg.active ==> BroadcastShape(reg.active[sid], msgs[0], None, broken, b)
    requires Listeners(b.reg, rest, sid, msgs[1..], broken)
    ensures Listeners(reg, Effect(rest.reg, b.out + rest.out), sid, msgs, broken)
  {
    forall w | Seated(reg, w, sid) && w !in broken
      ensures Seated(rest.reg, w, sid)
      ensures NoLeaveNotice(msgs) ==> Heard(b.out + rest.out, w) == msgs
    {
      if NoLeaveNotice(msgs) {
        assert !msgs[0].UserLeft?;
        assert NoLeaveNotice(msgs[1..]) by {
          assert forall i :: 0 <= i < |msgs[1..]| ==> msgs[1..][i] == msgs[i + 1];
        }
        HeardOfShape(reg.active[sid], msgs[0], broken, b, w);
        HeardThen(b.out, rest.out, w, msgs);
      }
    }
  }

  lemma HeardThen(first: seq<Delivery>, rest: seq<Delivery>, w: Sock, msgs: seq<Msg>)
    requires msgs != [] && Heard(first, w) == [msgs[0]] && Heard(rest, w) == msgs[1..]
    ensures Heard(first + rest, w) == msgs
  {
    HeardAppend(first, rest, w);
    assert msgs == [msgs[0]] + msgs[1..];
  }

  // ------------------------------------------------------- ask_question

  /** What the session is sent for one stream event: the event itself and,
      after a visual cue that yields one, its `visual_update`. */
  function Expand(e: Event): seq<Msg> {
    [Relay(e)] + if e.VisualCue? && ProcessVisualCue(e.cue).Some? then [Visual(ProcessVisualCue(e.cue).value)] else []
  }

  function ExpandAll(evs: seq<Event>): seq<Msg>
    decreases |evs|
  {
    if evs == [] then [] else Expand(evs[0]) + ExpandAll(evs[1..])
  }

  /** The stream events a listener is relayed, recovered from what it hears. */
  function Relayed(msgs: seq<Msg>): seq<Event>
    decreases |msgs|
  {
    if msgs == [] then []
    else (if msgs[0].Relay? then [msgs[0].event] else []) + Relayed(msgs[1..])
  }

  lemma {:induction false} RelayedAppend(a: seq<Msg>, b: seq<Msg>)
    ensures Relayed(a + b) == Relayed(a) + Relayed(b)
    decreases |a|
  {
    if a == [] {
      assert a + b == b;
    } else {
      var ab := a + b;
      assert ab[0] == a[0] && ab[1..] == a[1..] + b;
      RelayedAppend(a[1..], b);
      var head := if a[0].Relay? then [a[0].event] else [];
      assert Relayed(ab) == head + (Relayed(a[1..]) + Relayed(b));
    }
  }

  /** Every stream event is relayed, in order, and the visual updates
      interleaved with them are all that is added: nothing else is sent and
      no event is lost. */
  lemma {:induction false} ExpandAllRelays(evs: seq<Event>)
    ensures Relayed(ExpandAll(evs)) == evs
    ensures forall i :: 0 <= i < |ExpandAll(evs)| ==> ExpandAll(evs)[i].Relay? || ExpandAll(evs)[i].Visual?
    decreases |evs|
  {
    if evs != [] {
      var head := Expand(evs[0]);
      ExpandAllRelays(evs[1..]);
      RelayedAppend(head, ExpandAll(evs[1..]));
      assert Relayed(head) == [evs[0]] by {
        assert head[0] == Relay(evs[0]) && head[1..] == Expand(evs[0])[1..];
        if |head| == 2 {
          assert Relayed(head[1..][1..]) == [];
        }
      }
      assert evs == [evs[0]] + evs[1..];
    }
  }

  /** Set the session's fields, keeping its count. */
  function WithState(reg: Registry, sid: SessionId, st: SessionState): (r: Registry)
    requires Sound(reg) && sid in reg.states && st.participants == reg.states[sid].participants
    ensures Sound(r) && r.users == reg.users && r.active == reg.active
    ensures r.states == reg.states[sid := st]
  {
    reg.(states := reg.states[sid := st])
  }

  /** The teaching run proper: record the question, mark the session as
      teaching, announce the start, then relay the lesson. While it runs the
      session keeps the question and stays marked as teaching. */
  function TeachingRun(reg: Registry, sid: SessionId, question: string, subject: Option<string>,
                       events: seq<Event>, broken: set<Sock>): (r: Effect)
    requires Sound(reg) && sid in reg.states
    ensures Sound(r.reg) && UsersKept(reg, r.reg) && NoneBroken(r.out, broken) && DropsOnly(reg, r.reg, broken)
    ensures sid in r.reg.states ==> r.reg.states[sid] == reg.states[sid].(
      currentQuestion := Some(question), isTeaching := true, participants := r.reg.states[sid].participants)
    ensures Listeners(reg, r, sid, LessonMsgs(question, subject, events), broken)
  {
    var reg1 := WithState(reg, sid, reg.states[sid].(currentQuestion := Some(question), isTeaching := true));
    var run := BroadcastAll(reg1, sid, LessonMsgs(question, subject, events), broken);
    SameSeats(reg, reg1, run, sid, LessonMsgs(question, subject, events), broken);
    run
  }

  /** What a teaching run broadcasts, end notice aside. */
  function LessonMsgs(question: string, subject: Option<string>, events: seq<Event>): seq<Msg> {
    [TeachingStart(question, subject)] + ExpandAll(events)
  }

  lemma LessonHasNoLeaveNotice(question: string, subject: Option<string>, events: seq<Event>)
    ensures NoLeaveNotice(LessonMsgs(question, subject, events) + [TeachingEnd])
  {
    ExpandAllRelays(events);
    var m := LessonMsgs(question, subject, events) + [TeachingEnd];
    forall i | 0 <= i < |m| ensures !m[i].UserLeft? {
      if 0 < i < |m| - 1 {
        assert m[i] == ExpandAll(events)[i - 1];
      }
    }
  }

  /** Listeners of a registry whose seats are those of `reg1` are
      listeners of `reg1`. */
  lemma SameSeats(reg: Registry, reg1: Registry, r: Effect, sid: SessionId, msgs: seq<Msg>, broken: set<Sock>)
    requires reg1.users == reg.users && reg1.active == reg.active
    requires Listeners(reg1, r, sid, msgs, broken)
    ensures Listeners(reg, r, sid, msgs, broken)
  {
    forall w | Seated(reg, w, sid) && w !in broken
      ensures Seated(r.reg, w, sid) && (NoLeaveNotice(msgs) ==> Heard(r.out, w) == msgs)
    {
      assert Seated(reg1, w, sid);
    }
  }

  /** Registrations only ever disappear; the survivors are untouched. */
  predicate UsersKept(before: Registry, after: Registry) {
    after.users.Keys <= before.users.Keys
    && (forall w :: w in after.users ==> after.users[w] == before.users[w])
    && after.states.Keys <= before.states.Keys
  }

  lemma KeptTrans(a: Registry, b: Registry, c: Registry, ab: seq<Delivery>, bc: seq<Delivery>, broken: set<Sock>)
    requires UsersKept(a, b) && UsersKept(b, c) && DropsOnly(a, b, broken) && DropsOnly(b, c, broken)
    requires NoneBroken(ab, broken) && NoneBroken(bc, broken)
    ensures UsersKept(a, c) && DropsOnly(a, c, broken) && NoneBroken(ab + bc, broken)
  {
    var out := ab + bc;
    forall i | 0 <= i < |out| ensures out[i].0 !in broken {
      if i >= |ab| {
        assert out[i] == bc[i - |ab|];
      }
    }
  }

  const QuestionRequired: string := "Question is required"

  /** What the teaching model produces for a question: the chunks it
      delivered, and the message of the exception that ended it, if any. */
  datatype Lesson = Lesson(chunks: seq<string>, failure: Option<string>)

  /** `handle_question`. An empty question is answered with an error to the
      asker alone and changes nothing. Otherwise the session is taught. */
  function HandleQuestion(reg: Registry, ws: Sock, question: string, subject: Option<string>,
                          lesson: Lesson, broken: set<Sock>): (r: Outcome)
    requires Sound(reg) && ws in reg.users
    ensures Sound(r.reg) && UsersKept(reg, r.reg) && NoneBroken(r.out, broken) && DropsOnly(reg, r.reg, broken)
    ensures question == "" ==> (r.reg == reg && (r.raised <==> ws in broken)
      && r.out == (if ws in broken then [] else [(ws, Failure(QuestionRequired))]))
    ensures question != "" ==>
      r == Teach(reg, reg.users[ws].sessionId, question, subject, Stream(question, lesson.chunks, lesson.failure), broken)
  {
    if question == "" then
      if ws in broken then Outcome(reg, [], true) else Outcome(reg, [(ws, Failure(QuestionRequired))], false)
    else
      Teach(reg, reg.users[ws].sessionId, question, subject, Stream(question, lesson.chunks, lesson.failure), broken)
  }

  /** Teaching a non-empty question: the run, then, when the session still
      exists, clearing its teaching mark and telling it the run ended. When
      every member's socket failed during the run the session is gone by
      then and the final state update raises. Every member whose sends
      succeed hears the whole lesson and its end, and its presence keeps the
      session alive, so the failure needs every member's socket to fail. */
  function Teach(reg: Registry, sid: SessionId, question: string, subject: Option<string>,
                 events: seq<Event>, broken: set<Sock>): (r: Outcome)
    requires Sound(reg) && sid in reg.states
    ensures Sound(r.reg) && UsersKept(reg, r.reg) && NoneBroken(r.out, broken) && DropsOnly(reg, r.reg, broken)
    ensures !r.raised && sid in r.reg.states ==>
      r.reg.states[sid] == reg.states[sid].(currentQuestion := Some(question), isTeaching := false,
                                            participants := r.reg.states[sid].participants)
    ensures r.raised ==> sid !in r.reg.states
    ensures forall w :: Seated(reg, w, sid) && w !in broken ==>
      !r.raised && Heard(r.out, w) == LessonMsgs(question, subject, events) + [TeachingEnd]
  {
    var run := TeachingRun(reg, sid, question, subject, events, broken);
    var end := EndTeaching(run.reg, sid, broken);
    LessonHasNoLeaveNotice(question, subject, events);
    TaughtToTheEnd(reg, run, end, sid, LessonMsgs(question, subject, events), broken);
    KeptTrans(reg, run.reg, end.reg, run.out, end.out, broken);
    Outcome(end.reg, run.out + end.out, end.raised)
  }

  /** The end of a run: `is_teaching` cleared and `teaching_end` broadcast,
      or, for a session that no longer exists, the exception. */
  function EndTeaching(reg: Registry, sid: SessionId, broken: set<Sock>): (r: Outcome)
    requires Sound(reg)
    ensures Sound(r.reg) && UsersKept(reg, r.reg) && NoneBroken(r.out, broken) && DropsOnly(reg, r.reg, broken)
    ensures r.raised <==> sid !in reg.states
    ensures r.raised ==> r.reg == reg && r.out == []
    ensures !r.raised && sid in r.reg.states ==>
      r.reg.states[sid] == reg.states[sid].(isTeaching := false, participants := r.reg.states[sid].participants)
    ensures Listeners(reg, Effect(r.reg, r.out), sid, [TeachingEnd], broken)
  {
    if sid in reg.states then
      var reg2 := WithState(reg, sid, reg.states[sid].(isTeaching := false));
      var end := BroadcastAll(reg2, sid, [TeachingEnd], broken);
      SameSeats(reg, reg2, end, sid, [TeachingEnd], broken);
      assert end == Effect(end.reg, end.out);
      Outcome(end.reg, end.out, false)
    else
      Outcome(reg, [], true)
  }

  lemma TaughtToTheEnd(reg: Registry, run: Effect, end: Outcome, sid: SessionId,
                       lesson: seq<Msg>, broken: set<Sock>)
    requires Listeners(reg, run, sid, lesson, broken)
    requires Listeners(run.reg, Effect(end.reg, end.out), sid, [TeachingEnd], broken)
    requires NoLeaveNotice(lesson + [TeachingEnd])
    requires forall w :: Seated(run.reg, w, sid) ==> !end.raised
    ensures forall w :: Seated(reg, w, sid) && w !in broken ==>
      !end.raised && Heard(run.out + end.out, w) == lesson + [TeachingEnd]
  {
    forall w | Seated(reg, w, sid) && w !in broken
      ensures !end.raised && Heard(run.out + end.out, w) == lesson + [TeachingEnd]
    {
      var m := lesson + [TeachingEnd];
      assert NoLeaveNotice(lesson) by {
        assert forall i :: 0 <= i < |lesson| ==> lesson[i] == m[i];
      }
      HeardAppend(run.out, end.out, w);
    }
  }

  // ------------------------------------------------------- the other handlers

  /** `handle_pause` (`paused`) and `handle_resume` (`!paused`): set the
      session's pause flag and tell every member. */
  function HandlePause(reg: Registry, sid: SessionId, paused: bool, broken: set<Sock>): (r: Effect)
    requires Sound(reg) && sid in reg.states
    ensures Sound(r.reg) && UsersKept(reg, r.reg) && NoneBroken(r.out, broken) && DropsOnly(reg, r.reg, broken)
    ensures sid in r.reg.states ==>
      r.reg.states[sid] == reg.states[sid].(paused := Some(paused), participants := r.reg.states[sid].participants)
    ensures Listeners(reg, r, sid, [if paused then SessionPaused else SessionResumed], broken)
  {
    var reg1 := WithState(reg, sid, reg.states[sid].(paused := Some(paused)));
    var b := BroadcastAll(reg1, sid, [if paused then SessionPaused else SessionResumed], broken);
    SameSeats(reg, reg1, b, sid, [if paused then SessionPaused else SessionResumed], broken);
    StateThenBroadcast(reg, reg1, b.reg, sid, reg.states[sid].(paused := Some(paused)), broken);
    b
  }

  /** A broadcast after one session's state was replaced: the registrations
      only shrink, and the session, if it survives, keeps the new state but
      for its count. */
  lemma StateThenBroadcast(reg: Registry, reg1: Registry, after: Registry, sid: SessionId, st: SessionState,
                           broken: set<Sock>)
    requires sid in reg.states && reg1 == reg.(states := reg.states[sid := st])
    requires Shrinks(reg1, after) && DropsOnly(reg1, after, broken)
    ensures UsersKept(reg, after) && DropsOnly(reg, after, broken)
    ensures sid in after.states ==> after.states[sid] == st.(participants := after.states[sid].participants)
  {
  }

  /** What the visual generator returned: its `visual_type` and `url`
      entries, either of which may be missing. */
  datatype Rendered = Rendered(visualType: Option<string>, url: Option<string>)

  function LoadingMessage(visualType: string, concept: string): string {
    "Generating " + visualType + " for " + concept + "..."
  }

  /** `handle_visual_request`: announce the generation, then broadcast what
      it produced. The registry changes only through failed sends. */
  function HandleVisualRequest(reg: Registry, sid: SessionId, visualType: string, concept: string,
                               rendered: Rendered, broken: set<Sock>): (r: Effect)
    requires Sound(reg)
    ensures Sound(r.reg) && Shrinks(reg, r.reg) && NoneBroken(r.out, broken) && DropsOnly(reg, r.reg, broken)
    ensures Listeners(reg, r, sid, [VisualLoading(LoadingMessage(visualType, concept)),
                                    VisualReady(rendered.visualType, rendered.url, concept)], broken)
  {
    BroadcastAll(reg, sid, [VisualLoading(LoadingMessage(visualType, concept)),
                            VisualReady(rendered.visualType, rendered.url, concept)], broken)
  }

  /** The renderer that is the visual service itself: `generate_visual`
      with the concept as the spec's description, reporting the result's
      type and url. */
  function GeneratorRender(w: VisualGeneration.World): (string, string) -> Rendered {
    (visualType: string, concept: string) =>
      var v := VisualGeneration.GenerateVisual(VisualGeneration.VisualSpec(None, Some(concept)), concept, visualType, w);
      Rendered(Some(VisualGeneration.VisualType(v)), Some(VisualGeneration.Url(v)))
  }

  /** With the visual service as the renderer, every listener hears the
      loading notice and then the service's result, and that result is an
      animation video only when an animation was requested. */
  lemma VisualRequestUsesGenerator(reg: Registry, sid: SessionId, visualType: string, concept: string,
                                   w: VisualGeneration.World, broken: set<Sock>)
    requires Sound(reg)
    ensures var v := VisualGeneration.GenerateVisual(VisualGeneration.VisualSpec(None, Some(concept)), concept, visualType, w);
      var e := HandleVisualRequest(reg, sid, visualType, concept, GeneratorRender(w)(visualType, concept), broken);
      Listeners(reg, e, sid, [VisualLoading(LoadingMessage(visualType, concept)),
                              VisualReady(Some(VisualGeneration.VisualType(v)), Some(VisualGeneration.Url(v)), concept)], broken)
      && (VisualGeneration.VisualType(v) == "animation" ==> visualType == "animation")
  {
    var v := VisualGeneration.GenerateVisual(VisualGeneration.VisualSpec(None, Some(concept)), concept, visualType, w);
    VisualGeneration.VideoOnlyForAnimations(VisualGeneration.VisualSpec(None, Some(concept)), concept, visualType, w);
    assert GeneratorRender(w)(visualType, concept)
      == Rendered(Some(VisualGeneration.VisualType(v)), Some(VisualGeneration.Url(v)));
  }

  /** `handle_chat`: every member, the sender included, receives the text
      under the sender's registered user id. */
  function HandleChat(reg: Registry, ws: Sock, text: string, now: string, broken: set<Sock>): (r: Effect)
    requires Sound(reg) && ws in reg.users
    ensures Sound(r.reg) && Shrinks(reg, r.reg) && NoneBroken(r.out, broken) && DropsOnly(reg, r.reg, broken)
    ensures Listeners(reg, r, reg.users[ws].sessionId, [ChatMessage(reg.users[ws].userId, text, now)], broken)
  {
    BroadcastAll(reg, reg.users[ws].sessionId, [ChatMessage(reg.users[ws].userId, text, now)], broken)
  }

  // ------------------------------------------------------- handle_message

  /** A message received from a classroom socket: its fields, and the time
      at which it is handled. */
  datatype Incoming = Incoming(fields: map<string, string>, at: string)

  /** `message.get(key)`. */
  function Get(fields: map<string, string>, key: string): (r: Option<string>)
    ensures r.Some? <==> key in fields
    ensures r.Some? ==> r.value == fields[key]
  {
    if key in fields then Some(fields[key]) else None
  }

  /** What lies outside the server: which sockets fail when written to,
      what the teaching model says about a question and subject, and what
      the visual generator returns for a visual type and concept. */
  datatype World = World(
    broken: set<Sock>,
    teach: (string, Option<string>) -> Lesson,
    render: (string, string) -> Rendered)

  const MessageTypes: set<string> := {"ask_question", "request_visual", "pause", "resume", "feedback", "chat"}

  /** `handle_message`: a socket that is no longer registered is ignored, and
      so is a message whose `type` is missing or unknown; otherwise the
      message goes to its handler. Only the two handlers that write to the
      sender directly, and the teaching run, can raise. */
  function HandleMessage(reg: Registry, ws: Sock, m: Incoming, world: World): (r: Outcome)
    requires Sound(reg)
    ensures Sound(r.reg) && UsersKept(reg, r.reg)
    ensures NoneBroken(r.out, world.broken) && DropsOnly(reg, r.reg, world.broken)
    ensures ws !in reg.users ==> r == Outcome(reg, [], false)
    ensures (Get(m.fields, "type").None? || Get(m.fields, "type").value !in MessageTypes) ==> r == Outcome(reg, [], false)
    ensures r.raised ==> Get(m.fields, "type") == Some("ask_question") || Get(m.fields, "type") == Some("feedback")
    ensures ws in reg.users && Get(m.fields, "type") == Some("feedback") ==>
      r.reg == reg && (r.raised <==> ws in world.broken)
      && r.out == (if ws in world.broken then [] else [(ws, FeedbackReceived)])
    ensures ws in reg.users && Get(m.fields, "type") == Some("ask_question") ==>
      var question := Get(m.fields, "question").GetOr("");
      var subject := Get(m.fields, "subject");
      r == HandleQuestion(reg, ws, question, subject, world.teach(question, subject), world.broken)
  {
    if ws !in reg.users then Outcome(reg, [], false)
    else if Get(m.fields, "type") == Some("ask_question") then
      var question := Get(m.fields, "question").GetOr("");
      var subject := Get(m.fields, "subject");
      HandleQuestion(reg, ws, question, subject, world.teach(question, subject), world.broken)
    else
      HandleOther(reg, ws, m, world)
  }

  /** The handlers other than `handle_question`. */
  function HandleOther(reg: Registry, ws: Sock, m: Incoming, world: World): (r: Outcome)
    requires Sound(reg) && ws in reg.users
    ensures Sound(r.reg) && UsersKept(reg, r.reg)
    ensures NoneBroken(r.out, world.broken) && DropsOnly(reg, r.reg, world.broken)
    ensures (Get(m.fields, "type").None? || Get(m.fields, "type").value !in MessageTypes) ==> r == Outcome(reg, [], false)
    ensures r.raised ==> Get(m.fields, "type") == Some("feedback")
    ensures Get(m.fields, "type") == Some("feedback") ==>
      r.reg == reg && (r.raised <==> ws in world.broken)
      && r.out == (if ws in world.broken then [] else [(ws, FeedbackReceived)])
  {
    var sid := reg.users[ws].sessionId;
    var kind := Get(m.fields, "type");
    var broken := world.broken;
    if kind == Some("request_visual") then
      var visualType := Get(m.fields, "visual_type").GetOr("animation");
      var concept := Get(m.fields, "concept").GetOr("");
      var e := HandleVisualRequest(reg, sid, visualType, concept, world.render(visualType, concept), broken);
      Outcome(e.reg, e.out, false)
    else if kind == Some("pause") || kind == Some("resume") then
      var e := HandlePause(reg, sid, kind == Some("pause"), broken);
      Outcome(e.reg, e.out, false)
    else if kind == Some("feedback") then
      if ws in broken then Outcome(reg, [], true) else Outcome(reg, [(ws, FeedbackReceived)], false)
    else if kind == Some("chat") then
      var e := HandleChat(reg, ws, Get(m.fields, "message").GetOr(""), m.at, broken);
      Outcome(e.reg, e.out, false)
    else
      Outcome(reg, [], false)
  }
}

=== FILE: classroom_routes.dfy ===
/** The live-classroom HTTP and socket endpoints: the session status
    report, the life of one classroom socket, the single-user teaching
    socket and the creation of a session link. */
module ClassroomRoutes {
  import opened Optional
  import opened LiveTeaching
  import opened Classroom
  import opened ClassroomHandlers

  // ------------------------------------------------------- session status

  /** The body of `get_session_status`. */
  datatype Status =
    | Inactive(sessionId: SessionId)
    | Active(sessionId: SessionId, participants: int, isTeaching: bool,
             currentQuestion: Option<string>, createdAt: string)

  /** A session the registry does not know is reported inactive; a known
      one reports its count, teaching flag, question and creation time as
      the registry holds them. The registry itself is only read. */
  function SessionStatus(reg: Registry, sid: SessionId): (r: Status)
    ensures r.sessionId == sid
    ensures r.Inactive? <==> sid !in reg.states
    ensures r.Active? ==> (var st := reg.states[sid];
      r.participants == st.participants && r.isTeaching == st.isTeaching
      && r.currentQuestion == st.currentQuestion && r.createdAt == st.createdAt)
  {
    if sid !in reg.states then Inactive(sid)
    else
      var st := reg.states[sid];
      Active(sid, st.participants, st.isTeaching, st.currentQuestion, st.createdAt)
  }

  /** In a sound registry an active session's reported count is the
      number of sockets seated in it, and is never zero. */
  lemma StatusCountsSockets(reg: Registry, sid: SessionId)
    requires Sound(reg) && sid in reg.states
    ensures SessionStatus(reg, sid).participants == |reg.active[sid]| >= 1
  {
    assert reg.active[sid] != {};
  }

  // ------------------------------------------------------- classroom socket

  /** The receive loop of `classroom_websocket`: hand each message to
      `handle_message` until one raises or the client goes away. */
  function Serve(reg: Registry, ws: Sock, msgs: seq<Incoming>, world: World): (r: Outcome)
    requires Sound(reg)
    ensures Sound(r.reg) && UsersKept(reg, r.reg)
    ensures NoneBroken(r.out, world.broken) && DropsOnly(reg, r.reg, world.broken)
    ensures ws !in reg.users ==> r == Outcome(reg, [], false)
    decreases |msgs|
  {
    if msgs == [] then Outcome(reg, [], false)
    else
      var h := HandleMessage(reg, ws, msgs[0], world);
      if h.raised then h
      else
        var rest := Serve(h.reg, ws, msgs[1..], world);
        KeptTrans(reg, h.reg, rest.reg, h.out, rest.out, world.broken);
        ServeIgnored(reg, ws, msgs, world, h, rest);
        Outcome(rest.reg, h.out + rest.out, rest.raised)
  }

  lemma ServeIgnored(reg: Registry, ws: Sock, msgs: seq<Incoming>, world: World, h: Outcome, rest: Outcome)
    requires ws !in reg.users ==> h == Outcome(reg, [], false)
    requires ws !in h.reg.users ==> rest == Outcome(h.reg, [], false)
    ensures ws !in reg.users ==> Outcome(rest.reg, h.out + rest.out, rest.raised) == Outcome(reg, [], false)
  {
    if ws !in reg.users {
      assert h.out + rest.out == [];
    }
  }

  /** `classroom_websocket`: the socket is connected before anything else
      happens and welcomed first. When the welcome itself fails the
      exception escapes before the receive loop, and the socket stays
      registered; otherwise, however the loop ends, the socket is
      disconnected. */
  function ClassroomSocket(reg: Registry, ws: Sock, sid: SessionId, userId: Option<string>, joinedAt: string,
                           msgs: seq<Incoming>, world: World): (r: Outcome)
    requires Sound(reg) && ws !in reg.users
    ensures Sound(r.reg)
    ensures r.raised <==> ws in world.broken
    ensures r.raised ==> ws in r.reg.users && r.out == []
    ensures !r.raised ==> ws !in r.reg.users
    ensures !r.raised ==> |r.out| >= 1 && r.out[0] == (ws, Connected(sid, CountAfterJoin(reg, sid)))
  {
    var c := Connect(reg, ws, sid, userId, joinedAt, world.broken);
    if c.raised then c
    else
      var s := Serve(c.reg, ws, msgs, world);
      var d := Disconnect(s.reg, ws, {}, world.broken);
      Outcome(d.reg, c.out + s.out + d.out, false)
  }

  // ------------------------------------------------------- quick teach

  /** The answer of `quick_teach_websocket` to one message: an error when the
      question is missing or empty, and otherwise every event of the
      stream, as it comes. */
  function QuickAnswer(fields: map<string, string>, teach: (string, Option<string>) -> Lesson): (r: seq<Msg>)
    ensures (Get(fields, "question").None? || Get(fields, "question").value == "") <==> r == [Failure(QuestionRequired)]
    ensures Get(fields, "question").Some? && Get(fields, "question").value != "" ==>
      var q := Get(fields, "question").value;
      var lesson := teach(q, Get(fields, "subject"));
      Relayed(r) == Stream(q, lesson.chunks, lesson.failure) && forall i :: 0 <= i < |r| ==> r[i].Relay?
  {
    match Get(fields, "question")
    case Some(q) =>
      if q == "" then [Failure(QuestionRequired)]
      else
        var lesson := teach(q, Get(fields, "subject"));
        var evs := Stream(q, lesson.chunks, lesson.failure);
        RelaysOf(evs);
        Relays(evs)
    case None => [Failure(QuestionRequired)]
  }

  function Relays(evs: seq<Event>): (r: seq<Msg>)
    ensures |r| == |evs| && forall i :: 0 <= i < |r| ==> r[i] == Relay(evs[i])
  {
    seq(|evs|, i requires 0 <= i < |evs| => Relay(evs[i]))
  }

  lemma {:induction false} RelaysOf(evs: seq<Event>)
    ensures Relayed(Relays(evs)) == evs
    decreases |evs|
  {
    if evs != [] {
      RelaysOf(evs[1..]);
      assert Relays(evs)[1..] == Relays(evs[1..]);
      assert evs == [evs[0]] + evs[1..];
    }
  }

  /** The loop of `quick_teach_websocket`: a message without a question is
      answered and the loop goes on to the next one. */
  function QuickTeach(requests: seq<map<string, string>>, teach: (string, Option<string>) -> Lesson): seq<Msg>
    decreases |requests|
  {
    if requests == [] then [] else QuickAnswer(requests[0], teach) + QuickTeach(requests[1..], teach)
  }

  /** A message carrying a non-empty question. */
  predicate Asks(fields: map<string, string>) {
    "question" in fields && fields["question"] != ""
  }

  function CountAsks(requests: seq<map<string, string>>): nat
    decreases |requests|
  {
    if requests == [] then 0 else (if Asks(requests[0]) then 1 else 0) + CountAsks(requests[1..])
  }

  /** How many times a message kind occurs. */
  function CountMsgs(msgs: seq<Msg>, p: Msg -> bool): nat
    decreases |msgs|
  {
    if msgs == [] then 0 else (if p(msgs[0]) then 1 else 0) + CountMsgs(msgs[1..], p)
  }

  lemma {:induction false} CountMsgsAppend(a: seq<Msg>, b: seq<Msg>, p: Msg -> bool)
    ensures CountMsgs(a + b, p) == CountMsgs(a, p) + CountMsgs(b, p)
    decreases |a|
  {
    if a == [] {
      assert a + b == b;
    } else {
      assert (a + b)[0] == a[0] && (a + b)[1..] == a[1..] + b;
      CountMsgsAppend(a[1..], b, p);
    }
  }

  predicate IsStart(m: Msg) {
    m.Relay? && m.event.Start?
  }

  predicate IsFailure(m: Msg) {
    m.Failure?
  }

  /** A stream, relayed, starts once. */
  lemma {:induction false} RelayedStreamStartsOnce(evs: seq<Event>, k: nat)
    requires k <= |evs| && forall i :: k <= i < |evs| ==> (evs[i].Start? <==> i == 0)
    ensures CountMsgs(Relays(evs)[k..], IsStart) == (if k == 0 && |evs| > 0 then 1 else 0)
    decreases |evs| - k
  {
    var r := Relays(evs)[k..];
    if k < |evs| {
      RelayedStreamStartsOnce(evs, k + 1);
      assert r[0] == Relay(evs[k]) && r[1..] == Relays(evs)[k + 1..];
    } else {
      assert r == [];
    }
  }

  /** Each message is answered by exactly one `start` or exactly one error,
      never both: every message with a question starts one stream, and
      every other message gets one error and nothing else. */
  lemma {:induction false} QuickTeachAnswersEach(requests: seq<map<string, string>>,
                                                 teach: (string, Option<string>) -> Lesson)
    ensures CountMsgs(QuickTeach(requests, teach), IsStart) == CountAsks(requests)
    ensures CountMsgs(QuickTeach(requests, teach), IsFailure) == |requests| - CountAsks(requests)
    decreases |requests|
  {
    if requests != [] {
      var a := QuickAnswer(requests[0], teach);
      QuickTeachAnswersEach(requests[1..], teach);
      CountMsgsAppend(a, QuickTeach(requests[1..], teach), IsStart);
      CountMsgsAppend(a, QuickTeach(requests[1..], teach), IsFailure);
      QuickAnswerCounts(requests[0], teach);
      CountAsksBound(requests[1..]);
    }
  }

  lemma {:induction false} CountAsksBound(requests: seq<map<string, string>>)
    ensures CountAsks(requests) <= |requests|
    decreases |requests|
  {
    if requests != [] {
      CountAsksBound(requests[1..]);
    }
  }

  lemma QuickAnswerCounts(fields: map<string, string>, teach: (string, Option<string>) -> Lesson)
    ensures CountMsgs(QuickAnswer(fields, teach), IsStart) == (if Asks(fields) then 1 else 0)
    ensures CountMsgs(QuickAnswer(fields, teach), IsFailure) == (if Asks(fields) then 0 else 1)
  {
    var a := QuickAnswer(fields, teach);
    if Asks(fields) {
      var q := fields["question"];
      var lesson := teach(q, Get(fields, "subject"));
      var evs := Stream(q, lesson.chunks, lesson.failure);
      assert a == Relays(evs);
      RelayedStreamStartsOnce(evs, 0);
      assert Relays(evs)[0..] == a;
      NoFailureInRelays(a);
    } else {
      assert a == [Failure(QuestionRequired)];
      assert a[1..] == [];
    }
  }

  lemma {:induction false} NoFailureInRelays(msgs: seq<Msg>)
    requires forall i :: 0 <= i < |msgs| ==> msgs[i].Relay?
    ensures CountMsgs(msgs, IsFailure) == 0
    decreases |msgs|
  {
    if msgs != [] {
      NoFailureInRelays(msgs[1..]);
    }
  }

  // ------------------------------------------------------- session link

  datatype SessionLink = SessionLink(sessionId: SessionId, websocketUrl: string)

  const ClassroomPrefix: string := "/ws/classroom/"

  /** `create_session`: the session id is the first eight characters of a
      fresh UUID's text, and the link is the classroom socket path for it. */
  function CreateSession(uuid: string): (r: SessionLink)
    ensures |uuid| >= 8 ==> |r.sessionId| == 8
    ensures r.sessionId <= uuid
    ensures |uuid| < 8 ==> r.sessionId == uuid
    ensures r.websocketUrl == ClassroomPrefix + r.sessionId
  {
    var id := if |uuid| >= 8 then uuid[..8] else uuid;
    SessionLink(id, ClassroomPrefix + id)
  }

  /** The session a classroom socket path names: the single path segment
      after the prefix. */
  function ClassroomPath(path: string): (r: Option<SessionId>)
    ensures r.Some? ==> ClassroomPrefix + r.value == path && r.value != [] && '/' !in r.value
  {
    if |path| > |ClassroomPrefix| && path[..|ClassroomPrefix|] == ClassroomPrefix && '/' !in path[|ClassroomPrefix|..] then
      Some(path[|ClassroomPrefix|..])
    else None
  }

  /** The link of a new session leads back to that session. A UUID's text
      is hex digits and dashes, so it holds no `/`. */
  lemma SessionLinkNamesSession(uuid: string)
    requires |uuid| >= 8 && '/' !in uuid
    ensures ClassroomPath(CreateSession(uuid).websocketUrl) == Some(CreateSession(uuid).sessionId)
  {
    var r := CreateSession(uuid);
    assert r.websocketUrl[..|ClassroomPrefix|] == ClassroomPrefix;
    assert r.websocketUrl[|ClassroomPrefix|..] == r.sessionId;
    assert forall i :: 0 <= i < 8 ==> r.sessionId[i] == uuid[i];
  }
}

=== FILE: config.dfy ===
/** The one computed setting: the list of allowed CORS origins, read from
    a comma-separated string. */
module Config {
  import opened PyStr

  /** The default of `CORS_ORIGINS`. */
  const DefaultCorsOrigins := "http://localhost:3000,http://localhost:3001"

  /** `cors_origins_list`: the string split at every comma, each piece
      stripped of surrounding whitespace, in order. */
  function CorsOriginsList(origins: string): (r: seq<string>)
    ensures |r| == CountChar(origins, ',') + 1
    ensures forall i :: 0 <= i < |r| ==> r[i] == Strip(SplitOn(origins, ',')[i])
    ensures forall i :: 0 <= i < |r| && r[i] != [] ==> !IsSpace(r[i][0]) && !IsSpace(r[i][|r[i]| - 1])
  {
    StripEach(SplitOn(origins, ','))
  }

  /** Every piece stripped, in order. */
  function StripEach(parts: seq<string>): (r: seq<string>)
    ensures |r| == |parts|
    ensures forall i :: 0 <= i < |r| ==> r[i] == Strip(parts[i])
  {
    seq(|parts|, i requires 0 <= i < |parts| => Strip(parts[i]))
  }

  /** `",".join(origins)`. */
  function JoinComma(origins: seq<string>): string
    requires origins != []
  {
    if |origins| == 1 then origins[0] else origins[0] + [','] + JoinComma(origins[1..])
  }

  /** An origin as it should be listed: no comma inside, no whitespace at
      either end. */
  predicate CleanOrigin(o: string) {
    !ContainsChar(o, ',') && (o != [] ==> !IsSpace(o[0]) && !IsSpace(o[|o| - 1]))
  }

  lemma {:induction false} SplitOnPlain(a: string)
    requires !ContainsChar(a, ',')
    ensures SplitOn(a, ',') == [a]
    decreases |a|
  {
    if a != [] {
      assert forall i :: 0 <= i < |a[1..]| ==> a[1..][i] == a[i + 1];
      SplitOnPlain(a[1..]);
      assert a[0] != ',';
      assert [a[0]] + a[1..] == a;
    }
  }

  lemma {:induction false} SplitOnPiece(a: string, rest: string)
    requires !ContainsChar(a, ',')
    ensures SplitOn(a + [','] + rest, ',') == [a] + SplitOn(rest, ',')
    decreases |a|
  {
    if a == [] {
      assert a + [','] + rest == [','] + rest;
      assert ([','] + rest)[1..] == rest;
    } else {
      assert forall i :: 0 <= i < |a[1..]| ==> a[1..][i] == a[i + 1];
      SplitOnPiece(a[1..], rest);
      assert (a + [','] + rest)[1..] == a[1..] + [','] + rest;
      assert a[0] != ',';
      assert [a[0]] + a[1..] == a;
    }
  }

  /** Splitting a comma-joined list of comma-free pieces gives the pieces
      back. */
  lemma {:induction false} SplitJoinComma(origins: seq<string>)
    requires origins != []
    requires forall i :: 0 <= i < |origins| ==> !ContainsChar(origins[i], ',')
    ensures SplitOn(JoinComma(origins), ',') == origins
    decreases |origins|
  {
    if |origins| == 1 {
      SplitOnPlain(origins[0]);
    } else {
      SplitOnPiece(origins[0], JoinComma(origins[1..]));
      SplitJoinComma(origins[1..]);
      assert [origins[0]] + origins[1..] == origins;
    }
  }

  lemma StripOfClean(o: string)
    requires o != [] ==> !IsSpace(o[0]) && !IsSpace(o[|o| - 1])
    ensures Strip(o) == o
  {
  }

  /** Listing clean origins in the setting, comma-separated, gives exactly
      those origins back, in order. */
  lemma CorsRoundTrip(origins: seq<string>)
    requires origins != []
    requires forall i :: 0 <= i < |origins| ==> CleanOrigin(origins[i])
    ensures CorsOriginsList(JoinComma(origins)) == origins
  {
    SplitJoinComma(origins);
    var parts := SplitOn(JoinComma(origins), ',');
    var r := CorsOriginsList(JoinComma(origins));
    assert parts == origins;
    assert |r| == |origins|;
    forall i | 0 <= i < |origins|
      ensures r[i] == origins[i]
    {
      assert r[i] == Strip(parts[i]);
      StripOfClean(origins[i]);
    }
  }

  /** The default setting allows the two local front-end ports. */
  lemma DefaultOrigins()
    ensures CorsOriginsList(DefaultCorsOrigins) == ["http://localhost:3000", "http://localhost:3001"]
  {
    var a := "http://localhost:3000";
    var b := "http://localhost:3001";
    assert JoinComma([a, b]) == DefaultCorsOrigins;
    assert CleanOrigin(a) && CleanOrigin(b);
    CorsRoundTrip([a, b]);
  }
}

=== FILE: emphasis.dfy ===
/** Which spoken words the live teacher emphasises (`_check_emphasis`): a
    word is looked up, lowered and stripped of edge punctuation, in a list of
    high-importance and a list of medium-importance terms. */
module Emphasis {
  import opened Optional
  import opened PyStr

  datatype Importance = High | Medium

  const HighImportance: seq<string> := [
    "gravity", "force", "energy", "mass", "velocity", "acceleration",
    "important", "key", "crucial", "remember", "note", "formula",
    "equation", "theorem", "law", "principle", "concept"]

  const MediumImportance: seq<string> := [
    "example", "because", "therefore", "however", "although",
    "first", "second", "third", "finally", "result"]

  /** The characters `strip('.,!?')` removes from both ends of a word. */
  const EdgePunctuation: set<char> := {'.', ',', '!', '?'}

  /** The form of a spoken word that is looked up in the lists. */
  function EmphasisKey(word: string): string {
    StripChars(Lower(word), EdgePunctuation)
  }

  /** `key in words`, one element at a time. */
  predicate Among(key: string, words: seq<string>)
    decreases |words|
  {
    words != [] && (words[0] == key || Among(key, words[1..]))
  }

  lemma {:induction false} AmongIsMembership(key: string, words: seq<string>)
    ensures Among(key, words) <==> key in words
    decreases |words|
  {
    if words != [] {
      AmongIsMembership(key, words[1..]);
      assert words == [words[0]] + words[1..];
    }
  }

  /** `_check_emphasis`. */
  function CheckEmphasis(word: string): Option<Importance> {
    KeyImportance(EmphasisKey(word))
  }

  function KeyImportance(key: string): Option<Importance> {
    if Among(key, HighImportance) then Some(High)
    else if Among(key, MediumImportance) then Some(Medium)
    else None
  }

  /** The two lists share no word, so the order of the two tests does not
      matter: a word's importance is the list its key is in, and a word whose
      key is in neither list has none. */
  lemma CheckEmphasisMeaning(word: string)
    ensures CheckEmphasis(word) == Some(High) <==> EmphasisKey(word) in HighImportance
    ensures CheckEmphasis(word) == Some(Medium) <==> EmphasisKey(word) in MediumImportance
    ensures CheckEmphasis(word) == None <==> EmphasisKey(word) !in HighImportance + MediumImportance
  {
    var key := EmphasisKey(word);
    AmongIsMembership(key, HighImportance);
    AmongIsMembership(key, MediumImportance);
    KeywordListsDisjoint(key);
  }

  lemma KeywordListsDisjoint(key: string)
    ensures !(key in HighImportance && key in MediumImportance)
  {
  }

  /** Capitalisation never changes a word's importance. */
  lemma EmphasisIgnoresCase(word: string)
    ensures CheckEmphasis(Lower(word)) == CheckEmphasis(word)
  {
    LowerTwice(word);
    assert EmphasisKey(Lower(word)) == EmphasisKey(word);
  }

  /** Neither does punctuation from `.,!?` stuck to either end of it. */
  lemma EmphasisIgnoresEdgePunctuation(before: string, word: string, after: string)
    requires AllIn(before, EdgePunctuation) && AllIn(after, EdgePunctuation)
    ensures CheckEmphasis(before + word + after) == CheckEmphasis(word)
  {
    PunctuationHasNoCapital(before);
    PunctuationHasNoCapital(after);
    LowerAround(before, word, after);
    StripCharsAround(before, Lower(word), after, EdgePunctuation);
  }

  lemma PunctuationHasNoCapital(s: string)
    requires AllIn(s, EdgePunctuation)
    ensures NoCapital(s)
  {
  }
}

=== FILE: live_teaching.dfy ===
/** The live-teaching stream (`stream_explanation`): how the chunks of a
    model's streamed answer become the events a classroom hears — complete
    words with their emphasis, a visual cue and a pause at each sentence end,
    the leftover word, and one final `complete` or `error`. */
module LiveTeaching {
  import opened Optional
  import opened PyStr
  import opened Emphasis
  import opened VisualCues


  /** The pause after every sentence, 0.3 seconds, in milliseconds. */
  const SentencePauseMs: nat := 300

  /** One event of the stream. A `Text` is `timed` when it carries a
      timestamp: every complete word does, the final flush does not. */
  datatype Event =
    | Start(question: string)
    | Text(content: string, timed: bool)
    | Emphasis(word: string, importance: Importance)
    | VisualCue(cue: Cue)
    | Pause(durationMs: nat)
    | Complete(fullText: string)
    | Error(message: string)
  {
    predicate IsTerminal() {
      Complete? || Error?
    }
  }

  /** The importance a spoken word is given, if any. The service asks
      `CheckEmphasis`; the stream below is defined for any such check, and
      `Stream` is the one that uses `CheckEmphasis`. */
  type EmphasisCheck = string -> Option<Importance>

  /** The generator's three accumulators. */
  datatype Buffers = Buffers(fullText: string, sentence: string, word: string)

  const Idle: Buffers := Buffers([], [], [])

  /** `' ' in buf or '\n' in buf`: the test that releases complete words. */
  predicate HasWordBreak(s: string) {
    ContainsChar(s, ' ') || ContainsChar(s, '\n')
  }

  /** The test that closes a sentence. */
  predicate EndsSentence(s: string) {
    ContainsChar(s, '.') || ContainsChar(s, '!') || ContainsChar(s, '?')
  }

  /** The loop invariant between chunks: no word break is left in the word
      buffer and no sentence end in the sentence buffer. */
  predicate Settled(b: Buffers) {
    !HasWordBreak(b.word) && !EndsSentence(b.sentence)
  }

  function EmphasisEvents(check: EmphasisCheck, word: string): seq<Event> {
    match check(word)
    case Some(imp) => [Emphasis(word, imp)]
    case None => []
  }

  /** The events for complete words: each as timed text with one trailing
      space, followed by its emphasis when it has one. */
  function WordEvents(check: EmphasisCheck, words: seq<string>): seq<Event>
    decreases |words|
  {
    if words == [] then []
    else [Text(words[0] + " ", true)] + EmphasisEvents(check, words[0]) + WordEvents(check, words[1..])
  }

  function CueEvents(cue: Option<Cue>): seq<Event> {
    match cue
    case Some(c) => [VisualCue(c)]
    case None => []
  }

  /** A complete word's text: a token followed by one space. */
  predicate IsWordText(c: string) {
    |c| >= 2 && c[|c| - 1] == ' ' && IsToken(c[..|c| - 1])
  }

  function WordOf(c: string): string
    requires |c| >= 1
  {
    c[..|c| - 1]
  }

  /** How many events the construct at the head of `evs` spans: a word and
      its emphasis, a visual cue and its pause, or a single event. */
  function HeadLength(check: EmphasisCheck, evs: seq<Event>): nat
    requires evs != []
  {
    match evs[0]
    case Text(c, _) => if |c| >= 1 then 1 + |EmphasisEvents(check, WordOf(c))| else 1
    case VisualCue(_) => 2
    case _ => 1
  }

  /** The construct at the head of `evs` is one the loop can produce. */
  predicate ValidHead(check: EmphasisCheck, evs: seq<Event>)
    requires evs != []
  {
    HeadLength(check, evs) <= |evs|
    && match evs[0]
       case Text(c, timed) =>
         timed && IsWordText(c) && evs[1..HeadLength(check, evs)] == EmphasisEvents(check, WordOf(c))
       case VisualCue(cue) => IsKnownCue(cue) && evs[1] == Pause(SentencePauseMs)
       case Pause(d) => d == SentencePauseMs
       case _ => false
  }

  /** The grammar of everything between `start` and the final flush: a
      complete word (timed, one trailing space) followed by its emphasis
      exactly when the check gives it one; a sentence end as an optional
      visual cue for a known cue followed by the 300 ms pause. */
  predicate ValidBody(check: EmphasisCheck, evs: seq<Event>)
    decreases |evs|
  {
    evs == [] || (ValidHead(check, evs) && ValidBody(check, evs[HeadLength(check, evs)..]))
  }

  lemma {:induction false} ValidBodyAppend(check: EmphasisCheck, a: seq<Event>, b: seq<Event>)
    requires ValidBody(check, a) && ValidBody(check, b)
    ensures ValidBody(check, a + b)
    decreases |a|
  {
    if a != [] {
      var k := HeadLength(check, a);
      assert ValidHead(check, a);
      SliceOfAppend(a, b, k);
      ValidHeadAppend(check, a, b);
      ValidBodyAppend(check, a[k..], b);
    } else {
      assert a + b == b;
    }
  }

  lemma SliceOfAppend<T>(a: seq<T>, b: seq<T>, k: nat)
    requires 1 <= k <= |a|
    ensures (a + b)[0] == a[0] && (a + b)[1..k] == a[1..k] && (a + b)[k..] == a[k..] + b
  {
  }

  lemma ValidHeadAppend(check: EmphasisCheck, a: seq<Event>, b: seq<Event>)
    requires a != [] && ValidHead(check, a)
    ensures HeadLength(check, a + b) == HeadLength(check, a) && ValidHead(check, a + b)
  {
    SliceOfAppend(a, b, HeadLength(check, a));
    if a[0].VisualCue? {
      assert (a + b)[1] == a[1];
    }
  }

  lemma {:induction false} WordEventsValid(check: EmphasisCheck, words: seq<string>)
    requires AllTokens(words)
    ensures ValidBody(check, WordEvents(check, words))
    decreases |words|
  {
    if words != [] {
      var w, rest := words[0], WordEvents(check, words[1..]);
      WordEventsValid(check, words[1..]);
      var evs := WordEvents(check, words);
      var e := EmphasisEvents(check, w);
      assert WordOf(w + " ") == w;
      assert evs == [Text(w + " ", true)] + e + rest;
      assert HeadLength(check, evs) == 1 + |e|;
      assert evs[1..1 + |e|] == e;
      assert evs[1 + |e|..] == rest;
    }
  }

  lemma NoSpaceNoBreak(w: string)
    requires NoSpace(w)
    ensures !HasWordBreak(w)
  {
    forall i | 0 <= i < |w| ensures w[i] != ' ' && w[i] != '\n' {
      assert !IsSpace(w[i]);
    }
  }

  lemma SplitLast(words: seq<string>)
    requires |words| > 0 && AllTokens(words)
    ensures AllTokens(words[..|words| - 1]) && IsToken(words[|words| - 1])
    ensures words[..|words| - 1] + [words[|words| - 1]] == words
  {
  }

  /** The words a chunk releases from the word buffer, and what stays: once
      the buffer holds a break, every token but the last is released and the
      last is kept, whether or not whitespace follows it. */
  function Release(word: string): (r: (seq<string>, string))
    ensures AllTokens(r.0)
    ensures !HasWordBreak(r.1)
    ensures HasWordBreak(word) ==> r.0 + (if r.1 == [] then [] else [r.1]) == Split(word)
    ensures !HasWordBreak(word) ==> r == ([], word)
  {
    if !HasWordBreak(word) then ([], word)
    else
      var words := Split(word);
      if words == [] then
        NoSpaceNoBreak([]);
        ([], [])
      else
        var n := |words| - 1;
        SplitLast(words);
        NoSpaceNoBreak(words[n]);
        (words[..n], words[n])
  }

  /** The events that close a sentence: its visual cue, if it has one, a
      known one, then the pause. */
  function SentenceEndEvents(sentence: string): (evs: seq<Event>)
    ensures |evs| >= 1 && evs[|evs| - 1] == Pause(SentencePauseMs)
    ensures ExtractVisualCue(sentence).None? ==> |evs| == 1
    ensures ExtractVisualCue(sentence).Some? ==>
      |evs| == 2 && evs[0] == VisualCue(ExtractVisualCue(sentence).value) && IsKnownCue(evs[0].cue)
  {
    CueEvents(ExtractVisualCue(sentence)) + [Pause(SentencePauseMs)]
  }

  /** Whatever the emphasis check, the events that close a sentence are
      well formed. */
  lemma SentenceEndValid(check: EmphasisCheck, sentence: string)
    ensures ValidBody(check, SentenceEndEvents(sentence))
  {
    CloseValid(check, ExtractVisualCue(sentence));
  }

  lemma CloseValid(check: EmphasisCheck, cue: Option<Cue>)
    requires cue.Some? ==> IsKnownCue(cue.value)
    ensures ValidBody(check, CueEvents(cue) + [Pause(SentencePauseMs)])
  {
    var evs := CueEvents(cue) + [Pause(SentencePauseMs)];
    if cue.Some? {
      assert evs[2..] == [];
    } else {
      assert evs[1..] == [];
    }
  }

  /** One step of the loop: the events a non-empty chunk produces and the
      new buffers. An empty chunk (`delta.content` falsy) changes nothing. */
  datatype Step = Step(buffers: Buffers, events: seq<Event>)

  function Feed(check: EmphasisCheck, b: Buffers, chunk: string): (r: Step)
    ensures r.buffers.fullText == b.fullText + chunk
    ensures chunk == [] ==> r == Step(b, [])
    ensures chunk != [] ==> Settled(r.buffers)
    ensures ValidBody(check, r.events)
  {
    if chunk == [] then Step(b, [])
    else
      var full := b.fullText + chunk;
      var sentence := b.sentence + chunk;
      var (words, kept) := Release(b.word + chunk);
      WordEventsValid(check, words);
      if EndsSentence(sentence) then
        var close := SentenceEndEvents(sentence);
        SentenceEndValid(check, sentence);
        ValidBodyAppend(check, WordEvents(check, words), close);
        assert !EndsSentence([]);
        Step(Buffers(full, [], kept), WordEvents(check, words) + close)
      else
        Step(Buffers(full, sentence, kept), WordEvents(check, words))
  }

  lemma ConcatStep(chunks: seq<string>)
    requires chunks != []
    ensures Concat(chunks) == chunks[0] + Concat(chunks[1..])
  {
  }

  /** The loop over all delivered chunks. */
  function Run(check: EmphasisCheck, b: Buffers, chunks: seq<string>): (r: Step)
    ensures r.buffers.fullText == b.fullText + Concat(chunks)
    ensures Settled(b) ==> Settled(r.buffers)
    ensures ValidBody(check, r.events)
    decreases |chunks|
  {
    if chunks == [] then Step(b, [])
    else
      var s := Feed(check, b, chunks[0]);
      var t := Run(check, s.buffers, chunks[1..]);
      Compose(check, b, chunks, s, t);
      Step(t.buffers, s.events + t.events)
  }

  /** A step followed by the rest of the loop is the loop. */
  lemma Compose(check: EmphasisCheck, b: Buffers, chunks: seq<string>, s: Step, t: Step)
    requires chunks != []
    requires s.buffers.fullText == b.fullText + chunks[0] && ValidBody(check, s.events)
    requires chunks[0] == [] ==> s == Step(b, [])
    requires chunks[0] != [] ==> Settled(s.buffers)
    requires t.buffers.fullText == s.buffers.fullText + Concat(chunks[1..]) && ValidBody(check, t.events)
    requires Settled(s.buffers) ==> Settled(t.buffers)
    ensures t.buffers.fullText == b.fullText + Concat(chunks)
    ensures Settled(b) ==> Settled(t.buffers)
    ensures ValidBody(check, s.events + t.events)
  {
    ValidBodyAppend(check, s.events, t.events);
    ConcatStep(chunks);
  }

  /** What is left in the word buffer becomes one untimed text event. */
  function Flush(word: string): seq<Event> {
    if word == [] then [] else [Text(word, false)]
  }

  /** The events after the loop: the error alone, or the leftover word and
      `complete` with the full text. */
  function Ending(buffers: Buffers, failure: Option<string>): seq<Event> {
    match failure
    case Some(m) => [Error(m)]
    case None => Flush(buffers.word) + [Complete(buffers.fullText)]
  }

  /** `stream_explanation` with a given emphasis check: `chunks` are the
      contents delivered by the model before the stream ended, and `failure`
      the message of the exception that ended it, if one did. The result
      starts with `start`, ends with exactly one terminal event, and in
      between holds nothing but text, emphasis, visual cues and pauses. */
  function StreamWith(check: EmphasisCheck, question: string, chunks: seq<string>, failure: Option<string>):
    (evs: seq<Event>)
    ensures |evs| >= 2 && evs[0] == Start(question)
    ensures evs[|evs| - 1] == (match failure case Some(m) => Error(m) case None => Complete(Concat(chunks)))
    ensures forall i :: 0 < i < |evs| - 1 ==> !evs[i].Start? && !evs[i].IsTerminal()
  {
    var run := Run(check, Idle, chunks);
    ValidBodyKinds(check, run.events);
    Frame(question, run.events, run.buffers, chunks, failure);
    [Start(question)] + run.events + Ending(run.buffers, failure)
  }

  /** `start`, a body of text, emphasis, cues and pauses, and the ending
      form a stream with one start and one terminal event. */
  lemma Frame(question: string, body: seq<Event>, buffers: Buffers, chunks: seq<string>, failure: Option<string>)
    requires forall i :: 0 <= i < |body| ==> body[i].Text? || body[i].Emphasis? || body[i].VisualCue? || body[i].Pause?
    requires buffers.fullText == Concat(chunks)
    ensures var evs := [Start(question)] + body + Ending(buffers, failure);
      |evs| >= 2 && evs[0] == Start(question)
      && evs[|evs| - 1] == (match failure case Some(m) => Error(m) case None => Complete(Concat(chunks)))
      && forall i :: 0 < i < |evs| - 1 ==> !evs[i].Start? && !evs[i].IsTerminal()
  {
    var tail := Ending(buffers, failure);
    StartBodyEnd(Start(question), body, tail);
  }

  /** `stream_explanation`, emphasising the words `CheckEmphasis` picks. */
  function Stream(question: string, chunks: seq<string>, failure: Option<string>): (evs: seq<Event>)
    ensures |evs| >= 2 && evs[0] == Start(question)
    ensures evs[|evs| - 1] == (match failure case Some(m) => Error(m) case None => Complete(Concat(chunks)))
    ensures forall i :: 0 < i < |evs| - 1 ==> !evs[i].Start? && !evs[i].IsTerminal()
  {
    StreamWith(CheckEmphasis, question, chunks, failure)
  }

  /** Where the pieces of `[first] + body + tail` sit. */
  lemma StartBodyEnd(first: Event, body: seq<Event>, tail: seq<Event>)
    ensures var evs := [first] + body + tail;
      |evs| == 1 + |body| + |tail| && evs[0] == first
      && (forall i :: 0 <= i < |body| ==> evs[1 + i] == body[i])
      && (forall i :: 0 <= i < |tail| ==> evs[1 + |body| + i] == tail[i])
  {
  }

  lemma {:induction false} ValidBodyKinds(check: EmphasisCheck, evs: seq<Event>)
    requires ValidBody(check, evs)
    ensures forall i :: 0 <= i < |evs| ==> evs[i].Text? || evs[i].Emphasis? || evs[i].VisualCue? || evs[i].Pause?
    decreases |evs|
  {
    if evs != [] {
      var k := HeadLength(check, evs);
      assert ValidHead(check, evs);
      ValidBodyKinds(check, evs[k..]);
      assert forall i :: k <= i < |evs| ==> evs[i] == evs[k..][i - k];
      if evs[0].Text? {
        var e := EmphasisEvents(check, WordOf(evs[0].content));
        assert evs[1..k] == e;
        assert forall i :: 1 <= i < k ==> evs[i] == e[i - 1] && e[i - 1].Emphasis?;
      }
    }
  }
}

/** Properties of the stream as a whole. */
module LiveTeachingProperties {
  import opened Optional
  import opened PyStr
  import opened Emphasis
  import opened VisualCues
  import opened LiveTeaching

  // ------------------------------------------------------- shape of a run

  /** What may follow the body: nothing but the terminal event, or (after a
      normal end) one untimed text holding the leftover word. */
  predicate StreamEnding(evs: seq<Event>, n: int, failure: Option<string>) {
    0 <= n < |evs|
    && (n == |evs| - 1
        || (failure.None? && n == |evs| - 2 && evs[n].Text? && !evs[n].timed
            && evs[n].content != [] && !HasWordBreak(evs[n].content)))
  }

  /** Every run is `start`, a well-formed body, at most one leftover flush
      (never after a failure), and the terminal event. */
  lemma StreamShape(check: EmphasisCheck, question: string, chunks: seq<string>, failure: Option<string>)
    ensures var evs := StreamWith(check, question, chunks, failure);
      exists n :: StreamEnding(evs, n, failure) && 1 <= n && ValidBody(check, evs[1..n])
  {
    var evs := StreamWith(check, question, chunks, failure);
    var run := Run(check, Idle, chunks);
    var n := 1 + |run.events|;
    assert evs[1..n] == run.events;
    assert StreamEnding(evs, n, failure);
  }

  // ------------------------------------------------- what the body means

  /** The text event at `i` is a complete word, followed by its emphasis
      exactly when the word is a keyword. */
  predicate WordTextAt(check: EmphasisCheck, evs: seq<Event>, i: int)
    requires 0 <= i < |evs| && evs[i].Text?
  {
    var c := evs[i].content;
    evs[i].timed && IsWordText(c)
    && match check(WordOf(c))
       case Some(imp) => i + 1 < |evs| && evs[i + 1] == Emphasis(WordOf(c), imp)
       case None => i + 1 == |evs| || !evs[i + 1].Emphasis?
  }

  /** An emphasis event at `i` repeats the bare word of the text event just
      before it, with that word's importance. */
  predicate EmphasisAt(check: EmphasisCheck, evs: seq<Event>, i: int)
    requires 0 <= i < |evs| && evs[i].Emphasis?
  {
    0 < i && evs[i - 1] == Text(evs[i].word + " ", true)
    && check(evs[i].word) == Some(evs[i].importance)
  }

  /** A visual cue at `i` is a known cue, immediately followed by the pause. */
  predicate CueAt(evs: seq<Event>, i: int)
    requires 0 <= i < |evs| && evs[i].VisualCue?
  {
    IsKnownCue(evs[i].cue) && i + 1 < |evs| && evs[i + 1] == Pause(SentencePauseMs)
  }

  /** The facts at one position of a body. */
  predicate FactsAt(check: EmphasisCheck, evs: seq<Event>, i: int)
    requires 0 <= i < |evs|
  {
    match evs[i]
    case Text(_, _) => WordTextAt(check, evs, i)
    case Emphasis(_, _) => EmphasisAt(check, evs, i)
    case VisualCue(_) => CueAt(evs, i)
    case Pause(d) => d == SentencePauseMs
    case _ => false
  }

  /** The grammar, read position by position. */
  lemma {:induction false} ValidBodyMeaning(check: EmphasisCheck, evs: seq<Event>, i: int)
    requires ValidBody(check, evs) && 0 <= i < |evs|
    ensures FactsAt(check, evs, i)
    decreases |evs|
  {
    var k := HeadLength(check, evs);
    assert ValidHead(check, evs);
    var rest := evs[k..];
    if i < k {
      HeadFacts(check, evs, i);
    } else {
      ValidBodyMeaning(check, rest, i - k);
      assert evs[i] == rest[i - k];
      if i + 1 < |evs| {
        assert evs[i + 1] == rest[i - k + 1];
      }
      if i == k {
        assert !evs[i].Emphasis?;
      } else {
        assert evs[i - 1] == rest[i - k - 1];
      }
    }
  }

  lemma HeadFacts(check: EmphasisCheck, evs: seq<Event>, i: int)
    requires evs != [] && ValidHead(check, evs) && ValidBody(check, evs[HeadLength(check, evs)..])
    requires 0 <= i < HeadLength(check, evs)
    ensures FactsAt(check, evs, i)
  {
    var k := HeadLength(check, evs);
    var next := evs[k..];
    var nextNotEmphasis := k == |evs| || !evs[k].Emphasis?;
    if next != [] {
      assert ValidHead(check, next);
      assert evs[k] == next[0];
    }
    assert nextNotEmphasis;
    match evs[0]
    case Text(c, _) =>
      var w := WordOf(c);
      assert c == w + " ";
      assert k == 1 + |EmphasisEvents(check, w)|;
      TextHeadFacts(check, evs, w, i);
    case VisualCue(cue) =>
      CueHeadFacts(check, evs, cue, i);
    case Pause(_) =>
  }

  lemma CueHeadFacts(check: EmphasisCheck, evs: seq<Event>, cue: Cue, i: int)
    requires |evs| >= 2 && evs[0] == VisualCue(cue) && IsKnownCue(cue)
    requires evs[1] == Pause(SentencePauseMs)
    requires i == 0 || i == 1
    ensures FactsAt(check, evs, i)
  {
  }

  lemma TextHeadFacts(check: EmphasisCheck, evs: seq<Event>, w: string, i: int)
    requires evs != [] && evs[0] == Text(w + " ", true) && IsWordText(w + " ")
    requires 1 + |EmphasisEvents(check, w)| <= |evs|
    requires evs[1..1 + |EmphasisEvents(check, w)|] == EmphasisEvents(check, w)
    requires 1 + |EmphasisEvents(check, w)| == |evs| || !evs[1 + |EmphasisEvents(check, w)|].Emphasis?
    requires 0 <= i < 1 + |EmphasisEvents(check, w)|
    ensures FactsAt(check, evs, i)
  {
    assert WordOf(w + " ") == w;
    match check(w)
    case Some(imp) =>
      assert evs[1] == evs[1..2][0];
      EmphasizedWordFacts(check, evs, w, imp, i);
    case None =>
      PlainWordFacts(check, evs, w, i);
  }

  lemma EmphasizedWordFacts(check: EmphasisCheck, evs: seq<Event>, w: string, imp: Importance, i: int)
    requires |evs| >= 2 && evs[0] == Text(w + " ", true) && IsWordText(w + " ")
    requires WordOf(w + " ") == w && check(w) == Some(imp)
    requires evs[1] == Emphasis(w, imp)
    requires i == 0 || i == 1
    ensures FactsAt(check, evs, i)
  {
  }

  lemma PlainWordFacts(check: EmphasisCheck, evs: seq<Event>, w: string, i: int)
    requires |evs| >= 1 && evs[0] == Text(w + " ", true) && IsWordText(w + " ")
    requires WordOf(w + " ") == w && check(w) == None
    requires |evs| == 1 || !evs[1].Emphasis?
    requires i == 0
    ensures FactsAt(check, evs, i)
  {
  }

  /** Read in a whole stream: an emphasis event comes right after the text
      of its word and carries the importance the check gives that word, and
      a timed text is a complete word, followed by an emphasis event exactly
      when the check gives the word an importance. */
  lemma StreamEmphasis(check: EmphasisCheck, question: string, chunks: seq<string>, failure: Option<string>, i: int)
    requires 0 <= i < |StreamWith(check, question, chunks, failure)|
    ensures var evs := StreamWith(check, question, chunks, failure);
      evs[i].Emphasis? ==>
        0 < i && evs[i - 1] == Text(evs[i].word + " ", true) && check(evs[i].word) == Some(evs[i].importance)
    ensures var evs := StreamWith(check, question, chunks, failure);
      evs[i].Text? && evs[i].timed ==>
        IsWordText(evs[i].content)
        && (check(WordOf(evs[i].content)).Some? <==> i + 1 < |evs| && evs[i + 1].Emphasis?)
  {
    var run := Run(check, Idle, chunks);
    var tail := Ending(run.buffers, failure);
    assert StreamWith(check, question, chunks, failure) == [Start(question)] + run.events + tail;
    EndingIsPlain(run.buffers, failure);
    FramedEmphasis(check, Start(question), run.events, tail, i);
  }

  lemma FramedEmphasis(check: EmphasisCheck, first: Event, body: seq<Event>, tail: seq<Event>, i: int)
    requires !first.Emphasis? && !first.Text? && ValidBody(check, body) && tail != []
    requires forall j :: 0 <= j < |tail| ==> !tail[j].Emphasis? && !(tail[j].Text? && tail[j].timed)
    requires 0 <= i < |[first] + body + tail|
    ensures var evs := [first] + body + tail;
      evs[i].Emphasis? ==>
        0 < i && evs[i - 1] == Text(evs[i].word + " ", true) && check(evs[i].word) == Some(evs[i].importance)
    ensures var evs := [first] + body + tail;
      evs[i].Text? && evs[i].timed ==>
        IsWordText(evs[i].content)
        && (check(WordOf(evs[i].content)).Some? <==> i + 1 < |evs| && evs[i + 1].Emphasis?)
  {
    var evs := [first] + body + tail;
    StartBodyEnd(first, body, tail);
    if 1 <= i <= |body| {
      ValidBodyMeaning(check, body, i - 1);
      if i >= 2 {
        assert evs[i - 1] == body[i - 2];
      }
      if i < |body| {
        assert evs[i + 1] == body[i];
      } else {
        assert evs[i + 1] == tail[0];
      }
    }
  }

  /** After the body comes no emphasis and no timed text. */
  lemma EndingIsPlain(buffers: Buffers, failure: Option<string>)
    ensures Ending(buffers, failure) != []
    ensures forall j :: 0 <= j < |Ending(buffers, failure)| ==>
      !Ending(buffers, failure)[j].Emphasis? && !(Ending(buffers, failure)[j].Text? && Ending(buffers, failure)[j].timed)
  {
  }

  // ------------------------------------------------------- what is spoken

  /** The text a listener hears: the contents of the text events, in order. */
  function SpokenText(evs: seq<Event>): string
    decreases |evs|
  {
    if evs == [] then []
    else (if evs[0].Text? then evs[0].content else []) + SpokenText(evs[1..])
  }

  lemma {:induction false} SpokenTextAppend(a: seq<Event>, b: seq<Event>)
    ensures SpokenText(a + b) == SpokenText(a) + SpokenText(b)
    decreases |a|
  {
    if a != [] {
      assert (a + b)[1..] == a[1..] + b;
      SpokenTextAppend(a[1..], b);
    } else {
      assert a + b == b;
    }
  }

  /** Released words are heard exactly, each followed by one space. */
  lemma {:induction false} WordEventsSpeak(check: EmphasisCheck, words: seq<string>)
    requires AllTokens(words)
    ensures RemoveSpace(SpokenText(WordEvents(check, words))) == Concat(words)
    decreases |words|
  {
    if words != [] {
      var w := words[0];
      var rest := WordEvents(check, words[1..]);
      WordEventsSpokenStep(check, words);
      WordEventsSpeak(check, words[1..]);
      RemoveSpaceAfterToken(w, SpokenText(rest));
    }
  }

  lemma WordEventsSpokenStep(check: EmphasisCheck, words: seq<string>)
    requires words != []
    ensures SpokenText(WordEvents(check, words)) == words[0] + " " + SpokenText(WordEvents(check, words[1..]))
  {
    var w := words[0];
    var head := [Text(w + " ", true)] + EmphasisEvents(check, w);
    SpokenTextAppend(head, WordEvents(check, words[1..]));
    WordHeadSpoken(check, w);
  }

  /** A word's events say the word and its space; the emphasis is silent. */
  lemma WordHeadSpoken(check: EmphasisCheck, w: string)
    ensures SpokenText([Text(w + " ", true)] + EmphasisEvents(check, w)) == w + " "
  {
    var t := Text(w + " ", true);
    match check(w)
    case Some(imp) =>
      assert EmphasisEvents(check, w) == [Emphasis(w, imp)];
      PairSpoken(t, Emphasis(w, imp));
    case None =>
      assert EmphasisEvents(check, w) == [];
      assert [t] + [] == [t];
      assert [t][1..] == [];
  }

  lemma PairSpoken(t: Event, e: Event)
    requires t.Text? && !e.Text?
    ensures SpokenText([t] + [e]) == t.content
  {
    assert ([t] + [e])[1..] == [e];
    assert [e][1..] == [];
    assert SpokenText([e]) == [];
    assert t.content + [] == t.content;
  }

  /** Releasing words loses no visible character: the released words, then
      the kept word, spell the buffer without its whitespace. */
  lemma ReleaseKeepsText(word: string)
    ensures Concat(Release(word).0) + RemoveSpace(Release(word).1) == RemoveSpace(word)
  {
    var (words, kept) := Release(word);
    if HasWordBreak(word) {
      SplitKeepsText(word);
      if kept == [] {
        assert words == Split(word);
      } else {
        ConcatAppend(words, [kept]);
        assert Concat([kept]) == kept;
        RemoveSpaceOfNoSpace(kept);
      }
    }
  }

  lemma SentenceEndSilent(sentence: string)
    ensures SpokenText(SentenceEndEvents(sentence)) == []
  {
    var cue := ExtractVisualCue(sentence);
    SpokenTextAppend(CueEvents(cue), [Pause(SentencePauseMs)]);
  }

  /** One chunk: what is heard, then what waits in the word buffer, is the
      word buffer before and the chunk, whitespace aside. */
  lemma FeedSpeaks(check: EmphasisCheck, b: Buffers, chunk: string)
    ensures var r := Feed(check, b, chunk);
      RemoveSpace(SpokenText(r.events)) + RemoveSpace(r.buffers.word)
        == RemoveSpace(b.word) + RemoveSpace(chunk)
  {
    if chunk != [] {
      var (words, kept) := Release(b.word + chunk);
      var sentence := b.sentence + chunk;
      WordEventsSpeak(check, words);
      ReleaseKeepsText(b.word + chunk);
      RemoveSpaceAppend(b.word, chunk);
      if EndsSentence(sentence) {
        var close := SentenceEndEvents(sentence);
        SpokenTextAppend(WordEvents(check, words), close);
        SentenceEndSilent(sentence);
        assert SpokenText(WordEvents(check, words) + close) == SpokenText(WordEvents(check, words));
      }
    } else {
      assert RemoveSpace(chunk) == [];
    }
  }

  lemma {:induction false} RunSpeaks(check: EmphasisCheck, b: Buffers, chunks: seq<string>)
    ensures var r := Run(check, b, chunks);
      RemoveSpace(SpokenText(r.events)) + RemoveSpace(r.buffers.word)
        == RemoveSpace(b.word) + RemoveSpace(Concat(chunks))
    decreases |chunks|
  {
    if chunks == [] {
      assert RemoveSpace([]) == [];
    } else {
      var s := Feed(check, b, chunks[0]);
      var t := Run(check, s.buffers, chunks[1..]);
      FeedSpeaks(check, b, chunks[0]);
      RunSpeaks(check, s.buffers, chunks[1..]);
      RunStep(check, b, chunks);
      SpokenTextAppend(s.events, t.events);
      RemoveSpaceAppend(SpokenText(s.events), SpokenText(t.events));
      RemoveSpaceAppend(chunks[0], Concat(chunks[1..]));
      Chain(RemoveSpace(SpokenText(s.events)), RemoveSpace(SpokenText(t.events)),
        RemoveSpace(b.word), RemoveSpace(s.buffers.word), RemoveSpace(t.buffers.word),
        RemoveSpace(chunks[0]), RemoveSpace(Concat(chunks[1..])));
    }
  }

  /** Two consecutive steps of "heard, then waiting" compose. */
  lemma Chain<T>(a: seq<T>, b: seq<T>, w0: seq<T>, w1: seq<T>, w2: seq<T>, c0: seq<T>, c1: seq<T>)
    requires a + w1 == w0 + c0 && b + w2 == w1 + c1
    ensures (a + b) + w2 == w0 + (c0 + c1)
  {
    calc {
      (a + b) + w2;
      a + (b + w2);
      a + (w1 + c1);
      (a + w1) + c1;
      (w0 + c0) + c1;
      w0 + (c0 + c1);
    }
  }

  lemma RunStep(check: EmphasisCheck, b: Buffers, chunks: seq<string>)
    requires chunks != []
    ensures Run(check, b, chunks).events == Feed(check, b, chunks[0]).events + Run(check, Feed(check, b, chunks[0]).buffers, chunks[1..]).events
    ensures Run(check, b, chunks).buffers == Run(check, Feed(check, b, chunks[0]).buffers, chunks[1..]).buffers
    ensures Concat(chunks) == chunks[0] + Concat(chunks[1..])
  {
  }

  /** A stream that completes speaks the whole answer: every visible
      character of the delivered chunks is heard once, in order. */
  lemma StreamSpeaks(check: EmphasisCheck, question: string, chunks: seq<string>)
    ensures RemoveSpace(SpokenText(StreamWith(check, question, chunks, None))) == RemoveSpace(Concat(chunks))
  {
    var run := Run(check, Idle, chunks);
    var word := run.buffers.word;
    var rest := run.events + Flush(word);
    StreamPieces(check, question, chunks);
    SpokenAround(Start(question), rest, Complete(run.buffers.fullText));
    SpokenTextAppend(run.events, Flush(word));
    var heard := SpokenText(run.events);
    assert SpokenText(StreamWith(check, question, chunks, None)) == heard + word;
    RunSpeaks(check, Idle, chunks);
    RemoveSpaceAppend(heard, word);
    assert [] + RemoveSpace(Concat(chunks)) == RemoveSpace(Concat(chunks));
  }

  lemma SpokenAround(first: Event, x: seq<Event>, last: Event)
    requires !first.Text? && !last.Text?
    ensures SpokenText([first] + (x + [last])) == SpokenText(x)
  {
    assert ([first] + (x + [last]))[1..] == x + [last];
    SpokenTextAppend(x, [last]);
    assert [last][1..] == [];
    assert SpokenText(x) + [] == SpokenText(x);
  }

  lemma StreamPieces(check: EmphasisCheck, question: string, chunks: seq<string>)
    ensures var run := Run(check, Idle, chunks);
      StreamWith(check, question, chunks, None)
        == [Start(question)] + ((run.events + Flush(run.buffers.word)) + [Complete(run.buffers.fullText)])
    ensures var run := Run(check, Idle, chunks);
      SpokenText(Flush(run.buffers.word)) == run.buffers.word
    ensures RemoveSpace(Idle.word) == []
  {
  }

  // ------------------------------------------------------- sentence ends

  /** How many events of `evs` satisfy `p`. */
  function CountWhere(evs: seq<Event>, p: Event -> bool): nat
    decreases |evs|
  {
    if evs == [] then 0 else (if p(evs[0]) then 1 else 0) + CountWhere(evs[1..], p)
  }

  lemma {:induction false} CountWhereAppend(a: seq<Event>, b: seq<Event>, p: Event -> bool)
    ensures CountWhere(a + b, p) == CountWhere(a, p) + CountWhere(b, p)
    decreases |a|
  {
    if a != [] {
      assert (a + b)[1..] == a[1..] + b;
      CountWhereAppend(a[1..], b, p);
    } else {
      assert a + b == b;
    }
  }

  predicate IsPause(e: Event) { e.Pause? }
  predicate IsCue(e: Event) { e.VisualCue? }

  /** Released words carry no pause and no visual cue. */
  lemma {:induction false} WordEventsQuiet(check: EmphasisCheck, words: seq<string>)
    ensures CountWhere(WordEvents(check, words), IsPause) == 0
    ensures CountWhere(WordEvents(check, words), IsCue) == 0
    decreases |words|
  {
    if words != [] {
      var w := words[0];
      var head := [Text(w + " ", true)] + EmphasisEvents(check, w);
      WordEventsQuiet(check, words[1..]);
      WordHeadQuiet(check, w);
      CountWhereAppend(head, WordEvents(check, words[1..]), IsPause);
      CountWhereAppend(head, WordEvents(check, words[1..]), IsCue);
    }
  }

  lemma WordHeadQuiet(check: EmphasisCheck, w: string)
    ensures CountWhere([Text(w + " ", true)] + EmphasisEvents(check, w), IsPause) == 0
    ensures CountWhere([Text(w + " ", true)] + EmphasisEvents(check, w), IsCue) == 0
  {
    var t := Text(w + " ", true);
    match check(w)
    case Some(imp) =>
      assert EmphasisEvents(check, w) == [Emphasis(w, imp)];
      PairCount(t, Emphasis(w, imp), IsPause);
      PairCount(t, Emphasis(w, imp), IsCue);
    case None =>
      assert EmphasisEvents(check, w) == [];
      assert [t] + [] == [t];
      assert [t][1..] == [];
  }

  lemma PairCount(t: Event, e: Event, p: Event -> bool)
    requires !p(t) && !p(e)
    ensures CountWhere([t] + [e], p) == 0
  {
    assert ([t] + [e])[1..] == [e];
    assert [e][1..] == [];
    assert CountWhere([e], p) == 0;
  }

  /** The events that close a sentence hold one pause, last, and a visual
      cue just before it exactly when the sentence has one. */
  lemma SentenceEndCounts(sentence: string)
    ensures var evs := SentenceEndEvents(sentence);
      CountWhere(evs, IsPause) == 1 && evs[|evs| - 1] == Pause(SentencePauseMs)
    ensures var evs := SentenceEndEvents(sentence);
      CountWhere(evs, IsCue) == (if ExtractVisualCue(sentence).Some? then 1 else 0)
    ensures var evs := SentenceEndEvents(sentence);
      ExtractVisualCue(sentence).Some? ==> |evs| == 2 && evs[0] == VisualCue(ExtractVisualCue(sentence).value)
  {
    var pause := Pause(SentencePauseMs);
    assert [pause][1..] == [];
    match ExtractVisualCue(sentence)
    case Some(c) =>
      assert SentenceEndEvents(sentence) == [VisualCue(c), pause];
      assert [VisualCue(c), pause][1..] == [pause];
    case None =>
      assert SentenceEndEvents(sentence) == [pause];
  }

  /** One chunk and the sentence it extends: when the sentence now holds
      `.`, `!` or `?`, exactly one pause closes the chunk's events, preceded
      by the sentence's visual cue if it has one, and the sentence buffer
      starts over; otherwise there is neither pause nor cue and the chunk
      is kept in the sentence buffer. */
  lemma FeedSentenceEnd(check: EmphasisCheck, b: Buffers, chunk: string)
    requires chunk != []
    ensures var r := Feed(check, b, chunk);
      CountWhere(r.events, IsPause) == (if EndsSentence(b.sentence + chunk) then 1 else 0)
    ensures var r := Feed(check, b, chunk);
      CountWhere(r.events, IsCue)
        == (if EndsSentence(b.sentence + chunk) && ExtractVisualCue(b.sentence + chunk).Some? then 1 else 0)
    ensures var r := Feed(check, b, chunk);
      EndsSentence(b.sentence + chunk) ==> r.events[|r.events| - 1] == Pause(SentencePauseMs)
    ensures var r := Feed(check, b, chunk);
      r.buffers.sentence == if EndsSentence(b.sentence + chunk) then [] else b.sentence + chunk
  {
    var sentence := b.sentence + chunk;
    var words := Release(b.word + chunk).0;
    WordEventsQuiet(check, words);
    if EndsSentence(sentence) {
      var close := SentenceEndEvents(sentence);
      SentenceEndCounts(sentence);
      CountWhereAppend(WordEvents(check, words), close, IsPause);
      CountWhereAppend(WordEvents(check, words), close, IsCue);
    }
  }

  // ------------------------------------------------------- word gluing

  /** A buffer holding one token and a space releases nothing: the token
      is `split()`'s last word and stays in the buffer, without the space. */
  lemma ReleaseTokenSpace(w: string)
    requires IsToken(w)
    ensures Release(w + " ") == ([], w)
  {
    assert (w + " ")[|w|] == ' ';
    assert HasWordBreak(w + " ");
    SplitToken(w, " ");
    SplitLeadingSpace([]);
    assert " " == " " + [];
    SplitEmpty();
    assert Split(w + " ") == [w];
  }

  lemma TokenJoin(u: string, v: string)
    requires IsToken(u) && IsToken(v)
    ensures IsToken(u + v) && u + (v + " ") == (u + v) + " "
  {
    assert forall i :: 0 <= i < |u + v| ==> (u + v)[i] == if i < |u| then u[i] else v[i - |u|];
  }

  lemma NoEndInPrefix(a: string, b: string)
    requires !EndsSentence(a + b)
    ensures !EndsSentence(a)
  {
    forall c | c in {'.', '!', '?'} && ContainsChar(a, c)
      ensures ContainsChar(a + b, c)
    {
      var i :| 0 <= i < |a| && a[i] == c;
      assert (a + b)[i] == c;
    }
  }

  /** A chunk that releases no word and ends no sentence only grows the
      buffers. */
  lemma FeedQuiet(check: EmphasisCheck, b: Buffers, chunk: string, w: string)
    requires chunk != [] && Release(b.word + chunk) == ([], w)
    requires !EndsSentence(b.sentence + chunk)
    ensures Feed(check, b, chunk) == Step(Buffers(b.fullText + chunk, b.sentence + chunk, w), [])
  {
    assert WordEvents(check, []) == [];
  }

  lemma RunTwo(check: EmphasisCheck, b: Buffers, c1: string, c2: string)
    ensures Run(check, b, [c1, c2]).events == Feed(check, b, c1).events + Feed(check, Feed(check, b, c1).buffers, c2).events
    ensures Run(check, b, [c1, c2]).buffers == Feed(check, Feed(check, b, c1).buffers, c2).buffers
  {
    var b1 := Feed(check, b, c1).buffers;
    var s2 := Feed(check, b1, c2);
    assert [c1, c2][1..] == [c2];
    assert [c2][1..] == [];
    assert Run(check, s2.buffers, []) == Step(s2.buffers, []);
    assert Run(check, b1, [c2]) == Step(s2.buffers, s2.events + []);
    assert s2.events + [] == s2.events;
  }

  /** Words are only released once a later chunk brings a break after them:
      two chunks that each end in a space but start with no space glue
      their words together, and the single word is flushed, untimed, at the
      end, while `complete` still carries the text as delivered. */
  lemma ChunksGlueWords(check: EmphasisCheck, question: string, u: string, v: string)
    requires IsToken(u) && IsToken(v) && !EndsSentence(u + " " + v + " ")
    ensures StreamWith(check, question, [u + " ", v + " "], None)
      == [Start(question), Text(u + v, false), Complete(u + " " + v + " ")]
  {
    var c1, c2 := u + " ", v + " ";
    var full := u + " " + v + " ";
    GlueRun(check, u, v);
    StreamPieces(check, question, [c1, c2]);
    assert Flush(u + v) == [Text(u + v, false)];
    assert [Start(question)] + (([] + [Text(u + v, false)]) + [Complete(full)])
      == [Start(question), Text(u + v, false), Complete(full)];
  }

  lemma GlueRun(check: EmphasisCheck, u: string, v: string)
    requires IsToken(u) && IsToken(v) && !EndsSentence(u + " " + v + " ")
    ensures Run(check, Idle, [u + " ", v + " "]) == Step(Buffers(u + " " + v + " ", u + " " + v + " ", u + v), [])
  {
    var c1, c2 := u + " ", v + " ";
    assert c1 + c2 == u + " " + v + " ";
    NoEndInPrefix(c1, c2);
    assert Idle.sentence + c1 == c1 && Idle.word + c1 == c1 && Idle.fullText + c1 == c1;
    ReleaseTokenSpace(u);
    var b1 := Buffers(c1, c1, u);
    FeedQuiet(check, Idle, c1, u);
    TokenJoin(u, v);
    ReleaseTokenSpace(u + v);
    FeedQuiet(check, b1, c2, u + v);
    RunTwo(check, Idle, c1, c2);
  }
}

=== FILE: optional.dfy ===
/** The optional value used wherever the service reads a key that may be absent
    (`dict.get`) or a field typed `Optional[...]`. */
module Optional {

  datatype Option<T> = None | Some(value: T) {

    /** The value, or `default` when absent (`d.get(key, default)`). */
    function GetOr(default: T): T {
      match this
      case Some(v) => v
      case None => default
    }
  }
}

=== FILE: pystr.dfy ===
/** The subset of Python's `str` behaviour the service relies on: `split()`,
    `split(sep)`, `strip()`, `strip(chars)`, `lower()`, `in`, `find`, `replace`
    and slicing. Characters are Unicode code points, as in Python. */
module PyStr {

  /** The characters for which Python's `str.isspace()` holds; `split()` and
      `strip()` without arguments use exactly this set. */
  predicate IsSpace(c: char) {
    c == ' ' || ('\t' <= c <= '\r') || ('\U{1c}' <= c <= '\U{1f}')
    || c == '\U{85}' || c == '\U{a0}' || c == '\U{1680}'
    || ('\U{2000}' <= c <= '\U{200a}') || c == '\U{2028}' || c == '\U{2029}'
    || c == '\U{202f}' || c == '\U{205f}' || c == '\U{3000}'
  }

  /** No whitespace at all: what one `split()` token looks like. */
  predicate NoSpace(s: string) {
    forall i :: 0 <= i < |s| ==> !IsSpace(s[i])
  }

  /** A token produced by `split()`: non-empty and whitespace-free. */
  predicate IsToken(w: string) {
    |w| > 0 && NoSpace(w)
  }

  /** `lower()` restricted to ASCII letters; it keeps the length, so indices
      found in the lowered text address the same characters in the original. */
  function LowerChar(c: char): char {
    if 'A' <= c <= 'Z' then (c as int + 32) as char else c
  }

  function Lower(s: string): (r: string)
    ensures |r| == |s|
  {
    if s == [] then [] else [LowerChar(s[0])] + Lower(s[1..])
  }

  /** `lower()` works character by character. */
  lemma {:induction false} LowerPointwise(s: string)
    ensures forall i :: 0 <= i < |s| ==> Lower(s)[i] == LowerChar(s[i])
    decreases |s|
  {
    if s != [] {
      LowerPointwise(s[1..]);
    }
  }

  /** Lowering twice is lowering once. */
  lemma LowerTwice(s: string)
    ensures Lower(Lower(s)) == Lower(s)
  {
    var once, twice := Lower(s), Lower(Lower(s));
    LowerPointwise(s);
    LowerPointwise(once);
    assert forall i | 0 <= i < |once| :: twice[i] == once[i];
  }

  lemma {:induction false} LowerAppend(a: string, b: string)
    ensures Lower(a + b) == Lower(a) + Lower(b)
    decreases |a|
  {
    if a == [] {
      assert a + b == b;
    } else {
      assert (a + b)[1..] == a[1..] + b;
      LowerAppend(a[1..], b);
    }
  }

  /** `sub` occurs in `s` starting at index `i`. */
  predicate OccursAt(s: string, sub: string, i: int) {
    0 <= i && i + |sub| <= |s| && s[i..i + |sub|] == sub
  }

  /** `sub in s`. */
  predicate Contains(s: string, sub: string) {
    exists i :: 0 <= i <= |s| && OccursAt(s, sub, i)
  }

  predicate ContainsChar(s: string, c: char) {
    exists i :: 0 <= i < |s| && s[i] == c
  }

  /** `s.find(sub)`: the first index where `sub` occurs, or -1. */
  function Find(s: string, sub: string): (r: int)
    ensures -1 <= r
    ensures r >= 0 <==> Contains(s, sub)
    ensures r >= 0 ==> OccursAt(s, sub, r)
    ensures r >= 0 ==> forall j :: 0 <= j < r ==> !OccursAt(s, sub, j)
    decreases |s|
  {
    if |s| < |sub| then -1
    else if s[..|sub|] == sub then
      assert OccursAt(s, sub, 0);
      0
    else
      var k := Find(s[1..], sub);
      OccursShift(s, sub);
      assert !OccursAt(s, sub, 0);
      if k < 0 then
        assert forall i :: 0 <= i <= |s| ==> !OccursAt(s, sub, i) by {
          forall i | 1 <= i <= |s| ensures !OccursAt(s, sub, i) {
            assert !OccursAt(s[1..], sub, i - 1);
          }
        }
        -1
      else
        assert OccursAt(s, sub, k + 1);
        k + 1
  }

  lemma OccursShift(s: string, sub: string)
    requires |s| > 0
    ensures forall i :: 1 <= i ==> (OccursAt(s, sub, i) <==> OccursAt(s[1..], sub, i - 1))
  {
    forall i | 1 <= i
      ensures OccursAt(s, sub, i) <==> OccursAt(s[1..], sub, i - 1)
    {
      if i + |sub| <= |s| {
        var a, b := s[i..i + |sub|], s[1..][i - 1..i - 1 + |sub|];
        assert forall j | 0 <= j < |sub| :: a[j] == b[j];
        assert a == b;
      }
    }
  }

  /** `s.find(sub, start)` for `0 <= start`: searches `s[start:]`, answers an
      index of `s`, or -1. */
  function FindFrom(s: string, sub: string, start: nat): (r: int)
    ensures r == -1 || (start <= r && OccursAt(s, sub, r))
    ensures r >= 0 ==> forall j :: start <= j < r ==> !OccursAt(s, sub, j)
    ensures r == -1 ==> forall j :: start <= j ==> !OccursAt(s, sub, j)
  {
    if start > |s| then -1
    else
      var k := Find(s[start..], sub);
      OccursDrop(s, sub, start);
      if k < 0 then -1 else start + k
  }

  lemma OccursDrop(s: string, sub: string, start: nat)
    requires start <= |s|
    ensures forall i :: start <= i ==> (OccursAt(s, sub, i) <==> OccursAt(s[start..], sub, i - start))
  {
    forall i | start <= i
      ensures OccursAt(s, sub, i) <==> OccursAt(s[start..], sub, i - start)
    {
      if i + |sub| <= |s| {
        assert s[i..i + |sub|] == s[start..][i - start..i - start + |sub|];
      }
    }
  }

  /** Every character except whitespace, in order. */
  function RemoveSpace(s: string): (r: string)
    ensures NoSpace(r)
    ensures |r| <= |s|
  {
    if s == [] then []
    else if IsSpace(s[0]) then RemoveSpace(s[1..])
    else [s[0]] + RemoveSpace(s[1..])
  }

  lemma {:induction false} RemoveSpaceAppend(a: string, b: string)
    ensures RemoveSpace(a + b) == RemoveSpace(a) + RemoveSpace(b)
    decreases |a|
  {
    if a == [] {
      assert a + b == b;
    } else {
      assert (a + b)[1..] == a[1..] + b;
      RemoveSpaceAppend(a[1..], b);
    }
  }

  lemma {:induction false} RemoveSpaceOfNoSpace(s: string)
    requires NoSpace(s)
    ensures RemoveSpace(s) == s
    decreases |s|
  {
    if s != [] {
      RemoveSpaceOfNoSpace(s[1..]);
    }
  }

  lemma TokenThenSpace(w: string)
    requires NoSpace(w)
    ensures RemoveSpace(w + " ") == w
  {
    RemoveSpaceAppend(w, " ");
    RemoveSpaceOfNoSpace(w);
    assert IsSpace(' ') && " "[1..] == [];
  }

  /** A token and its separating space, ahead of any text, leave just the token. */
  lemma RemoveSpaceAfterToken(w: string, x: string)
    requires NoSpace(w)
    ensures RemoveSpace(w + " " + x) == w + RemoveSpace(x)
  {
    RemoveSpaceAppend(w + " ", x);
    TokenThenSpace(w);
  }

  /** Drop leading whitespace. */
  function TrimStart(s: string): (r: string)
    ensures |r| <= |s| && r == s[|s| - |r|..]
    ensures r != [] ==> !IsSpace(r[0])
    ensures forall i :: 0 <= i < |s| - |r| ==> IsSpace(s[i])
  {
    if s != [] && IsSpace(s[0]) then
      var t := TrimStart(s[1..]);
      assert s[1..][|s| - 1 - |t|..] == s[|s| - |t|..];
      assert forall i :: 1 <= i < |s| - |t| ==> s[i] == s[1..][i - 1];
      t
    else s
  }

  /** The longest whitespace-free prefix. */
  function TokenPrefix(s: string): (r: string)
    ensures |r| <= |s| && r == s[..|r|]
    ensures NoSpace(r)
    ensures |r| < |s| ==> IsSpace(s[|r|])
  {
    if s == [] || IsSpace(s[0]) then [] else [s[0]] + TokenPrefix(s[1..])
  }

  /** Every element is a `split()` token. */
  predicate AllTokens(ws: seq<string>) {
    forall k :: 0 <= k < |ws| ==> IsToken(ws[k])
  }

  /** `s.split()`: the maximal whitespace-free runs of `s`, in order. */
  function Split(s: string): (ws: seq<string>)
    ensures AllTokens(ws)
    decreases |s|
  {
    var t := TrimStart(s);
    if t == [] then []
    else
      var w := TokenPrefix(t);
      assert |w| > 0;
      var rest := Split(t[|w|..]);
      TokensCons(w, rest);
      [w] + rest
  }

  lemma TokensCons(w: string, rest: seq<string>)
    requires IsToken(w) && AllTokens(rest)
    ensures AllTokens([w] + rest)
  {
    assert forall k :: 1 <= k < |[w] + rest| ==> ([w] + rest)[k] == rest[k - 1];
  }

  /** The tokens glued together without separators. */
  function Concat(ws: seq<string>): string {
    if ws == [] then [] else ws[0] + Concat(ws[1..])
  }

  /** `" ".join(ws)`. */
  function JoinSpace(ws: seq<string>): string {
    if ws == [] then []
    else if |ws| == 1 then ws[0]
    else ws[0] + " " + JoinSpace(ws[1..])
  }

  lemma ConcatAppend(a: seq<string>, b: seq<string>)
    ensures Concat(a + b) == Concat(a) + Concat(b)
  {
    if a == [] {
      assert a + b == b;
    } else {
      assert (a + b)[1..] == a[1..] + b;
    }
  }

  /** `split()` loses exactly the whitespace: the tokens, glued together, are
      the non-whitespace characters of the input in order. */
  lemma {:induction false} SplitKeepsText(s: string)
    ensures Concat(Split(s)) == RemoveSpace(s)
    decreases |s|
  {
    var t := TrimStart(s);
    TrimStartRemovesSpace(s);
    if t != [] {
      var w := TokenPrefix(t);
      var rest := t[|w|..];
      var tail := Split(rest);
      assert Split(s) == [w] + tail;
      assert ([w] + tail)[1..] == tail;
      assert Concat(Split(s)) == w + Concat(tail);
      SliceJoin(t, |w|);
      RemoveSpaceAppend(w, rest);
      RemoveSpaceOfNoSpace(w);
      SplitKeepsText(rest);
    }
  }

  lemma {:induction false} TrimStartRemovesSpace(s: string)
    ensures RemoveSpace(TrimStart(s)) == RemoveSpace(s)
    decreases |s|
  {
    if s != [] && IsSpace(s[0]) {
      TrimStartRemovesSpace(s[1..]);
    }
  }

  lemma SliceJoin(s: string, n: nat)
    requires n <= |s|
    ensures s[..n] + s[n..] == s
  {
  }

  /** Splitting the space-joined tokens gives the tokens back. */
  lemma {:induction false} SplitJoinSpace(ws: seq<string>)
    requires AllTokens(ws)
    ensures Split(JoinSpace(ws)) == ws
    decreases |ws|
  {
    if ws == [] {
      SplitEmpty();
    } else if |ws| == 1 {
      SplitSingle(ws[0]);
    } else {
      var tail := ws[1..];
      assert forall k :: 0 <= k < |tail| ==> tail[k] == ws[k + 1];
      SplitJoinSpace(tail);
      var rest := JoinSpace(tail);
      assert JoinSpace(ws) == ws[0] + " " + rest;
      SplitJoinStep(ws[0], rest, tail);
      assert [ws[0]] + tail == ws;
    }
  }

  lemma SplitSingle(w: string)
    requires IsToken(w)
    ensures Split(w) == [w]
  {
    SplitToken(w, []);
    SplitEmpty();
    assert w + [] == w;
  }

  lemma SplitJoinStep(w: string, rest: string, tail: seq<string>)
    requires IsToken(w) && Split(rest) == tail
    ensures Split(w + " " + rest) == [w] + tail
  {
    assert w + " " + rest == w + (" " + rest);
    SplitToken(w, " " + rest);
    SplitLeadingSpace(rest);
  }

  lemma SplitEmpty()
    ensures Split([]) == []
  {
    assert TrimStart([]) == [];
  }

  /** A whitespace-free word followed by nothing or by whitespace splits off
      as the first token. */
  lemma {:induction false} SplitToken(w: string, rest: string)
    requires IsToken(w)
    requires rest == [] || IsSpace(rest[0])
    ensures Split(w + rest) == [w] + Split(rest)
  {
    var s := w + rest;
    assert TrimStart(s) == s;
    TokenPrefixOf(w, rest);
    assert s[|w|..] == rest;
  }

  lemma {:induction false} TokenPrefixOf(w: string, rest: string)
    requires NoSpace(w)
    requires rest == [] || IsSpace(rest[0])
    ensures TokenPrefix(w + rest) == w
    decreases |w|
  {
    if w == [] {
      assert w + rest == rest;
    } else {
      assert (w + rest)[1..] == w[1..] + rest;
      TokenPrefixOf(w[1..], rest);
    }
  }

  lemma SplitLeadingSpace(rest: string)
    ensures Split(" " + rest) == Split(rest)
  {
    assert (" " + rest)[1..] == rest;
    assert TrimStart(" " + rest) == TrimStart(rest);
  }

  /** `s.strip(chars)`: drop characters of `cs` from both ends. */
  function StripChars(s: string, cs: set<char>): (r: string)
    ensures |r| <= |s|
    ensures r != [] ==> r[0] !in cs && r[|r| - 1] !in cs
    ensures var k := |s| - |StripStart(s, cs)|;
      OccursAt(s, r, k)
      && (forall i :: 0 <= i < k ==> s[i] in cs)
      && (forall i :: k + |r| <= i < |s| ==> s[i] in cs)
  {
    var t := StripStart(s, cs);
    var u := StripEnd(t, cs);
    SliceOfSuffix(s, t, u);
    u
  }

  function StripStart(s: string, cs: set<char>): (r: string)
    ensures |r| <= |s| && r == s[|s| - |r|..]
    ensures r != [] ==> r[0] !in cs
    ensures forall i :: 0 <= i < |s| - |r| ==> s[i] in cs
  {
    if s != [] && s[0] in cs then StripStart(s[1..], cs) else s
  }

  function StripEnd(s: string, cs: set<char>): (r: string)
    ensures |r| <= |s| && r == s[..|r|]
    ensures r != [] ==> r[|r| - 1] !in cs
    ensures forall i :: |r| <= i < |s| ==> s[i] in cs
  {
    if s != [] && s[|s| - 1] in cs then StripEnd(s[..|s| - 1], cs) else s
  }

  /** Every character of `s` is in `cs`. */
  predicate AllIn(s: string, cs: set<char>) {
    forall i :: 0 <= i < |s| ==> s[i] in cs
  }

  /** Characters of `cs` stuck to either end of `w` make no difference to
      `strip(cs)`. */
  lemma StripCharsAround(before: string, w: string, after: string, cs: set<char>)
    requires AllIn(before, cs) && AllIn(after, cs)
    ensures StripChars(before + w + after, cs) == StripChars(w, cs)
  {
    var x := before + w + after;
    assert x == before + (w + after);
    StripStartDropsPrefix(before, w + after, cs);
    StripStartAppend(w, after, cs);
    var t := StripStart(w, cs);
    assert StripChars(w, cs) == StripEnd(t, cs);
    assert StripChars(x, cs) == StripEnd(StripStart(w + after, cs), cs);
    if t == [] {
      StripStartDropsPrefix(after, [], cs);
      assert after + [] == after;
      assert StripStart(w + after, cs) == [];
    } else {
      assert StripStart(w + after, cs) == t + after;
      StripEndDropsSuffix(t, after, cs);
    }
  }

  lemma {:induction false} StripStartDropsPrefix(p: string, s: string, cs: set<char>)
    requires AllIn(p, cs)
    ensures StripStart(p + s, cs) == StripStart(s, cs)
    decreases |p|
  {
    if p == [] {
      assert p + s == s;
    } else {
      assert (p + s)[1..] == p[1..] + s;
      StripStartDropsPrefix(p[1..], s, cs);
    }
  }

  lemma {:induction false} StripStartAppend(w: string, q: string, cs: set<char>)
    ensures StripStart(w + q, cs) ==
      (if StripStart(w, cs) == [] then StripStart(q, cs) else StripStart(w, cs) + q)
    decreases |w|
  {
    if w == [] {
      assert w + q == q;
    } else {
      assert (w + q)[1..] == w[1..] + q;
      StripStartAppend(w[1..], q, cs);
    }
  }

  lemma {:induction false} StripEndDropsSuffix(s: string, q: string, cs: set<char>)
    requires AllIn(q, cs)
    ensures StripEnd(s + q, cs) == StripEnd(s, cs)
    decreases |q|
  {
    if q == [] {
      assert s + q == s;
    } else {
      var q' := q[..|q| - 1];
      assert (s + q)[..|s + q| - 1] == s + q';
      StripEndDropsSuffix(s, q', cs);
    }
  }

  /** No ASCII capital letter: `lower()` leaves such text unchanged. */
  predicate NoCapital(s: string) {
    forall i :: 0 <= i < |s| ==> !('A' <= s[i] <= 'Z')
  }

  lemma LowerOfNoCapital(s: string)
    requires NoCapital(s)
    ensures Lower(s) == s
  {
    LowerPointwise(s);
    assert forall i | 0 <= i < |s| :: Lower(s)[i] == s[i];
  }

  /** Lowering text around a part that has no capitals lowers only the rest. */
  lemma LowerAround(before: string, w: string, after: string)
    requires NoCapital(before) && NoCapital(after)
    ensures Lower(before + w + after) == before + Lower(w) + after
  {
    LowerOfNoCapital(before);
    LowerOfNoCapital(after);
    LowerAroundUnchanged(before, w, after);
  }

  lemma LowerAroundUnchanged(before: string, w: string, after: string)
    requires Lower(before) == before && Lower(after) == after
    ensures Lower(before + w + after) == before + Lower(w) + after
  {
    LowerAppend(before + w, after);
    LowerAppend(before, w);
  }

  /** `s.strip()`: drop whitespace from both ends. */
  function Strip(s: string): (r: string)
    ensures |r| <= |s|
    ensures r != [] ==> !IsSpace(r[0]) && !IsSpace(r[|r| - 1])
    ensures var k := |s| - |TrimStart(s)|;
      OccursAt(s, r, k)
      && (forall i :: 0 <= i < k ==> IsSpace(s[i]))
      && (forall i :: k + |r| <= i < |s| ==> IsSpace(s[i]))
  {
    var t := TrimStart(s);
    var u := TrimEnd(t);
    StripParts(s, t, u);
    u
  }

  /** Whitespace trimmed off the front, then off the back, leaves a slice of
      `s` with only whitespace around it. */
  lemma StripParts(s: string, t: string, u: string)
    requires |t| <= |s| && t == s[|s| - |t|..] && (t != [] ==> !IsSpace(t[0]))
    requires forall i :: 0 <= i < |s| - |t| ==> IsSpace(s[i])
    requires |u| <= |t| && u == t[..|u|] && (u != [] ==> !IsSpace(u[|u| - 1]))
    requires forall i :: |u| <= i < |t| ==> IsSpace(t[i])
    ensures u != [] ==> !IsSpace(u[0]) && !IsSpace(u[|u| - 1])
    ensures OccursAt(s, u, |s| - |t|)
    ensures forall i :: |s| - |t| + |u| <= i < |s| ==> IsSpace(s[i])
  {
    SliceOfSuffix(s, t, u);
    if u != [] {
      assert u[0] == t[0];
    }
    forall i | |s| - |t| + |u| <= i < |s|
      ensures IsSpace(s[i])
    {
      assert s[i] == t[i - (|s| - |t|)];
    }
  }

  /** A prefix of a suffix of `s` is a slice of `s`. */
  lemma SliceOfSuffix(s: string, t: string, u: string)
    requires |t| <= |s| && t == s[|s| - |t|..]
    requires |u| <= |t| && u == t[..|u|]
    ensures OccursAt(s, u, |s| - |t|)
  {
    assert s[|s| - |t|..|s| - |t| + |u|] == u;
  }

  function TrimEnd(s: string): (r: string)
    ensures |r| <= |s| && r == s[..|r|]
    ensures r != [] ==> !IsSpace(r[|r| - 1])
    ensures forall i :: |r| <= i < |s| ==> IsSpace(s[i])
  {
    if s != [] && IsSpace(s[|s| - 1]) then TrimEnd(s[..|s| - 1]) else s
  }

  /** How many times `c` occurs in `s`. */
  function CountChar(s: string, c: char): nat {
    if s == [] then 0 else (if s[0] == c then 1 else 0) + CountChar(s[1..], c)
  }

  /** `s.split(sep)` for a one-character separator: the pieces between the
      separators, always one more piece than separators. */
  function SplitOn(s: string, sep: char): (parts: seq<string>)
    ensures |parts| == CountChar(s, sep) + 1
    ensures forall k :: 0 <= k < |parts| ==> !ContainsChar(parts[k], sep)
    decreases |s|
  {
    if s == [] then [[]]
    else
      var rest := SplitOn(s[1..], sep);
      if s[0] == sep then [[]] + rest
      else
        assert !ContainsChar(rest[0], sep);
        [[s[0]] + rest[0]] + rest[1..]
  }

  /** `s.replace(a, b)` for single characters. */
  function ReplaceChar(s: string, a: char, b: char): (r: string)
    ensures |r| == |s|
    ensures forall i :: 0 <= i < |s| ==> r[i] == (if s[i] == a then b else s[i])
  {
    if s == [] then [] else [if s[0] == a then b else s[0]] + ReplaceChar(s[1..], a, b)
  }

  /** `s.replace(c, "")` for every `c` in `cs`: every character of `cs`
      goes. That every other character stays as often as it occurs is
      RemoveCharsCounts; that the order is kept is RemoveCharsAppend. */
  function RemoveChars(s: string, cs: set<char>): (r: string)
    ensures |r| <= |s|
    ensures forall i :: 0 <= i < |r| ==> r[i] !in cs
  {
    if s == [] then []
    else if s[0] in cs then RemoveChars(s[1..], cs)
    else [s[0]] + RemoveChars(s[1..], cs)
  }

  /** Every character outside `cs` survives removal as often as it occurs. */
  lemma {:induction false} RemoveCharsCounts(s: string, cs: set<char>)
    ensures forall c :: c !in cs ==> multiset(RemoveChars(s, cs))[c] == multiset(s)[c]
    decreases |s|
  {
    if s != [] {
      assert s == [s[0]] + s[1..];
      RemoveCharsCounts(s[1..], cs);
    }
  }

  /** Removing characters distributes over concatenation, so the survivors
      keep their order. */
  lemma {:induction false} RemoveCharsAppend(a: string, b: string, cs: set<char>)
    ensures RemoveChars(a + b, cs) == RemoveChars(a, cs) + RemoveChars(b, cs)
    decreases |a|
  {
    if a == [] {
      assert a + b == b;
    } else {
      assert (a + b)[1..] == a[1..] + b;
      RemoveCharsAppend(a[1..], b, cs);
    }
  }

  /** Text with none of the characters is left as it is. */
  lemma {:induction false} RemoveCharsOfClean(s: string, cs: set<char>)
    requires forall i :: 0 <= i < |s| ==> s[i] !in cs
    ensures RemoveChars(s, cs) == s
    decreases |s|
  {
    if s != [] {
      RemoveCharsOfClean(s[1..], cs);
    }
  }

  /** Nothing is left exactly when every character is one to remove. */
  lemma {:induction false} RemoveCharsEmpty(s: string, cs: set<char>)
    ensures RemoveChars(s, cs) == [] <==> forall i :: 0 <= i < |s| ==> s[i] in cs
  {
    var r := RemoveChars(s, cs);
    RemoveCharsCounts(s, cs);
    if r == [] {
      forall i | 0 <= i < |s|
        ensures s[i] in cs
      {
        assert multiset(s)[s[i]] > 0;
        assert multiset(r)[s[i]] == 0;
      }
    } else {
      assert r[0] in multiset(r);
      assert multiset(s)[r[0]] > 0;
      var i :| 0 <= i < |s| && s[i] == r[0];
    }
  }

  /** `s[:n]`. */
  function Take(s: string, n: nat): (r: string)
    ensures |r| == if |s| < n then |s| else n
    ensures r == s[..|r|]
  {
    if |s| <= n then s else s[..n]
  }
}

=== FILE: question_processor.dfy ===
/** The question processing service: the steps a run records, the status
    it ends in, the history record it leaves, and the progress report read
    back from the stored question. The explanation, visual and avatar
    services and the database are outside the model; what they do to the
    run is given as parameters (whether the explanation suggests a visual,
    and during which step the run raises). */
module QuestionProcessor {
  import opened Optional

  /** A processing step as stored, without its timestamp. */
  datatype Step = Step(name: string, message: string)

  /** The stored question, as far as processing touches it. */
  datatype Record = Record(status: string, steps: seq<Step>)

  const Analyzing := Step("analyzing", "Analyzing question...")
  const Explaining := Step("generating_explanation", "Generating explanation...")
  const Visualizing := Step("generating_visual", "Generating visual demonstration...")
  const Animating := Step("generating_avatar", "Generating avatar video...")

  /** The error step the run appends when it raises. */
  function ErrorStep(message: string): Step {
    Step("error", message)
  }

  // ------------------------------------------------------- the run

  /** The steps a run goes through when nothing raises: analysis and
      explanation always, the visual only when it is asked for and the
      explanation suggests one, the avatar only when it is asked for. */
  function PlannedSteps(includeVisual: bool, hasSuggestion: bool, includeAvatar: bool): (r: seq<Step>)
    ensures 2 <= |r| <= 4 && r[0] == Analyzing && r[1] == Explaining
    ensures Visualizing in r <==> includeVisual && hasSuggestion
    ensures Animating in r <==> includeAvatar
    ensures Visualizing in r && Animating in r ==> r[2] == Visualizing && r[3] == Animating
    ensures forall i :: 0 <= i < |r| ==> r[i].name != "error"
  {
    [Analyzing, Explaining]
      + (if includeVisual && hasSuggestion then [Visualizing] else [])
      + (if includeAvatar then [Animating] else [])
  }

  /** Where a run raises. `Failure(i, m)`: during planned step `i`
      (0-based), after its status was saved; when `i` is the number of
      planned steps, while saving the finished question; when it is past
      that, while inserting the history record, which only a logged-in run
      attempts. `StatusSaveFails(i, m)`: in the save that records planned
      step `i`, so the step is in the question's list but that record was
      never stored; a run with fewer steps never meets it. */
  datatype Failure =
    | Failure(during: nat, message: string)
    | StatusSaveFails(during: nat, message: string)

  /** The question's `user_id` counts when it is given and not empty. */
  predicate LoggedIn(userId: Option<string>) {
    userId.Some? && userId.value != []
  }

  /** The run meets its failure: a step or the final save raises, or the
      history insert raises for a logged-in user. */
  predicate Raises(userId: Option<string>, planned: seq<Step>, failure: Option<Failure>) {
    failure.Some? &&
      (failure.value.during < |planned|
       || (failure.value.Failure? && (failure.value.during == |planned| || LoggedIn(userId))))
  }

  /** The run raises only after the question was saved as completed. */
  predicate HistoryFails(userId: Option<string>, planned: seq<Step>, failure: Option<Failure>) {
    failure.Some? && failure.value.Failure? && failure.value.during > |planned| && LoggedIn(userId)
  }

  /** The outcome of `process_question`: every record saved, in order (the
      first is the fresh question, the last is final), whether a history
      record was inserted, and whether the call raised. */
  datatype Run = Run(saved: seq<Record>, history: bool, raised: bool)

  function Final(run: Run): Record
    requires run.saved != []
  {
    run.saved[|run.saved| - 1]
  }

  /** The records saved while `k` steps are recorded one after another. */
  function Snapshots(steps: seq<Step>, k: nat): (r: seq<Record>)
    requires k <= |steps|
    ensures |r| == k
    ensures forall i :: 0 <= i < k ==> r[i] == Record("processing", steps[..i + 1])
  {
    if k == 0 then [] else Snapshots(steps, k - 1) + [Record("processing", steps[..k])]
  }

  /** How many planned steps a run records in the question: all of them,
      unless it raises during one. */
  function Reached(planned: seq<Step>, failure: Option<Failure>): (k: nat)
    ensures k <= |planned|
  {
    if failure.Some? && failure.value.during < |planned| then failure.value.during + 1 else |planned|
  }

  /** How many of those steps got their processing record stored: one fewer
      when the save recording the last of them raised. */
  function Stored(planned: seq<Step>, failure: Option<Failure>): (k: nat)
    ensures k <= Reached(planned, failure)
    ensures k < Reached(planned, failure) <==>
      failure.Some? && failure.value.StatusSaveFails? && failure.value.during < |planned|
  {
    var k := Reached(planned, failure);
    if failure.Some? && failure.value.StatusSaveFails? && failure.value.during < |planned| then k - 1 else k
  }

  /** How many records a run saves after its step records: the completed
      question, the failed one, or both when only the history insert
      raises. */
  function Saves(userId: Option<string>, planned: seq<Step>, failure: Option<Failure>): (r: nat)
    ensures 1 <= r <= 2
    ensures r == 2 <==> HistoryFails(userId, planned, failure)
  {
    if HistoryFails(userId, planned, failure) then 2 else 1
  }

  /** The records a run over the planned steps saves, as written: the
      fresh question, one record after every step whose save did not raise,
      the completed question once every step is done, and the failed
      question when it raises, the history insert included. A save that
      raises stores nothing. */
  function SavedRecords(userId: Option<string>, planned: seq<Step>, failure: Option<Failure>): (saved: seq<Record>)
    ensures |saved| == 1 + Stored(planned, failure) + Saves(userId, planned, failure) && saved[0] == Record("processing", [])
    ensures !Raises(userId, planned, failure) ==> saved[|saved| - 1] == Record("completed", planned)
    ensures Raises(userId, planned, failure) ==>
      saved[|saved| - 1] == Record("failed", planned[..Reached(planned, failure)] + [ErrorStep(failure.value.message)])
    ensures (exists i :: 0 <= i < |saved| && saved[i].status == "completed")
      <==> !Raises(userId, planned, failure) || HistoryFails(userId, planned, failure)
    ensures HistoryFails(userId, planned, failure) ==> saved[|saved| - 2] == Record("completed", planned)
  {
    var k := Reached(planned, failure);
    var n := Stored(planned, failure);
    var raises := Raises(userId, planned, failure);
    var completed := if !raises || HistoryFails(userId, planned, failure) then [Record("completed", planned)] else [];
    var failed := if raises then [Record("failed", planned[..k] + [ErrorStep(failure.value.message)])] else [];
    CompletedOnlyAtTheEnd(planned, n, completed, failed);
    [Record("processing", [])] + Snapshots(planned, n) + completed + failed
  }

  /** The outcome of a run over the planned steps, as written: it raises
      exactly when it meets its failure; a raise anywhere, the history
      insert included, leaves the question failed and inserts no history. */
  function RunOver(userId: Option<string>, planned: seq<Step>, failure: Option<Failure>): (r: Run)
    requires planned != []
    ensures |r.saved| == 1 + Stored(planned, failure) + Saves(userId, planned, failure)
    ensures r.saved[0] == Record("processing", [])
    ensures r.raised <==> Raises(userId, planned, failure)
    ensures !Raises(userId, planned, failure) ==>
      Final(r) == Record("completed", planned) && (r.history <==> LoggedIn(userId))
    ensures Raises(userId, planned, failure) ==>
      !r.history && Final(r).status == "failed"
      && Final(r).steps == planned[..Reached(planned, failure)] + [ErrorStep(failure.value.message)]
    ensures (exists i :: 0 <= i < |r.saved| && r.saved[i].status == "completed")
      <==> !Raises(userId, planned, failure) || HistoryFails(userId, planned, failure)
    ensures HistoryFails(userId, planned, failure) ==> r.saved[|r.saved| - 2] == Record("completed", planned)
  {
    var raises := Raises(userId, planned, failure);
    Run(SavedRecords(userId, planned, failure), LoggedIn(userId) && !raises, raises)
  }

  /** `process_question`, as written: the run over the steps the request
      and the explanation call for. */
  function ProcessQuestion(
    userId: Option<string>, includeVisual: bool, includeAvatar: bool,
    hasSuggestion: bool, failure: Option<Failure>): (r: Run)
    ensures var planned := PlannedSteps(includeVisual, hasSuggestion, includeAvatar);
      |r.saved| == 1 + Stored(planned, failure) + Saves(userId, planned, failure)
      && r.saved[0] == Record("processing", [])
      && (r.raised <==> Raises(userId, planned, failure))
    ensures var planned := PlannedSteps(includeVisual, hasSuggestion, includeAvatar);
      !Raises(userId, planned, failure) ==>
        Final(r) == Record("completed", planned) && (r.history <==> LoggedIn(userId))
    ensures var planned := PlannedSteps(includeVisual, hasSuggestion, includeAvatar);
      Raises(userId, planned, failure) ==>
        !r.history && Final(r).status == "failed"
        && Final(r).steps == planned[..Reached(planned, failure)] + [ErrorStep(failure.value.message)]
    ensures var planned := PlannedSteps(includeVisual, hasSuggestion, includeAvatar);
      (exists i :: 0 <= i < |r.saved| && r.saved[i].status == "completed")
        <==> !Raises(userId, planned, failure) || HistoryFails(userId, planned, failure)
    ensures var planned := PlannedSteps(includeVisual, hasSuggestion, includeAvatar);
      HistoryFails(userId, planned, failure) ==> r.saved[|r.saved| - 2] == Record("completed", planned)
  {
    RunOver(userId, PlannedSteps(includeVisual, hasSuggestion, includeAvatar), failure)
  }

  /** Only the record appended after the snapshots can be completed. */
  lemma CompletedOnlyAtTheEnd(planned: seq<Step>, k: nat, completed: seq<Record>, failed: seq<Record>)
    requires k <= |planned|
    requires completed == [] || completed == [Record("completed", planned)]
    requires failed == [] || (|failed| == 1 && failed[0].status == "failed")
    ensures var saved := [Record("processing", [])] + Snapshots(planned, k) + completed + failed;
      (exists i :: 0 <= i < |saved| && saved[i].status == "completed") <==> completed != []
  {
    var saved := [Record("processing", [])] + Snapshots(planned, k) + completed + failed;
    if completed != [] {
      ConcatAt(planned, k, completed, failed, k + 1);
      assert saved[k + 1].status == "completed";
    } else {
      forall i | 0 <= i < |saved|
        ensures saved[i].status != "completed"
      {
        ConcatAt(planned, k, completed, failed, i);
      }
    }
  }

  /** Record `m` of the fresh record, the snapshots, then at most one
      completed and one failed record. */
  lemma ConcatAt(planned: seq<Step>, k: nat, completed: seq<Record>, failed: seq<Record>, m: nat)
    requires k <= |planned| && |completed| <= 1 && |failed| <= 1
    requires m < 1 + k + |completed| + |failed|
    ensures var saved := [Record("processing", [])] + Snapshots(planned, k) + completed + failed;
      |saved| == 1 + k + |completed| + |failed|
      && (m <= k ==> saved[m] == Record("processing", planned[..m]))
      && (m == k + 1 && completed != [] ==> saved[m] == completed[0])
      && (k < m && !(m == k + 1 && completed != []) ==> failed != [] && saved[m] == failed[0])
  {
    var pre := [Record("processing", [])] + Snapshots(planned, k);
    assert |pre| == k + 1;
    if m <= k {
      if m > 0 {
        assert pre[m] == Snapshots(planned, k)[m - 1];
      } else {
        assert planned[..0] == [];
      }
    }
  }

  /** Record `m` of a run over the planned steps: a processing record for
      each step reached, then the completed record when it was saved, then
      the failed record when the run raised. */
  lemma SavedRecordAt(userId: Option<string>, planned: seq<Step>, failure: Option<Failure>, m: nat)
    requires m < |SavedRecords(userId, planned, failure)|
    ensures var k := Reached(planned, failure);
      var n := Stored(planned, failure);
      var saved := SavedRecords(userId, planned, failure);
      var done := !Raises(userId, planned, failure) || HistoryFails(userId, planned, failure);
      (m <= n ==> saved[m] == Record("processing", planned[..m]))
      && (m == n + 1 && done ==> saved[m] == Record("completed", planned))
      && (n < m && !(m == n + 1 && done) ==>
            Raises(userId, planned, failure)
            && saved[m] == Record("failed", planned[..k] + [ErrorStep(failure.value.message)]))
  {
    var k := Reached(planned, failure);
    var n := Stored(planned, failure);
    var raises := Raises(userId, planned, failure);
    var completed := if !raises || HistoryFails(userId, planned, failure) then [Record("completed", planned)] else [];
    var failed := if raises then [Record("failed", planned[..k] + [ErrorStep(failure.value.message)])] else [];
    assert SavedRecords(userId, planned, failure) == [Record("processing", [])] + Snapshots(planned, n) + completed + failed;
    ConcatAt(planned, n, completed, failed, m);
  }

  /** The run as evidently intended: a question that was saved completed
      stays completed. When the history insert raises, the call still
      raises and inserts no history, but the question is not saved again as
      failed. Every other run is the one written. */
  function IntendedRunOver(userId: Option<string>, planned: seq<Step>, failure: Option<Failure>): (r: Run)
    requires planned != []
    ensures var written := RunOver(userId, planned, failure);
      r.raised == written.raised && r.history == written.history
      && r.saved == (if HistoryFails(userId, planned, failure) then written.saved[..|written.saved| - 1] else written.saved)
    ensures HistoryFails(userId, planned, failure) ==> Final(r) == Record("completed", planned)
  {
    var written := RunOver(userId, planned, failure);
    if HistoryFails(userId, planned, failure) then written.(saved := written.saved[..|written.saved| - 1])
    else written
  }

  /** `process_question` as evidently intended, over the steps the request
      and the explanation call for. */
  function ProcessQuestionIntended(
    userId: Option<string>, includeVisual: bool, includeAvatar: bool,
    hasSuggestion: bool, failure: Option<Failure>): (r: Run)
    ensures var written := ProcessQuestion(userId, includeVisual, includeAvatar, hasSuggestion, failure);
      var planned := PlannedSteps(includeVisual, hasSuggestion, includeAvatar);
      r.raised == written.raised && r.history == written.history
      && r.saved == (if HistoryFails(userId, planned, failure) then written.saved[..|written.saved| - 1] else written.saved)
    ensures var planned := PlannedSteps(includeVisual, hasSuggestion, includeAvatar);
      HistoryFails(userId, planned, failure) ==> Final(r) == Record("completed", planned)
  {
    IntendedRunOver(userId, PlannedSteps(includeVisual, hasSuggestion, includeAvatar), failure)
  }

  // ------------------------------------------------------- status report

  /** How many steps are not error steps. */
  function CountDone(steps: seq<Step>): (r: nat)
    ensures r <= |steps|
  {
    if steps == [] then 0 else CountDone(steps[..|steps| - 1]) + (if steps[|steps| - 1].name != "error" then 1 else 0)
  }

  /** Progress of a stored question: 100 once completed, otherwise a
      quarter of the four steps for each step that is not an error, capped
      at 100. Python computes `int(done / 4 * 100)`, which is `25 * done`
      exactly for whole `done`. */
  function Progress(q: Record): (r: nat)
    ensures r <= 100
    ensures q.status == "completed" ==> r == 100
    ensures q.status != "completed" && CountDone(q.steps) <= 4 ==> r == 25 * CountDone(q.steps)
    ensures q.status != "completed" && CountDone(q.steps) >= 4 ==> r == 100
  {
    if q.status == "completed" then 100
    else if 25 * CountDone(q.steps) < 100 then 25 * CountDone(q.steps) else 100
  }

  datatype Status =
    | NotFound(questionId: string)
    | Found(questionId: string, status: string, progress: nat, currentStep: Option<string>, stepsCompleted: seq<string>)

  /** The names of the steps, in order, error steps included. */
  function Names(steps: seq<Step>): (r: seq<string>)
    ensures |r| == |steps|
    ensures forall i :: 0 <= i < |steps| ==> r[i] == steps[i].name
  {
    if steps == [] then [] else Names(steps[..|steps| - 1]) + [steps[|steps| - 1].name]
  }

  /** `get_question_status` over the stored questions. */
  function QuestionStatus(store: map<string, Record>, questionId: string): (r: Status)
    ensures questionId !in store <==> r == NotFound(questionId)
    ensures questionId in store ==>
      (r.Found? && r.questionId == questionId
       && r.status == store[questionId].status
       && r.progress == Progress(store[questionId])
       && r.stepsCompleted == Names(store[questionId].steps))
    ensures questionId in store && store[questionId].steps == [] ==> r.currentStep == None
    ensures questionId in store && store[questionId].steps != [] ==>
      r.currentStep == Some(store[questionId].steps[|store[questionId].steps| - 1].message)
  {
    if questionId !in store then NotFound(questionId)
    else
      var q := store[questionId];
      var current := if q.steps == [] then None else Some(q.steps[|q.steps| - 1].message);
      Found(questionId, q.status, Progress(q), current, Names(q.steps))
  }

  // ------------------------------------------------------- run and report

  lemma {:induction false} CountDoneOfPlanned(steps: seq<Step>)
    requires forall i :: 0 <= i < |steps| ==> steps[i].name != "error"
    ensures CountDone(steps) == |steps|
    decreases |steps|
  {
    if steps != [] {
      CountDoneOfPlanned(steps[..|steps| - 1]);
    }
  }

  lemma CountDoneWithError(steps: seq<Step>, message: string)
    ensures CountDone(steps + [ErrorStep(message)]) == CountDone(steps)
  {
    assert (steps + [ErrorStep(message)])[..|steps|] == steps;
  }

  /** Progress of a record with `k` steps none of which is an error, while
      it is still processing. */
  lemma ProgressOfPrefix(planned: seq<Step>, k: nat)
    requires k <= |planned| <= 4
    requires forall i :: 0 <= i < |planned| ==> planned[i].name != "error"
    ensures Progress(Record("processing", planned[..k])) == 25 * k
  {
    CountDoneOfPlanned(planned[..k]);
  }

  /** A plan the service can make: one to four steps, none an error. */
  predicate Plannable(planned: seq<Step>) {
    1 <= |planned| <= 4 && forall i :: 0 <= i < |planned| ==> planned[i].name != "error"
  }

  /** The progress each record saved over a plan reports: a quarter per
      step stored so far; the record after the steps reports 100 when it
      is the completed one; a failed record a quarter per step reached. */
  lemma PlanProgress(userId: Option<string>, planned: seq<Step>, failure: Option<Failure>, m: nat)
    requires Plannable(planned)
    requires m < |SavedRecords(userId, planned, failure)|
    ensures var k := Reached(planned, failure);
      var n := Stored(planned, failure);
      Progress(SavedRecords(userId, planned, failure)[m]) ==
        (if m <= n then 25 * m
         else if m == n + 1 && (!Raises(userId, planned, failure) || HistoryFails(userId, planned, failure)) then 100
         else 25 * k)
  {
    var k := Reached(planned, failure);
    var n := Stored(planned, failure);
    SavedRecordAt(userId, planned, failure, m);
    if m <= n {
      ProgressOfPrefix(planned, m);
    } else if !(m == n + 1 && (!Raises(userId, planned, failure) || HistoryFails(userId, planned, failure))) {
      CountDoneWithError(planned[..k], failure.value.message);
      CountDoneOfPlanned(planned[..k]);
    }
  }

  /** The progress each saved record of a run reports: a quarter per step
      stored so far, then 100 for the completed record, and for the
      failed record what the run had reached. */
  lemma SavedProgress(
    userId: Option<string>, includeVisual: bool, includeAvatar: bool,
    hasSuggestion: bool, failure: Option<Failure>, m: nat)
    requires m < |ProcessQuestion(userId, includeVisual, includeAvatar, hasSuggestion, failure).saved|
    ensures var planned := PlannedSteps(includeVisual, hasSuggestion, includeAvatar);
      var k := Reached(planned, failure);
      var n := Stored(planned, failure);
      var r := ProcessQuestion(userId, includeVisual, includeAvatar, hasSuggestion, failure);
      Progress(r.saved[m]) ==
        (if m <= n then 25 * m
         else if m == n + 1 && (!Raises(userId, planned, failure) || HistoryFails(userId, planned, failure)) then 100
         else 25 * k)
  {
    var planned := PlannedSteps(includeVisual, hasSuggestion, includeAvatar);
    assert ProcessQuestion(userId, includeVisual, includeAvatar, hasSuggestion, failure).saved
      == SavedRecords(userId, planned, failure);
    PlanProgress(userId, planned, failure, m);
  }

  /** Progress never decreases from one saved record to a later one. */
  ghost predicate NeverGoesBack(saved: seq<Record>) {
    forall i, j :: 0 <= i <= j < |saved| ==> Progress(saved[i]) <= Progress(saved[j])
  }

  /** As written, progress read back during a run goes backwards exactly
      when the history insert raises after fewer than four steps: the
      completed record reports 100, the failed one after it a quarter per
      step. */
  lemma ProgressGoesBackOnlyOnHistoryFailure(
    userId: Option<string>, includeVisual: bool, includeAvatar: bool,
    hasSuggestion: bool, failure: Option<Failure>)
    ensures var planned := PlannedSteps(includeVisual, hasSuggestion, includeAvatar);
      var r := ProcessQuestion(userId, includeVisual, includeAvatar, hasSuggestion, failure);
      NeverGoesBack(r.saved) <==> !(HistoryFails(userId, planned, failure) && |planned| < 4)
  {
    var r := ProcessQuestion(userId, includeVisual, includeAvatar, hasSuggestion, failure);
    var planned := PlannedSteps(includeVisual, hasSuggestion, includeAvatar);
    var n := |r.saved|;
    if HistoryFails(userId, planned, failure) && |planned| < 4 {
      SavedProgress(userId, includeVisual, includeAvatar, hasSuggestion, failure, n - 2);
      SavedProgress(userId, includeVisual, includeAvatar, hasSuggestion, failure, n - 1);
      assert Progress(r.saved[n - 2]) > Progress(r.saved[n - 1]);
    } else {
      forall i, j | 0 <= i <= j < n
        ensures Progress(r.saved[i]) <= Progress(r.saved[j])
      {
        SavedProgress(userId, includeVisual, includeAvatar, hasSuggestion, failure, i);
        SavedProgress(userId, includeVisual, includeAvatar, hasSuggestion, failure, j);
      }
    }
  }

  /** The drop in one run: a logged-in user asks without visual or avatar,
      and the history insert fails. A status poll can read 100 and then
      50. */
  lemma HistoryFailureDropsProgress()
    ensures var r := ProcessQuestion(Some("u"), false, false, false, Some(Failure(3, "db down")));
      |r.saved| == 5 && Progress(r.saved[3]) == 100 && Progress(r.saved[4]) == 50
  {
    var planned := PlannedSteps(false, false, false);
    assert planned == [Analyzing, Explaining];
    SavedProgress(Some("u"), false, false, false, Some(Failure(3, "db down")), 3);
    SavedProgress(Some("u"), false, false, false, Some(Failure(3, "db down")), 4);
  }

  /** A raise in the save recording the explanation step of a plain run:
      the fresh question, the analysis record, then the failed question,
      which lists the explanation step although no record of it was
      stored before. */
  lemma StatusSaveFailureSkipsSnapshot()
    ensures ProcessQuestion(None, false, false, false, Some(StatusSaveFails(1, "db down"))).saved
      == [Record("processing", []), Record("processing", [Analyzing]),
          Record("failed", [Analyzing, Explaining, ErrorStep("db down")])]
  {
    var planned := PlannedSteps(false, false, false);
    var f := Some(StatusSaveFails(1, "db down"));
    assert planned == [Analyzing, Explaining];
    assert Reached(planned, f) == 2 && Stored(planned, f) == 1;
    assert Raises(None, planned, f) && !HistoryFails(None, planned, f);
    assert planned[..1] == [Analyzing];
    assert Snapshots(planned, 1) == [Record("processing", [Analyzing])];
    assert planned[..2] == planned;
    assert SavedRecords(None, planned, f)
      == [Record("processing", [])] + Snapshots(planned, 1) + [] + [Record("failed", planned + [ErrorStep("db down")])];
    assert ProcessQuestion(None, false, false, false, f).saved == SavedRecords(None, planned, f);
    assert planned + [ErrorStep("db down")] == [Analyzing, Explaining, ErrorStep("db down")];
  }

  /** In the intended run over any plan the service can make, read back
      at any point, progress never goes backwards: each saved record
      reports at least as much as the one saved before it. A failure
      appends an error step, which does not count, so a failed run keeps
      the progress it had reached. */
  lemma ProgressNeverGoesBack(userId: Option<string>, planned: seq<Step>, failure: Option<Failure>, i: nat, j: nat)
    requires Plannable(planned)
    requires i <= j < |IntendedRunOver(userId, planned, failure).saved|
    ensures var r := IntendedRunOver(userId, planned, failure);
      Progress(r.saved[i]) <= Progress(r.saved[j])
  {
    var r := IntendedRunOver(userId, planned, failure);
    var w := RunOver(userId, planned, failure);
    assert r.saved[i] == w.saved[i] && r.saved[j] == w.saved[j];
    assert w.saved == SavedRecords(userId, planned, failure);
    PlanProgress(userId, planned, failure, i);
    PlanProgress(userId, planned, failure, j);
  }

  /** In particular for the plans `process_question` makes. */
  lemma IntendedQuestionNeverGoesBack(
    userId: Option<string>, includeVisual: bool, includeAvatar: bool,
    hasSuggestion: bool, failure: Option<Failure>, i: nat, j: nat)
    requires i <= j < |ProcessQuestionIntended(userId, includeVisual, includeAvatar, hasSuggestion, failure).saved|
    ensures var r := ProcessQuestionIntended(userId, includeVisual, includeAvatar, hasSuggestion, failure);
      Progress(r.saved[i]) <= Progress(r.saved[j])
  {
    var planned := PlannedSteps(includeVisual, hasSuggestion, includeAvatar);
    assert ProcessQuestionIntended(userId, includeVisual, includeAvatar, hasSuggestion, failure)
      == IntendedRunOver(userId, planned, failure);
    ProgressNeverGoesBack(userId, planned, failure, i, j);
  }

  /** A run that does not raise reads back as complete: progress 100, every
      planned step listed, and the avatar or explanation message as the
      current step. */
  lemma FinishedRunReportsComplete(
    store: map<string, Record>, questionId: string,
    userId: Option<string>, includeVisual: bool, includeAvatar: bool, hasSuggestion: bool,
    failure: Option<Failure>)
    requires !Raises(userId, PlannedSteps(includeVisual, hasSuggestion, includeAvatar), failure)
    requires var r := ProcessQuestion(userId, includeVisual, includeAvatar, hasSuggestion, failure);
      questionId in store && store[questionId] == Final(r)
    ensures var planned := PlannedSteps(includeVisual, hasSuggestion, includeAvatar);
      var s := QuestionStatus(store, questionId);
      s.Found? && s.status == "completed" && s.progress == 100
      && s.stepsCompleted == Names(planned)
      && s.currentStep == Some(if includeAvatar then Animating.message
                               else if includeVisual && hasSuggestion then Visualizing.message
                               else Explaining.message)
  {
  }

  /** A run that raises reads back as failed, with the exception's message
      as the current step, the error step listed last, and a quarter for
      each step it had begun. */
  lemma FailedRunReportsError(
    store: map<string, Record>, questionId: string,
    userId: Option<string>, includeVisual: bool, includeAvatar: bool, hasSuggestion: bool, f: Failure)
    requires Raises(userId, PlannedSteps(includeVisual, hasSuggestion, includeAvatar), Some(f))
    requires var r := ProcessQuestion(userId, includeVisual, includeAvatar, hasSuggestion, Some(f));
      questionId in store && store[questionId] == Final(r)
    ensures var planned := PlannedSteps(includeVisual, hasSuggestion, includeAvatar);
      var s := QuestionStatus(store, questionId);
      s.Found? && s.status == "failed"
      && s.progress == 25 * (if f.during < |planned| then f.during + 1 else |planned|)
      && s.currentStep == Some(f.message)
      && s.stepsCompleted[|s.stepsCompleted| - 1] == "error"
  {
    var planned := PlannedSteps(includeVisual, hasSuggestion, includeAvatar);
    var k := Reached(planned, Some(f));
    assert store[questionId] == Record("failed", planned[..k] + [ErrorStep(f.message)]);
    FailedRecordStatus(store, questionId, planned[..k], f.message);
  }

  /** How a failed record with `done` steps before its error reads back. */
  lemma FailedRecordStatus(store: map<string, Record>, questionId: string, done: seq<Step>, message: string)
    requires |done| <= 4 && forall i :: 0 <= i < |done| ==> done[i].name != "error"
    requires questionId in store && store[questionId] == Record("failed", done + [ErrorStep(message)])
    ensures var s := QuestionStatus(store, questionId);
      s.Found? && s.status == "failed" && s.progress == 25 * |done|
      && s.currentStep == Some(message) && s.stepsCompleted[|s.stepsCompleted| - 1] == "error"
  {
    CountDoneWithError(done, message);
    CountDoneOfPlanned(done);
  }
}

=== FILE: scan.dfy ===
/** First-match-wins scans over ordered tables: the shape of every keyword
    lookup in the service (`for key, value in table: if key in text: return`). */
module Scan {
  import opened Optional

  /** The index of the first row at or after `from` that satisfies `p`. */
  function FirstFrom<T>(rows: seq<T>, p: T -> bool, from: nat): (r: Option<nat>)
    requires from <= |rows|
    ensures r.Some? ==> from <= r.value < |rows| && p(rows[r.value])
    ensures r.Some? ==> forall j :: from <= j < r.value ==> !p(rows[j])
    ensures r.None? <==> forall j :: from <= j < |rows| ==> !p(rows[j])
    decreases |rows| - from
  {
    if from == |rows| then None
    else if p(rows[from]) then Some(from)
    else FirstFrom(rows, p, from + 1)
  }

  /** The index of the first row that satisfies `p`, if any. */
  function First<T>(rows: seq<T>, p: T -> bool): (r: Option<nat>)
    ensures r.Some? ==> r.value < |rows| && p(rows[r.value])
    ensures r.Some? ==> forall j :: 0 <= j < r.value ==> !p(rows[j])
    ensures r.None? <==> forall j :: 0 <= j < |rows| ==> !p(rows[j])
  {
    FirstFrom(rows, p, 0)
  }
}

=== FILE: schemas.dfy ===
/** The request and response schemas: which bodies are accepted, and the
    defaults a body that leaves a field out gets. A body is given field by
    field, `None` standing for a field that is absent (or null, where the
    schema allows it). E-mail syntax checking is not modelled. */
module Schemas {
  import opened Optional
  import QuestionProcessor
  import Auth

  // ------------------------------------------------------- questions

  datatype QuestionRequest = QuestionRequest(
    question: string, subject: Option<string>, includeVisual: bool, includeAvatar: bool, language: string)

  datatype QuestionRequestBody = QuestionRequestBody(
    question: Option<string>, subject: Option<string>, includeVisual: Option<bool>,
    includeAvatar: Option<bool>, language: Option<string>)

  /** The question is required and holds 3 to 2000 characters. */
  predicate ValidQuestion(question: Option<string>) {
    question.Some? && 3 <= |question.value| <= 2000
  }

  /** Parsing a `QuestionRequest`: rejected unless the question is valid;
      otherwise absent fields take their defaults (no subject, visual and
      avatar included, English). */
  function ParseQuestionRequest(b: QuestionRequestBody): (r: Option<QuestionRequest>)
    ensures r.Some? <==> ValidQuestion(b.question)
    ensures r.Some? ==> r.value.question == b.question.value && r.value.subject == b.subject
    ensures r.Some? ==> r.value.includeVisual == (b.includeVisual != Some(false))
    ensures r.Some? ==> r.value.includeAvatar == (b.includeAvatar != Some(false))
    ensures r.Some? ==> r.value.language == (if b.language.Some? then b.language.value else "en")
  {
    if !ValidQuestion(b.question) then None
    else Some(QuestionRequest(b.question.value, b.subject, b.includeVisual.GetOr(true),
                              b.includeAvatar.GetOr(true), b.language.GetOr("en")))
  }

  /** The body that spells out every field of a request. */
  function BodyOf(r: QuestionRequest): QuestionRequestBody {
    QuestionRequestBody(Some(r.question), r.subject, Some(r.includeVisual), Some(r.includeAvatar), Some(r.language))
  }

  /** A valid request sent with all its fields parses back to itself. */
  lemma QuestionRequestRoundTrip(r: QuestionRequest)
    requires 3 <= |r.question| <= 2000
    ensures ParseQuestionRequest(BodyOf(r)) == Some(r)
  {
  }

  /** A body with only its question gets every default. */
  lemma QuestionRequestDefaults(question: string)
    requires 3 <= |question| <= 2000
    ensures ParseQuestionRequest(QuestionRequestBody(Some(question), None, None, None, None))
      == Some(QuestionRequest(question, None, true, true, "en"))
  {
  }

  /** `QuestionResponse`; the lists default to empty and the urls and
      descriptions to none. */
  datatype QuestionResponse = QuestionResponse(
    questionId: string, question: string, explanation: string,
    visualType: Option<string>, visualUrl: Option<string>, visualDescription: Option<string>,
    avatarVideoUrl: Option<string>, audioUrl: Option<string>, combinedVideoUrl: Option<string>,
    keywords: seq<string>, relatedConcepts: seq<string>, followUpQuestions: seq<string>,
    status: string)

  /** A response built from its required fields alone. */
  function NewQuestionResponse(questionId: string, question: string, explanation: string, status: string): (r: QuestionResponse)
    ensures r.questionId == questionId && r.question == question && r.explanation == explanation && r.status == status
    ensures r.visualType == None && r.visualUrl == None && r.visualDescription == None
    ensures r.avatarVideoUrl == None && r.audioUrl == None && r.combinedVideoUrl == None
    ensures r.keywords == [] && r.relatedConcepts == [] && r.followUpQuestions == []
  {
    QuestionResponse(questionId, question, explanation, None, None, None, None, None, None, [], [], [], status)
  }

  /** `QuestionStatusResponse`. */
  datatype QuestionStatusResponse = QuestionStatusResponse(
    questionId: string, status: string, progress: int, currentStep: Option<string>,
    stepsCompleted: seq<string>, errorMessage: Option<string>)

  /** A status response built from its required fields alone: no progress,
      no step. */
  function NewStatusResponse(questionId: string, status: string): (r: QuestionStatusResponse)
    ensures r.questionId == questionId && r.status == status
    ensures r.progress == 0 && r.currentStep == None && r.stepsCompleted == [] && r.errorMessage == None
  {
    QuestionStatusResponse(questionId, status, 0, None, [], None)
  }

  /** The status route: a missing question is a 404 (`None` here); a found
      one becomes a status response with every field the processor
      reported. */
  function StatusReply(s: QuestionProcessor.Status): (r: Option<QuestionStatusResponse>)
    ensures r.None? <==> s.NotFound? || s.status == "not_found"
    ensures r.Some? ==> r.value == QuestionStatusResponse(s.questionId, s.status, s.progress, s.currentStep, s.stepsCompleted, None)
  {
    match s
    case NotFound(_) => None
    case Found(id, status, progress, current, steps) =>
      if status == "not_found" then None
      else Some(QuestionStatusResponse(id, status, progress, current, steps, None))
  }

  /** Every status the route reports for a stored question is a percentage. */
  lemma StatusProgressIsPercentage(store: map<string, QuestionProcessor.Record>, questionId: string)
    requires StatusReply(QuestionProcessor.QuestionStatus(store, questionId)).Some?
    ensures var r := StatusReply(QuestionProcessor.QuestionStatus(store, questionId)).value;
      0 <= r.progress <= 100 && r.questionId == questionId
  {
  }

  datatype FeedbackRequest = FeedbackRequest(
    questionId: string, wasHelpful: bool, rating: Option<int>, feedbackText: Option<string>)

  /** A rating is optional and, when given, from 1 to 5. */
  predicate ValidRating(rating: Option<int>) {
    rating.None? || 1 <= rating.value <= 5
  }

  /** Parsing a `FeedbackRequest`: rejected exactly when a rating outside 1
      to 5 is given. */
  function ParseFeedback(questionId: string, wasHelpful: bool, rating: Option<int>, feedbackText: Option<string>):
    (r: Option<FeedbackRequest>)
    ensures r.Some? <==> rating.None? || (1 <= rating.value && rating.value <= 5)
    ensures r.Some? ==> r.value == FeedbackRequest(questionId, wasHelpful, rating, feedbackText)
  {
    if ValidRating(rating) then Some(FeedbackRequest(questionId, wasHelpful, rating, feedbackText)) else None
  }

  /** Exactly five ratings are accepted. */
  lemma FiveRatings()
    ensures forall n: int :: ValidRating(Some(n)) <==> n in {1, 2, 3, 4, 5}
  {
  }

  // ------------------------------------------------------- users

  const Roles: set<string> := {"student", "teacher", "admin"}

  datatype UserCreateBody = UserCreateBody(
    email: string, password: string, fullName: string, role: Option<string>,
    gradeLevel: Option<string>, preferredLanguage: Option<string>)

  /** The role pattern `^(student|teacher|admin)$`, anchored at both ends:
      one of the three names exactly. */
  predicate RoleMatches(role: string) {
    role == "student" || role == "teacher" || role == "admin"
  }

  /** Parsing a `UserCreate`: a password of at least 8 characters, a full
      name of 2 to 100, and a role, when given, among the three; the role
      defaults to student and the language to English. */
  function ParseUserCreate(b: UserCreateBody): (r: Option<Auth.UserCreate>)
    ensures r.Some? <==> |b.password| >= 8 && 2 <= |b.fullName| <= 100 && (b.role.None? || b.role.value in Roles)
    ensures r.Some? ==> r.value.role in Roles
    ensures r.Some? ==> r.value.role == (if b.role.Some? then b.role.value else "student")
    ensures r.Some? ==> r.value.preferredLanguage == (if b.preferredLanguage.Some? then b.preferredLanguage.value else "en")
    ensures r.Some? ==>
      (r.value.email == b.email && r.value.password == b.password
       && r.value.fullName == b.fullName && r.value.gradeLevel == b.gradeLevel)
  {
    if |b.password| >= 8 && 2 <= |b.fullName| <= 100 && (b.role.None? || RoleMatches(b.role.value)) then
      Some(Auth.UserCreate(b.email, b.password, b.fullName, b.role.GetOr("student"), b.gradeLevel,
                      b.preferredLanguage.GetOr("en")))
    else None
  }

  /** The anchors matter: a role that merely contains a name is refused. */
  lemma RoleIsAnchored(b: UserCreateBody)
    requires b.role == Some("students")
    ensures ParseUserCreate(b) == None
  {
  }

  /** A new password holds at least 8 characters. */
  function ParsePasswordChange(currentPassword: string, newPassword: string): (r: Option<Auth.PasswordChange>)
    ensures r.Some? <==> |newPassword| >= 8
    ensures r.Some? ==> r.value == Auth.PasswordChange(currentPassword, newPassword)
  {
    if |newPassword| >= 8 then Some(Auth.PasswordChange(currentPassword, newPassword)) else None
  }

  /** A change that passes the schema, asked with the right current
      password, stores a password of at least 8 characters, and that
      password verifies against the stored hash. */
  lemma SchemaChangeStoresLongPassword(u: Auth.User, currentPassword: string, newPassword: string, now: nat, c: Auth.Crypto)
    requires Auth.Agrees(c) && c.verify(currentPassword, u.hashedPassword)
    requires ParsePasswordChange(currentPassword, newPassword).Some?
    ensures var r := Auth.ChangePassword(u, ParsePasswordChange(currentPassword, newPassword).value, now, c);
      r.Ok? && |newPassword| >= 8 && c.verify(newPassword, r.value.hashedPassword)
  {
  }

  /** Every account created through the schema has one of the three roles
      and a password hash of a password of at least 8 characters. */
  lemma RegisteredUsersHaveARole(users: seq<Auth.User>, b: UserCreateBody, id: string, now: nat, c: Auth.Crypto)
    requires ParseUserCreate(b).Some?
    requires Auth.Register(users, ParseUserCreate(b).value, id, now, c).1.Ok?
    ensures var stored := Auth.Register(users, ParseUserCreate(b).value, id, now, c).0;
      stored[|stored| - 1].role in Roles && stored[|stored| - 1].hashedPassword == c.hash(b.password)
  {
  }
}

=== FILE: teaching_pipeline.dfy ===
/** The local decisions of the one-shot teaching pipeline: which animation
    illustrates a question, the canned explanations used when no language
    model answers, the mouth shapes of the lip-sync track, and the check on
    the model's own choice of animation. */
module TeachingPipeline {
  import opened Optional
  import opened PyStr

  // ------------------------------------------------------- get_visual_type

  /** The keyword table of `get_visual_type` has this many rows. */
  const VisualRows: nat := 16

  /** The keywords of row `i`, in table order; none past the last row. */
  function VisualKeywords(i: nat): seq<string> {
    if i == 0 then ["gravity", "fall", "falling", "apple", "drop", "weight", "newton", "गुरुत्वाकर्षण", "गिरना", "सेब"]
    else if i == 1 then ["pendulum", "swing", "swinging", "clock", "oscillat", "पेंडुलम", "झूलना", "घड़ी"]
    else if i == 2 then ["spring", "elastic", "hooke", "stretch", "compress", "bounce", "स्प्रिंग", "लचीला"]
    else if i == 3 then ["force", "push", "pull", "motion", "accelerat", "velocity", "speed", "बल", "गति", "रफ्तार"]
    else if i == 4 then ["wave", "sound", "light", "frequency", "vibrat", "audio", "तरंग", "ध्वनि", "आवाज"]
    else if i == 5 then ["energy", "kinetic", "potential", "conserv", "work", "ऊर्जा", "गतिज", "स्थितिज"]
    else if i == 6 then ["planet", "solar", "orbit", "earth", "moon", "sun", "space", "star", "ग्रह", "पृथ्वी", "चंद्रमा", "सूर्य"]
    else if i == 7 then ["electr", "current", "volt", "circuit", "battery", "बिजली", "विद्युत", "करंट"]
    else if i == 8 then ["atom", "molecul", "element", "chemi", "bond", "परमाणु", "अणु", "तत्व", "रासायनिक"]
    else if i == 9 then ["water", "h2o", "liquid", "solid", "gas", "boil", "freeze", "evapor", "पानी", "तरल", "ठोस", "गैस"]
    else if i == 10 then ["cell", "dna", "plant", "animal", "body", "heart", "blood", "कोशिका", "पौधा", "जानवर", "शरीर", "दिल"]
    else if i == 11 then ["photosynthe", "leaf", "sun", "oxygen", "carbon", "पत्ती", "प्रकाश संश्लेषण"]
    else if i == 12 then ["math", "number", "add", "subtract", "multipl", "divid", "गणित", "संख्या", "जोड़", "घटाना", "गुणा", "भाग"]
    else if i == 13 then ["circle", "triangle", "square", "geometry", "shape", "angle", "वृत्त", "त्रिभुज", "वर्ग", "आकार"]
    else if i == 14 then ["graph", "plot", "function", "equation", "x", "y", "ग्राफ", "समीकरण"]
    else if i == 15 then ["fraction", "percent", "ratio", "भिन्न", "प्रतिशत", "अनुपात"]
    else []
  }

  /** The animation type and description of row `i`; the default past the
      last row. */
  function VisualEntry(i: nat): (string, string) {
    if i == 0 then ("falling_object", "Demonstrating gravity with a falling apple")
    else if i == 1 then ("pendulum_swing", "Showing pendulum motion")
    else if i == 2 then ("spring_oscillation", "Demonstrating spring mechanics")
    else if i == 3 then ("force_motion", "Demonstrating force and motion")
    else if i == 4 then ("wave_motion", "Visualizing wave propagation")
    else if i == 5 then ("energy_transfer", "Showing energy transformation")
    else if i == 6 then ("orbital_motion", "Showing planetary orbits")
    else if i == 7 then ("electric_flow", "Visualizing electric current")
    else if i == 8 then ("molecular_motion", "Showing molecular structure")
    else if i == 9 then ("state_change", "Showing states of matter")
    else if i == 10 then ("biology_visual", "Biological visualization")
    else if i == 11 then ("photosynthesis", "Showing photosynthesis process")
    else if i == 12 then ("math_visual", "Mathematical visualization")
    else if i == 13 then ("geometry_visual", "Showing geometric shapes")
    else if i == 14 then ("graph_visual", "Mathematical graph")
    else if i == 15 then ("fraction_visual", "Showing fractions")
    else DefaultVisual
  }

  const DefaultVisual: (string, string) := ("falling_object", "Educational visual demonstration")

  /** A keyword table laid out as `get_visual_type` lays its table out: the
      keywords and the (type, description) entry of each of `VisualRows`
      rows. The choice of a row is stated for every such table, so that the
      literal rows are only unfolded where a property needs them. */
  datatype VisualTable = VisualTable(keywords: nat -> seq<string>, entry: nat -> (string, string))

  /** The table of `get_visual_type`. */
  const Table: VisualTable := VisualTable(VisualKeywords, VisualEntry)

  /** The text the keywords are looked for in. */
  function Combined(question: string, visualExample: string): string {
    Lower(question + " " + visualExample)
  }

  /** `any(kw in text for kw in keywords)`. */
  predicate AnyKeyword(text: string, keywords: seq<string>) {
    exists k :: 0 <= k < |keywords| && Contains(text, keywords[k])
  }

  /** Row `i` of `t` has a keyword occurring in `text`. */
  predicate RowMatches(t: VisualTable, text: string, i: nat) {
    i < VisualRows && AnyKeyword(text, t.keywords(i))
  }

  /** Row `i` is the first row of `t` with a keyword in `text`. */
  predicate FirstVisualRow(t: VisualTable, text: string, i: nat) {
    RowMatches(t, text, i) && forall j :: 0 <= j < i ==> !RowMatches(t, text, j)
  }

  /** The first row of `t` from row `from` on, in table order, one of whose
      keywords occurs in `text`; `None` when no such row has one. */
  function FirstRowFrom(t: VisualTable, text: string, from: nat): (r: Option<nat>)
    requires from <= VisualRows
    ensures r.Some? ==> from <= r.value && RowMatches(t, text, r.value)
    ensures r.Some? ==> forall j :: from <= j < r.value ==> !RowMatches(t, text, j)
    ensures r.None? ==> forall j :: from <= j < VisualRows ==> !RowMatches(t, text, j)
    decreases VisualRows - from
  {
    if from == VisualRows then None
    else if RowMatches(t, text, from) then Some(from)
    else FirstRowFrom(t, text, from + 1)
  }

  /** The choice `get_visual_type` makes with table `t`: the entry of the
      first row whose keywords occur in the lowered question and visual
      example; with no such row, the falling object. */
  function VisualTypeIn(t: VisualTable, question: string, visualExample: string): (r: (string, string))
    ensures var text := Combined(question, visualExample);
      (exists i :: FirstVisualRow(t, text, i) && r == t.entry(i))
      || ((forall i :: 0 <= i < VisualRows ==> !RowMatches(t, text, i)) && r == DefaultVisual)
  {
    match FirstRowFrom(t, Combined(question, visualExample), 0)
    case Some(i) => t.entry(i)
    case None => DefaultVisual
  }

  /** `get_visual_type`. */
  function GetVisualType(question: string, visualExample: string): (string, string) {
    VisualTypeIn(Table, question, visualExample)
  }

  /** Only one row can be the first. */
  lemma FirstVisualRowUnique(t: VisualTable, text: string, i: nat, j: nat)
    requires FirstVisualRow(t, text, i) && FirstVisualRow(t, text, j)
    ensures i == j
  {
  }

  /** Row order settles overlaps: "sun" is a keyword of both the orbit and
      the photosynthesis rows, and the orbit row comes first, so a text
      mentioning the sun is never illustrated by photosynthesis. */
  lemma SunMeansOrbit(question: string, visualExample: string)
    requires Contains(Combined(question, visualExample), "sun")
    ensures GetVisualType(question, visualExample).0 != "photosynthesis"
  {
    var text := Combined(question, visualExample);
    SunMatchesOrbitRow(text);
    MatchingRowBounds(Table, question, visualExample, 6);
    var i: nat :| i <= 6 && GetVisualType(question, visualExample) == Table.entry(i);
    EarlyRowsAreNotPhotosynthesis(i);
  }

  /** "sun" is a keyword of the orbit row. */
  lemma SunMatchesOrbitRow(text: string)
    requires Contains(text, "sun")
    ensures RowMatches(Table, text, 6)
  {
    var kw := VisualKeywords(6);
    assert |kw| == 12 && kw[5] == "sun";
    assert Table.keywords(6) == kw;
  }

  /** A matching row bounds the chosen one: the choice is the entry of that
      row or of an earlier one. */
  lemma MatchingRowBounds(t: VisualTable, question: string, visualExample: string, k: nat)
    requires RowMatches(t, Combined(question, visualExample), k)
    ensures exists i: nat :: i <= k && VisualTypeIn(t, question, visualExample) == t.entry(i)
  {
    var r := FirstRowFrom(t, Combined(question, visualExample), 0);
    assert r.Some? && r.value <= k;
    assert VisualTypeIn(t, question, visualExample) == t.entry(r.value);
  }

  lemma EarlyRowsAreNotPhotosynthesis(i: nat)
    requires i <= 6
    ensures Table.entry(i).0 != "photosynthesis"
  {
  }

  // ------------------------------------------------------- visual-type check

  /** The animations the client can play. */
  const ValidTypes: seq<string> := [
    "falling_object", "pendulum_swing", "wave_motion", "spring_oscillation",
    "orbital_motion", "electric_flow", "molecular_motion", "force_motion",
    "math_visual", "geometry_visual", "energy_transfer"]

  /** The model's `visual_type` is kept when the client can play it and
      replaced by the keyword choice otherwise. */
  function ResolveVisualType(proposed: string, question: string, visualExample: string): (r: string)
    ensures proposed in ValidTypes ==> r == proposed
    ensures proposed !in ValidTypes ==> r == GetVisualType(question, visualExample).0
  {
    if proposed in ValidTypes then proposed else GetVisualType(question, visualExample).0
  }

  /** Resolving twice changes nothing: a kept type is kept again, and a
      replacement is replaced by itself. */
  lemma ResolveIsIdempotent(proposed: string, question: string, visualExample: string)
    ensures var once := ResolveVisualType(proposed, question, visualExample);
      ResolveVisualType(once, question, visualExample) == once
  {
  }

  /** The resolved type is always one the pipeline knows: a valid one or
      one of the keyword table's. */
  lemma ResolvedTypeIsKnown(proposed: string, question: string, visualExample: string)
    ensures var r := ResolveVisualType(proposed, question, visualExample);
      r in ValidTypes || exists i :: 0 <= i < VisualRows && VisualEntry(i).0 == r
  {
    var r := ResolveVisualType(proposed, question, visualExample);
    if proposed !in ValidTypes {
      var text := Combined(question, visualExample);
      if exists i :: RowMatches(Table, text, i) {
        var i :| FirstVisualRow(Table, text, i) && GetVisualType(question, visualExample) == VisualEntry(i);
      } else {
        assert r == "falling_object" == VisualEntry(0).0;
      }
    }
  }

  // ------------------------------------------------------- fallback answers

  /** An explanation in the pipeline's three parts. */
  datatype Explanation = Explanation(spoken: string, visualExample: string, remember: string)

  /** The table of `generate_fallback_response` has this many keys. */
  const FallbackRows: nat := 8

  /** Key `i` of the table, in insertion order; only keys below
      `FallbackRows` are ever consulted. */
  function FallbackKey(i: nat): string {
    if i == 0 then "newton"
    else if i == 1 then "gravity"
    else if i == 2 then "pendulum"
    else if i == 3 then "wave"
    else if i == 4 then "spring"
    else if i == 5 then "atom"
    else if i == 6 then "force"
    else "energy"
  }

  /** The canned answer for key `i`. */
  function CannedAnswer(i: nat): Explanation {
    if i == 0 then Explanation(
        "Newton's First Law says that things like to stay as they are. If something is not moving, it stays still. If it's moving, it keeps moving until something stops it!",
        "Watch the ball - it stays still until I push it, then keeps rolling until friction stops it.",
        "Things don't change unless a force makes them change!")
    else if i == 1 then Explanation(
        "Gravity is like an invisible magnet that pulls everything down towards the ground. It's why things fall when you drop them!",
        "Watch the apple fall from the tree - gravity pulls it straight down to the ground.",
        "Gravity always pulls things down towards Earth!")
    else if i == 2 then Explanation(
        "A pendulum is like a swing that goes back and forth. Gravity pulls it down, and it swings up on the other side!",
        "Watch the pendulum swing back and forth - gravity keeps pulling it down in the middle.",
        "Pendulums swing because of gravity!")
    else if i == 3 then Explanation(
        "Waves are like ripples in water. They carry energy from one place to another without moving the water itself!",
        "Watch the wave move across - see how the energy travels but the water just goes up and down.",
        "Waves carry energy, not matter!")
    else if i == 4 then Explanation(
        "A spring stores energy when you stretch or squeeze it. When you let go, it bounces back!",
        "Watch the spring stretch and bounce back - it stores energy and releases it.",
        "Springs store and release energy!")
    else if i == 5 then Explanation(
        "Atoms are tiny building blocks that make up everything around us. They're too small to see, but they're everywhere!",
        "Watch the atom model - electrons spin around the center like tiny planets.",
        "Everything is made of atoms!")
    else if i == 6 then Explanation(
        "Force is a push or pull that makes things move. The harder you push, the faster things go!",
        "Watch when I push the box - a bigger push makes it move faster.",
        "Force makes things move or stop!")
    else Explanation(
        "Energy is what makes things happen! It can change form but never disappears.",
        "Watch the ball roll down - it starts with stored energy and turns into moving energy.",
        "Energy changes form but is never lost!")
  }

  /** The answer for a question no key matches; it names the question as
      asked, not lowered. */
  function DefaultFallback(question: string): Explanation {
    Explanation(
      "That's a great question! Let me explain " + question + " in a simple way.",
      "Watch this demonstration to understand the concept better.",
      "Science helps us understand the world around us!")
  }

  /** A table of canned answers laid out as `generate_fallback_response`
      lays its table out: `size` keys, each with its answer. As for the
      keyword table, the choice is stated for every such table. */
  datatype AnswerTable = AnswerTable(size: nat, key: nat -> string, answer: nat -> Explanation)

  /** The table of `generate_fallback_response`. */
  const Answers: AnswerTable := AnswerTable(FallbackRows, FallbackKey, CannedAnswer)

  /** Key `i` of `t` occurs in `lowered`. */
  predicate KeyMatches(t: AnswerTable, lowered: string, i: nat) {
    i < t.size && Contains(lowered, t.key(i))
  }

  /** Key `i` is the first key of `t` occurring in `lowered`. */
  predicate FirstFallbackKey(t: AnswerTable, lowered: string, i: nat) {
    KeyMatches(t, lowered, i) && forall j :: 0 <= j < i ==> !KeyMatches(t, lowered, j)
  }

  /** The first key of `t` from key `from` on that occurs in `lowered`. */
  function FirstKeyFrom(t: AnswerTable, lowered: string, from: nat): (r: Option<nat>)
    requires from <= t.size
    ensures r.Some? ==> from <= r.value && KeyMatches(t, lowered, r.value)
    ensures r.Some? ==> forall j :: from <= j < r.value ==> !KeyMatches(t, lowered, j)
    ensures r.None? ==> forall j :: from <= j < t.size ==> !KeyMatches(t, lowered, j)
    decreases t.size - from
  {
    if from == t.size then None
    else if KeyMatches(t, lowered, from) then Some(from)
    else FirstKeyFrom(t, lowered, from + 1)
  }

  /** The answer `generate_fallback_response` gives with table `t`: that
      of the first key, in table order, occurring in the lowered question;
      with no such key, the default naming the question. */
  function FallbackFrom(t: AnswerTable, question: string): (r: Explanation)
    ensures (exists i :: KeyMatches(t, Lower(question), i)) ==>
      exists i :: FirstFallbackKey(t, Lower(question), i) && r == t.answer(i)
    ensures (forall i :: 0 <= i < t.size ==> !KeyMatches(t, Lower(question), i)) ==> r == DefaultFallback(question)
  {
    match FirstKeyFrom(t, Lower(question), 0)
    case Some(i) => t.answer(i)
    case None => DefaultFallback(question)
  }

  /** `generate_fallback_response`. */
  function FallbackResponse(question: string): Explanation {
    FallbackFrom(Answers, question)
  }

  /** A question no key matches is repeated, verbatim, in the spoken answer. */
  lemma DefaultEchoesQuestion(t: AnswerTable, question: string)
    requires forall i :: 0 <= i < t.size ==> !KeyMatches(t, Lower(question), i)
    ensures Contains(FallbackFrom(t, question).spoken, question)
  {
    var prefix := "That's a great question! Let me explain ";
    assert FallbackFrom(t, question) == DefaultFallback(question) by {
      assert FirstKeyFrom(t, Lower(question), 0).None?;
    }
    var s := FallbackFrom(t, question).spoken;
    assert s == prefix + question + " in a simple way.";
    assert s[|prefix|..|prefix| + |question|] == question;
    assert OccursAt(s, question, |prefix|);
  }

  /** When the first key of `t` matches, its answer is given, whatever else
      the question mentions. */
  lemma FirstKeyWins(t: AnswerTable, question: string)
    requires KeyMatches(t, Lower(question), 0)
    ensures FallbackFrom(t, question) == t.answer(0)
  {
    assert FirstKeyFrom(t, Lower(question), 0) == Some(0);
  }

  /** A question about Newton's laws is answered about Newton even when it
      also mentions gravity or force. */
  lemma NewtonComesFirst(question: string)
    requires Contains(Lower(question), "newton")
    ensures FallbackResponse(question) == CannedAnswer(0)
  {
    assert Answers.key(0) == "newton";
    FirstKeyWins(Answers, question);
  }

  // ------------------------------------------------------- lip sync

  datatype Shape = Open | Wide | Neutral

  const Vowels: set<char> := {'a', 'e', 'i', 'o', 'u', 'A', 'E', 'I', 'O', 'U'}
  const WideConsonants: set<char> := {'m', 'M', 'b', 'B', 'p', 'P'}

  predicate HasAny(word: string, cs: set<char>) {
    exists i :: 0 <= i < |word| && word[i] in cs
  }

  /** The mouth shape of a word: open for a vowel anywhere, otherwise wide
      for one of m, b or p, otherwise neutral. */
  function MouthShape(word: string): Shape {
    if HasAny(word, Vowels) then Open
    else if HasAny(word, WideConsonants) then Wide
    else Neutral
  }

  /** Both letter sets hold both cases, so a word's shape does not depend
      on its capitalisation. */
  lemma MouthShapeIgnoresCase(word: string)
    ensures MouthShape(Lower(word)) == MouthShape(word)
  {
    LowerPointwise(word);
    var low := Lower(word);
    assert forall i :: 0 <= i < |word| ==> (low[i] in Vowels <==> word[i] in Vowels);
    assert forall i :: 0 <= i < |word| ==> (low[i] in WideConsonants <==> word[i] in WideConsonants);
    assert HasAny(low, Vowels) <==> HasAny(word, Vowels);
    assert HasAny(low, WideConsonants) <==> HasAny(word, WideConsonants);
  }

  /** One lip-sync frame, without its times. */
  datatype Frame = Frame(word: string, shape: Shape)

  datatype LipSync = LipSync(wordCount: nat, frames: seq<Frame>)

  /** `generate_lip_sync_data`, times aside: one frame per `split()` word,
      in order, and a word count equal to the number of frames. */
  function LipSyncData(text: string): (r: LipSync)
    ensures r.wordCount == |r.frames| == |Split(text)|
    ensures forall i :: 0 <= i < |r.frames| ==> r.frames[i].word == Split(text)[i]
    ensures forall i :: 0 <= i < |r.frames| ==> r.frames[i].shape == MouthShape(r.frames[i].word)
  {
    var words := Split(text);
    LipSync(|words|, seq(|words|, i requires 0 <= i < |words| => Frame(words[i], MouthShape(words[i]))))
  }

  /** Text with no word in it, the empty text included, gets no frame; it
      follows from the contracts of Split and LipSyncData alone. */
  lemma BlankTextHasNoFrames(text: string)
    requires forall i :: 0 <= i < |text| ==> IsSpace(text[i])
    ensures LipSyncData(text).frames == [] && LipSyncData(text).wordCount == 0
  {
  }

  /** The frames of words spoken with single spaces are those words. */
  lemma FramesFollowWords(words: seq<string>)
    requires AllTokens(words)
    ensures |LipSyncData(JoinSpace(words)).frames| == |words|
    ensures forall i :: 0 <= i < |words| ==> LipSyncData(JoinSpace(words)).frames[i].word == words[i]
  {
    SplitJoinSpace(words);
  }
}

=== FILE: visual_cues.dfy ===
/** Which sentences of the live stream ask for a visual
    (`_extract_visual_cue`): an explicit `[VISUAL: ...]` marker, or else the
    first of a fixed list of trigger phrases. */
module VisualCues {
  import opened Optional
  import opened PyStr
  import Scan

  datatype CueData = Description(text: string) | Kind(kind: string)

  /** A `visual_cue`: an action and the data the front end needs for it. */
  datatype Cue = Cue(action: string, data: CueData)

  datatype Trigger = Trigger(phrase: string, cue: Cue)

  /** The phrases that ask for a visual, in the order they are tried. */
  const VisualTriggers: seq<Trigger> := [
    Trigger("falling", Cue("animate", Kind("falling_object"))),
    Trigger("dropping", Cue("animate", Kind("falling_object"))),
    Trigger("apple falls", Cue("animate", Kind("apple_falling"))),
    Trigger("pendulum", Cue("animate", Kind("pendulum_swing"))),
    Trigger("swings", Cue("animate", Kind("pendulum_swing"))),
    Trigger("wave", Cue("animate", Kind("wave_motion"))),
    Trigger("oscillate", Cue("animate", Kind("oscillation"))),
    Trigger("graph", Cue("show_graph", Kind("function_graph"))),
    Trigger("circle", Cue("draw", Kind("circle"))),
    Trigger("triangle", Cue("draw", Kind("triangle"))),
    Trigger("diagram", Cue("show_diagram", Kind("generic")))]

  /** The explicit marker a teacher's text may carry, `[VISUAL: ...]`,
      matched without regard to case. */
  const VisualMarker: string := "[visual:"

  /** Where the first marker starts in the sentence, or -1. */
  function MarkerStart(sentence: string): int {
    Find(Lower(sentence), VisualMarker)
  }

  /** Lowering never creates or removes a `]`. */
  lemma CloseBracketSurvivesLower(s: string)
    ensures forall k :: 0 <= k < |s| ==> (OccursAt(Lower(s), "]", k) <==> s[k] == ']')
  {
    var lower := Lower(s);
    LowerPointwise(s);
    forall k | 0 <= k < |s|
      ensures OccursAt(lower, "]", k) <==> s[k] == ']'
    {
      assert lower[k..k + 1] == [lower[k]];
      assert lower[k] == ']' <==> s[k] == ']';
    }
  }

  /** The description span of the first marker: from just after the marker
      to the first `]` after it, when that span is not empty. */
  function MarkerSpan(sentence: string): (r: Option<(nat, nat)>)
    ensures r.Some? ==> MarkerStart(sentence) >= 0
    ensures r.Some? ==> r.value.0 == MarkerStart(sentence) + |VisualMarker|
    ensures r.Some? ==> r.value.0 < r.value.1 < |sentence| && sentence[r.value.1] == ']'
    ensures r.Some? ==> forall k :: r.value.0 <= k < r.value.1 ==> sentence[k] != ']'
    ensures r.None? <==> (MarkerStart(sentence) < 0
      || (forall k :: MarkerStart(sentence) + |VisualMarker| <= k < |sentence| ==> sentence[k] != ']')
      || (MarkerStart(sentence) + |VisualMarker| < |sentence| && sentence[MarkerStart(sentence) + |VisualMarker|] == ']'))
  {
    var lower := Lower(sentence);
    var m := MarkerStart(sentence);
    CloseBracketSurvivesLower(sentence);
    if m < 0 then None
    else
      var start := m + |VisualMarker|;
      var end := FindFrom(lower, "]", start);
      if end > start then Some((start, end)) else None
  }

  /** `_extract_visual_cue`. An explicit marker with a non-empty span wins;
      otherwise the first trigger phrase found in the lowered sentence. */
  function ExtractVisualCue(sentence: string): (r: Option<Cue>)
    ensures r.None? <==> (MarkerSpan(sentence).None?
      && forall i :: 0 <= i < |VisualTriggers| ==> !Contains(Lower(sentence), VisualTriggers[i].phrase))
    ensures MarkerSpan(sentence).Some? ==> var (a, b) := MarkerSpan(sentence).value;
      r == Some(Cue("show_visual", Description(Strip(sentence[a..b]))))
    ensures MarkerSpan(sentence).None? && r.Some? ==>
      exists i :: FirstTrigger(Lower(sentence), i) && r.value == VisualTriggers[i].cue
    ensures r.Some? ==> IsKnownCue(r.value)
  {
    var span := MarkerSpan(sentence);
    if span.Some? then
      Some(Cue("show_visual", Description(Strip(sentence[span.value.0..span.value.1]))))
    else TriggerCue(Lower(sentence))
  }

  /** The cue of the first trigger whose phrase occurs in `lowered`. */
  function TriggerCue(lowered: string): (r: Option<Cue>)
    ensures r.None? <==> forall i :: 0 <= i < |VisualTriggers| ==> !Contains(lowered, VisualTriggers[i].phrase)
    ensures r.Some? ==> exists i :: FirstTrigger(lowered, i) && r.value == VisualTriggers[i].cue
  {
    match Scan.First(VisualTriggers, (t: Trigger) => Contains(lowered, t.phrase))
    case Some(i) => Some(VisualTriggers[i].cue)
    case None => None
  }

  /** Trigger `i` is the first whose phrase occurs in `lowered`. */
  predicate FirstTrigger(lowered: string, i: int) {
    0 <= i < |VisualTriggers| && Contains(lowered, VisualTriggers[i].phrase)
    && forall j :: 0 <= j < i ==> !Contains(lowered, VisualTriggers[j].phrase)
  }

  /** The cues the stream can produce: a described visual, or a trigger's. */
  predicate IsKnownCue(c: Cue) {
    (c.action == "show_visual" && c.data.Description?)
    || exists i :: 0 <= i < |VisualTriggers| && VisualTriggers[i].cue == c
  }
}

=== FILE: visual_generation.dfy ===
/** The visual generation service: which generator a request goes to, which
    animation template a concept gets, how a Manim script and its scene are
    named, which image provider is tried, and the placeholder every failure
    ends in. Rendering and the image providers are oracles: the model
    decides what is asked of them and what their answers lead to. */
module VisualGeneration {
  import opened Optional
  import opened PyStr

  // ------------------------------------------------------- results

  /** What the service returns. An animation is the rendered scene, served
      as `/media/animations/<scene>.mp4`, mp4, an estimated 10 seconds; an
      image is a provider's url, png; a placeholder is a png url that spells
      out the concept, with a message when it stands in for a failed render. */
  datatype Visual =
    | Animation(scene: string)
    | Image(url: string)
    | Placeholder(url: string, message: Option<string>)

  function VisualType(v: Visual): string {
    match v
    case Animation(_) => "animation"
    case Image(_) => "image"
    case Placeholder(_, _) => "placeholder"
  }

  function Format(v: Visual): string {
    if v.Animation? then "mp4" else "png"
  }

  function Url(v: Visual): string {
    match v
    case Animation(scene) => "/media/animations/" + scene + ".mp4"
    case Image(url) => url
    case Placeholder(url, _) => url
  }

  /** The visual specification the explanation service proposes; only its
      Manim code and description are read. */
  datatype VisualSpec = VisualSpec(manimCode: Option<string>, description: Option<string>)

  /** The animation templates, in the order they are tried. */
  datatype Template = Gravity | Pendulum | Wave | Projectile | Graph | Geometry

  /** Everything outside the service's own logic: the provider keys, the
      answers the providers and the renderer would give, and the template
      scripts (long Manim sources whose text is not modelled).
      `render(script, scene)` holds when the Manim run succeeds and leaves
      its video where the service looks for it. */
  datatype World = World(
    stabilityKey: string,
    replicateToken: string,
    stabilityAnswers: bool,
    replicateAnswers: bool,
    render: (string, string) -> bool,
    templateScript: Template -> string)

  // ------------------------------------------------------- placeholder

  const PlaceholderBase := "https://via.placeholder.com/800x600/4A90D9/FFFFFF?text="

  /** The placeholder url: the concept, spaces turned into `+`, as the text
      parameter. */
  function PlaceholderUrl(concept: string): (r: string)
    ensures |r| == |PlaceholderBase| + |concept|
    ensures r[..|PlaceholderBase|] == PlaceholderBase
    ensures forall i :: |PlaceholderBase| <= i < |r| ==> r[i] != ' '
    ensures forall i :: 0 <= i < |concept| ==>
      r[|PlaceholderBase| + i] == (if concept[i] == ' ' then '+' else concept[i])
  {
    PlaceholderBase + ReplaceChar(concept, ' ', '+')
  }

  /** The text parameter gives the concept back when the concept had no `+`
      of its own: turning `+` into spaces again undoes the encoding. */
  lemma PlaceholderTextRoundTrip(concept: string)
    requires !ContainsChar(concept, '+')
    ensures ReplaceChar(PlaceholderUrl(concept)[|PlaceholderBase|..], '+', ' ') == concept
  {
    var text := PlaceholderUrl(concept)[|PlaceholderBase|..];
    assert text == ReplaceChar(concept, ' ', '+');
    var back := ReplaceChar(text, '+', ' ');
    assert forall i :: 0 <= i < |concept| ==> back[i] == concept[i] by {
      forall i | 0 <= i < |concept|
        ensures back[i] == concept[i]
      {
        assert concept[i] != '+';
      }
    }
  }

  /** `_get_placeholder_visual`. */
  function PlaceholderVisual(concept: string): (r: Visual)
    ensures VisualType(r) == "placeholder" && Format(r) == "png"
    ensures Url(r) == PlaceholderUrl(concept) && r.message == None
  {
    Placeholder(PlaceholderUrl(concept), None)
  }

  /** `_generate_fallback_visual`: the placeholder with a message. */
  function FallbackVisual(concept: string): (r: Visual)
    ensures VisualType(r) == "placeholder" && Format(r) == "png"
    ensures Url(r) == PlaceholderUrl(concept) && r.message == Some("Visual generation in progress")
  {
    Placeholder(PlaceholderUrl(concept), Some("Visual generation in progress"))
  }

  // ------------------------------------------------------- scene name

  const SceneChars: set<char> := {' ', '?'}

  /** The concept with every space and question mark removed, cut to 20
      characters, followed by "Scene". */
  function SceneName(concept: string): (r: string)
    ensures 5 <= |r| <= 25
    ensures r[|r| - 5..] == "Scene"
    ensures forall i :: 0 <= i < |r| ==> r[i] !in SceneChars
  {
    var kept := Take(RemoveChars(concept, SceneChars), 20);
    SceneSuffix(kept);
    kept + "Scene"
  }

  lemma SceneSuffix(kept: string)
    requires |kept| <= 20
    requires forall i :: 0 <= i < |kept| ==> kept[i] !in SceneChars
    ensures var r := kept + "Scene";
      5 <= |r| <= 25 && r[|r| - 5..] == "Scene" && forall i :: 0 <= i < |r| ==> r[i] !in SceneChars
  {
    var r := kept + "Scene";
    assert r[|kept|..] == "Scene";
    forall i | |kept| <= i < |r|
      ensures r[i] !in SceneChars
    {
      assert r[i] == "Scene"[i - |kept|];
    }
  }

  /** A space or question mark anywhere in the concept does not change the
      scene name. */
  lemma SceneNameSkips(before: string, c: char, after: string)
    requires c in SceneChars
    ensures SceneName(before + [c] + after) == SceneName(before + after)
  {
    RemoveCharsAppend(before + [c], after, SceneChars);
    RemoveCharsAppend(before, [c], SceneChars);
    RemoveCharsAppend(before, after, SceneChars);
    assert RemoveChars([c], SceneChars) == [];
    assert RemoveChars(before, SceneChars) + [] == RemoveChars(before, SceneChars);
  }

  /** A concept with neither character is cut to its first 20 characters:
      a short one is kept whole. */
  lemma SceneNameOfCleanConcept(concept: string)
    requires forall i :: 0 <= i < |concept| ==> concept[i] !in SceneChars
    ensures SceneName(concept) == (if |concept| <= 20 then concept else concept[..20]) + "Scene"
  {
    RemoveCharsOfClean(concept, SceneChars);
  }

  /** The scene name of a concept is that of the concept with its spaces
      and question marks taken out, so with SceneNameOfCleanConcept it is
      the first 20 characters that remain, then "Scene". */
  lemma {:induction false} SceneNameOfCleaned(concept: string)
    ensures SceneName(concept) == SceneName(RemoveChars(concept, SceneChars))
  {
    var kept := RemoveChars(concept, SceneChars);
    RemoveCharsOfClean(kept, SceneChars);
  }

  // ------------------------------------------------------- Manim scripts

  /** `_wrap_manim_code`: the code as the body of `construct` in a class
      named after the scene. */
  function WrapManimCode(code: string, scene: string): string {
    "from manim import *\n\nclass " + scene + "(Scene):\n    def construct(self):\n        " + code + "\n"
  }

  /** The script handed to Manim: the code wrapped in a scene class only
      when it does not already mention "class". */
  function PrepareScript(code: string, scene: string): (r: string)
    ensures Contains(r, "class")
    ensures Contains(r, code)
    ensures Contains(code, "class") ==> r == code
  {
    if Contains(code, "class") then
      assert OccursAt(code, code, 0) by {
        assert code[0..|code|] == code;
      }
      code
    else
      var prefix := "from manim import *\n\nclass " + scene + "(Scene):\n    def construct(self):\n        ";
      var r := WrapManimCode(code, scene);
      assert r == prefix + code + "\n";
      assert r[21..26] == "class";
      assert OccursAt(r, "class", 21);
      assert r[|prefix|..|prefix| + |code|] == code;
      assert OccursAt(r, code, |prefix|);
      r
  }

  /** Preparing a prepared script changes nothing: a script is wrapped at
      most once. */
  lemma PrepareIsIdempotent(code: string, scene: string)
    ensures PrepareScript(PrepareScript(code, scene), scene) == PrepareScript(code, scene)
  {
  }

  // ------------------------------------------------------- templates

  /** The words of the lowered concept that select a template. */
  function TemplateKeywords(t: Template): seq<string> {
    match t
    case Gravity => ["gravity", "falling"]
    case Pendulum => ["pendulum"]
    case Wave => ["wave"]
    case Projectile => ["projectile"]
    case Graph => ["graph", "function"]
    case Geometry => ["circle", "area"]
  }

  /** The position of a template in the order they are tried. */
  function Rank(t: Template): nat {
    match t
    case Gravity => 0
    case Pendulum => 1
    case Wave => 2
    case Projectile => 3
    case Graph => 4
    case Geometry => 5
  }

  predicate Mentions(lowered: string, t: Template) {
    exists k :: 0 <= k < |TemplateKeywords(t)| && Contains(lowered, TemplateKeywords(t)[k])
  }

  lemma MentionsOne(lowered: string, t: Template, a: string)
    requires TemplateKeywords(t) == [a]
    ensures Mentions(lowered, t) <==> Contains(lowered, a)
  {
    if Contains(lowered, a) {
      assert TemplateKeywords(t)[0] == a;
    }
  }

  lemma MentionsTwo(lowered: string, t: Template, a: string, b: string)
    requires TemplateKeywords(t) == [a, b]
    ensures Mentions(lowered, t) <==> Contains(lowered, a) || Contains(lowered, b)
  {
    if Contains(lowered, a) {
      assert TemplateKeywords(t)[0] == a;
    }
    if Contains(lowered, b) {
      assert TemplateKeywords(t)[1] == b;
    }
  }

  /** `_select_animation_template`: the first template, in order, one of
      whose words occurs in the lowered concept. The description is not
      looked at. */
  function SelectTemplate(description: Option<string>, concept: string): (r: Option<Template>)
    ensures r.Some? ==> Mentions(Lower(concept), r.value)
    ensures r.Some? ==> forall t :: Rank(t) < Rank(r.value) ==> !Mentions(Lower(concept), t)
    ensures r.None? ==> forall t :: !Mentions(Lower(concept), t)
  {
    var c := Lower(concept);
    MentionsTwo(c, Gravity, "gravity", "falling");
    MentionsOne(c, Pendulum, "pendulum");
    MentionsOne(c, Wave, "wave");
    MentionsOne(c, Projectile, "projectile");
    MentionsTwo(c, Graph, "graph", "function");
    MentionsTwo(c, Geometry, "circle", "area");
    if Contains(c, "gravity") || Contains(c, "falling") then Some(Gravity)
    else if Contains(c, "pendulum") then Some(Pendulum)
    else if Contains(c, "wave") then Some(Wave)
    else if Contains(c, "projectile") then Some(Projectile)
    else if Contains(c, "graph") || Contains(c, "function") then Some(Graph)
    else if Contains(c, "circle") || Contains(c, "area") then Some(Geometry)
    else None
  }

  /** The choice depends on the concept alone, whatever the description
      says. */
  lemma TemplateIgnoresDescription(d1: Option<string>, d2: Option<string>, concept: string)
    ensures SelectTemplate(d1, concept) == SelectTemplate(d2, concept)
  {
  }

  // ------------------------------------------------------- generators

  /** `_render_manim_animation`: the scene named after the concept when the
      render succeeds, the placeholder with a message otherwise. */
  function RenderManim(code: string, concept: string, w: World): (r: Visual)
    ensures r == Animation(SceneName(concept)) || r == FallbackVisual(concept)
    ensures r.Animation? <==> w.render(PrepareScript(code, SceneName(concept)), SceneName(concept))
  {
    var scene := SceneName(concept);
    if w.render(PrepareScript(code, scene), scene) then Animation(scene) else FallbackVisual(concept)
  }

  /** `_generate_image`: Stability when its key is set, else Replicate when
      its token is set, else the placeholder; a provider that does not
      answer as expected raises, which also gives the placeholder. */
  function GenerateImage(spec: VisualSpec, concept: string, w: World): (r: Visual)
    ensures r == Image("generated_image_url") <==> w.stabilityKey != [] && w.stabilityAnswers
    ensures r == Image("replicate_image_url") <==>
      w.stabilityKey == [] && w.replicateToken != [] && w.replicateAnswers
    ensures !r.Image? ==> r == PlaceholderVisual(concept)
  {
    if w.stabilityKey != [] then
      (if w.stabilityAnswers then Image("generated_image_url") else PlaceholderVisual(concept))
    else if w.replicateToken != [] then
      (if w.replicateAnswers then Image("replicate_image_url") else PlaceholderVisual(concept))
    else PlaceholderVisual(concept)
  }

  /** With a Stability key set, Replicate is never consulted. */
  lemma StabilityComesFirst(spec: VisualSpec, concept: string, w: World, token: string, answers: bool)
    requires w.stabilityKey != []
    ensures GenerateImage(spec, concept, w.(replicateToken := token, replicateAnswers := answers))
      == GenerateImage(spec, concept, w)
  {
  }

  /** `_generate_template_animation`: render the template chosen for the
      concept, or fall back to an image when none is chosen. */
  function TemplateAnimation(spec: VisualSpec, concept: string, w: World): (r: Visual)
    ensures SelectTemplate(spec.description, concept).None? ==> r == GenerateImage(spec, concept, w)
    ensures SelectTemplate(spec.description, concept).Some? ==>
      r == RenderManim(w.templateScript(SelectTemplate(spec.description, concept).value), concept, w)
  {
    match SelectTemplate(spec.description, concept)
    case Some(t) => RenderManim(w.templateScript(t), concept, w)
    case None => GenerateImage(spec, concept, w)
  }

  /** Manim code counts when it is present and not empty. */
  predicate HasCode(spec: VisualSpec) {
    spec.manimCode.Some? && spec.manimCode.value != []
  }

  /** `_generate_animation`: the spec's own Manim code when it has some,
      the template path otherwise. */
  function GenerateAnimation(spec: VisualSpec, concept: string, w: World): (r: Visual)
    ensures HasCode(spec) ==> r == RenderManim(spec.manimCode.value, concept, w)
    ensures !HasCode(spec) ==> r == TemplateAnimation(spec, concept, w)
  {
    if HasCode(spec) then RenderManim(spec.manimCode.value, concept, w)
    else TemplateAnimation(spec, concept, w)
  }

  /** `generate_visual`: animations to the animation generator; images,
      diagrams and every other type to image generation. */
  function GenerateVisual(spec: VisualSpec, concept: string, visualType: string, w: World): (r: Visual)
    ensures visualType == "animation" ==> r == GenerateAnimation(spec, concept, w)
    ensures visualType != "animation" ==> r == GenerateImage(spec, concept, w)
  {
    if visualType == "animation" then GenerateAnimation(spec, concept, w)
    else if visualType == "image" then GenerateImage(spec, concept, w)
    else if visualType == "diagram" then GenerateImage(spec, concept, w)
    else GenerateImage(spec, concept, w)
  }

  /** Only an animation request can produce a video, and the video is
      always the scene named after the concept; every result that is not a
      video is a png. */
  lemma VideoOnlyForAnimations(spec: VisualSpec, concept: string, visualType: string, w: World)
    ensures var r := GenerateVisual(spec, concept, visualType, w);
      (r.Animation? ==> visualType == "animation" && r.scene == SceneName(concept))
      && (Format(r) == "mp4" <==> r.Animation?)
  {
  }

  /** Every failure lands on a placeholder for the concept: whatever the
      providers and the renderer do, the result is a video, a provider's
      image or a placeholder whose url spells out the concept. */
  lemma FailuresEndInPlaceholder(spec: VisualSpec, concept: string, visualType: string, w: World)
    ensures var r := GenerateVisual(spec, concept, visualType, w);
      r.Animation? || r.Image? || Url(r) == PlaceholderUrl(concept)
  {
  }

  /** With no provider key, no template and no code, an animation request
      ends in the plain placeholder. */
  lemma NothingConfiguredGivesPlaceholder(spec: VisualSpec, concept: string, w: World)
    requires !HasCode(spec) && SelectTemplate(spec.description, concept).None?
    requires w.stabilityKey == [] && w.replicateToken == []
    ensures GenerateVisual(spec, concept, "animation", w) == PlaceholderVisual(concept)
  {
  }
}
